=== FILE: README.md ===
# FileSharingSystem: a Dafny model of the Kademlia node and its storage

FileSharingSystem is a peer-to-peer file sharing system. Each storage node runs a
Kademlia distributed hash table. Peers are named by 160-bit identifiers and ordered by
XOR distance. A node keeps them in k-buckets of at most 20 live contacts and answers
PING, STORE, FIND_NODE, FIND_VALUE and the piece and metadata requests over UDP, with
TCP for large messages. Files are cut into SHA-1-named chunks, and torrent pieces and
metadata are spread over the closest nodes. A gateway fronts the nodes and computes
torrent info hashes.

This project models that core as immutable datatypes and pure functions, and proves
what the code promises about them:

- `common.dfy`: Java bytes (`Byte`, the unsigned bit pattern of a Java `byte`), null
  (`Option`), exceptions (`Result`/`Fault`), and the uninterpreted SHA-1 and charset.
- `hex.dfy`: the hex codec shared by `NodeID`, `ChunkStorage` and the gateway.
- `node_id.dfy` and `gateway_node_id.dfy`: identifiers, XOR, the bit-length distance,
  bit access and the unsigned order.
- `contact.dfy`: contacts, liveness counters and the port codec.
- `closest.dfy`, `kbucket.dfy` and `routing_table.dfy`: the stable "closest contacts"
  sort, k-buckets with replacement caches, and the routing table with its bucket
  splitting.
- `data_store.dfy`: the DHT value store with its 24-hour expiry.
- `message.dfy`: message tags and classes.
- `rpc.dfy`: the pending-request table and how each RPC reads its reply.
- `node_state.dfy` and `server.dfy`: the server's request-to-reply mapping over UDP and
  TCP.
- `kademlia_node.dfy`: the iterative lookups (`nodeLookup`, `findValue`) and the store
  and retrieve operations, run against RPC answer oracles.
- `chunk_storage.dfy`, `file_manager.dfy`, `piece_manager.dfy`, `metadata_store.dfy`
  and `torrent_file.dfy`: chunk, piece and metadata storage, and the torrent file.

The environment becomes parameters:

- the clock is `now` (milliseconds);
- SHA-1 is a function `Bytes -> Digest` and the platform charset a function
  `string -> Bytes`;
- fresh message ids are `freshId` strings;
- each remote call's outcome is read from a map keyed by node id. A missing entry is a
  failed call.

The model reproduces the code as written, including the cases where it surprises:

- `nodeLookup` never adds a discovered contact to its result.
- `isResponse` leaves out STORE_PIECE_RESPONSE, so a STORE_PIECE sent over UDP always
  times out.
- TCP always confirms STORE_PIECE and STORE_METADATA with success.
- The node's String constructor for `NodeID` yields a 10-byte id.
- Piece keys that differ only in `:` and `_` share a file.

## Model

Paths are relative to the repository root.

| member | source | states |
|---|---|---|
| NodeIds.FromBytes | node/src/main/java/core/NodeID.java:13-18 | The byte-array constructor accepts exactly the 20-byte arrays and keeps their contents; any other length is an IllegalArgumentException |
| NodeIds.FromString | node/src/main/java/core/NodeID.java:19-25 | The String constructor accepts exactly 20 characters and hex-decodes them into 10 bytes |
| NodeIds.FromHash | node/src/main/java/core/NodeID.java:35-44 | `fromHash` yields the identifier whose bytes are the SHA-1 digest of the UTF-8 text |
| NodeIds.ToHex | node/src/main/java/core/NodeID.java:106-112 | `toString` prints two lower-case hex digits per byte |
| NodeIds.FromHexStringInvertsToHex | node/src/main/java/core/NodeID.java:19-25 | A String constructor reading 40 hex characters inverts `toString` for every identifier |
| NodeIds.FromStringYieldsShortId | node/src/main/java/core/NodeID.java:19-25 | As written, a 20-character string gives a 10-byte id, and the 40-character `toString` of any id is refused |
| NodeIds.XorSymmetric | node/src/main/java/core/NodeID.java:57-63 | `a.xor(b)` equals `b.xor(a)` |
| NodeIds.XorSelf | node/src/main/java/core/NodeID.java:57-63 | `a.xor(a)` is the all-zero identifier |
| NodeIds.XorBit | node/src/main/java/core/NodeID.java:57-63 | `xor` is bitwise: each bit of the result is set exactly where the operands' bits differ |
| NodeIds.GetBit | node/src/main/java/core/NodeID.java:73-77 | `getBit` is always 0 or 1 |
| NodeIds.GetBitIsShift | node/src/main/java/core/NodeID.java:73-77 | `getBit(i)` is bit `7 - i % 8` of byte `i / 8`, so index 0 is the most significant bit |
| NodeIds.BitLengthOfUnsigned | node/src/main/java/core/NodeID.java:66-70 | The bit length of the unsigned big-endian number is its width minus its leading zero bits |
| NodeIds.DistanceIsPrefixComplement | node/src/main/java/core/NodeID.java:66-77 | `getDistance(a, b)` is 160 minus the length of the common most-significant-first bit prefix of `a` and `b` |
| NodeIds.CommonPrefixIsLeadingZeros | node/src/main/java/core/NodeID.java:57-77 | The common bit prefix of two ids ends where the leading zeros of their XOR end |
| NodeIds.DistanceAtMost160 | node/src/main/java/core/NodeID.java:66-70 | The distance never exceeds 160 |
| NodeIds.DistanceSymmetric | node/src/main/java/core/NodeID.java:66-70 | The distance is symmetric |
| NodeIds.DistanceZeroIff | node/src/main/java/core/NodeID.java:66-70 | The distance is 0 exactly when the identifiers are equal |
| NodeIds.CompareZeroIffEqual | node/src/main/java/core/NodeID.java:84-103 | `compareTo` returns 0 exactly when `equals` holds |
| NodeIds.CompareAntisymmetric | node/src/main/java/core/NodeID.java:96-103 | Swapping the operands of `compareTo` negates the result |
| NodeIds.CompareIsUnsignedOrder | node/src/main/java/core/NodeID.java:96-103 | `compareTo` orders ids as unsigned 160-bit big-endian numbers |
| GatewayIds.FromString | gateway/src/main/java/model/NodeID.java:19-23 | With no length check on the input, every string yields the 20-byte SHA-1 digest of its bytes |
| GatewayIds.ToStringIsFortyHex | gateway/src/main/java/model/NodeID.java:67-73 | A gateway id prints as 40 lower-case hex characters, which decode back to the id |
| GatewayIds.FromStringIsFromHash | gateway/src/main/java/model/NodeID.java:19-33 | The String constructor and `fromHash` agree when the charset is UTF-8 |
| Hex.Encode | node/src/main/java/file/ChunkStorage.java:74-78 | `bytesToHex` has two characters per byte, all from `0-9a-f` |
| Hex.Digit | node/src/main/java/file/ChunkStorage.java:81-89 | `Character.digit(c, 16)` is a nibble for a hex digit and -1 for anything else |
| Hex.Decode | node/src/main/java/file/ChunkStorage.java:81-89 | `hexToBytes` fails exactly on odd-length input and otherwise returns `len / 2` bytes |
| Hex.DecodeEncode | node/src/main/java/file/ChunkStorage.java:74-89 | `hexToBytes(bytesToHex(b)) == b` |
| Hex.DecodeValues | node/src/main/java/file/ChunkStorage.java:81-89 | For even-length valid hex, each decoded byte is high nibble * 16 + low nibble |
| Hex.EncodeAt | node/src/main/java/file/ChunkStorage.java:74-78 | Byte `i` is printed at characters `2i` and `2i + 1` |
| Contacts.NewContact | node/src/main/java/core/Contact.java:18-24 | A new contact has zero failed requests and was last seen now; a port outside 0..65535 is refused |
| Contacts.SamePeerSameHash | node/src/main/java/core/Contact.java:117-128 | Contacts that `equals` each other hash equally, whatever their addresses |
| Contacts.SamePeer | node/src/main/java/core/Contact.java:117-123 | `equals` holds exactly when `compareTo` on the two node ids answers 0 |
| Contacts.WrapInt | node/src/main/java/core/Contact.java:61-63 | Java `int` arithmetic: the result is in range, equals an in-range value, and agrees with the exact value modulo 2^32 |
| Contacts.ArraysHashCode | node/src/main/java/core/NodeID.java:91-93 | `Arrays.hashCode` is the exact polynomial `31 * h + b` from 1 over the signed bytes, reduced to an `int` |
| Contacts.HashCode | node/src/main/java/core/Contact.java:126-128 | A contact hashes as its node id, a Java `int` |
| Contacts.StaleAfterTimeout | node/src/main/java/core/Contact.java:69-71 | A refreshed contact turns stale exactly once the timeout has passed and then stays stale |
| Contacts.UpdateLastSeen | node/src/main/java/core/Contact.java:56-59 | `updateLastSeen` sets `lastSeen` to now, resets the failure count and changes nothing else |
| Contacts.IncrementFailedRequests | node/src/main/java/core/Contact.java:61-63 | The failure count grows by one as a Java int and nothing else changes |
| Contacts.PortToBytes | node/src/main/java/core/Contact.java:106-108 | The port becomes two big-endian bytes |
| Contacts.BytesToPort | node/src/main/java/core/Contact.java:110-112 | The first two bytes read big-endian as `data[0] * 256 + data[1]`, a port in 0..65535 that `portToBytes` writes back as the same two bytes; fewer bytes throw |
| Contacts.PortRoundTrip | node/src/main/java/core/Contact.java:106-112 | `bytesToPort(portToBytes(p)) == p` for every port |
| Contacts.AddressBytes | node/src/main/java/core/Contact.java:78-85 | `getAddressBytes` is the IP bytes followed by the two port bytes, which decode back to the port |
| KBuckets.NewBucket | node/src/main/java/dht/KBucket.java:14-18 | A new bucket has the given depth and no contacts |
| KBuckets.AddContact | node/src/main/java/dht/KBucket.java:21-40 | A known contact moves to the front, the other live contacts keeping their order; a new one goes to the front of the unchanged list while there is room; otherwise the live list is unchanged, the contact heads the replacement cache with the old cache behind it, its oldest entry dropped beyond K, and the call answers false |
| KBuckets.RemoveContact | node/src/main/java/dht/KBucket.java:43-50 | Answers whether the contact was live; the other live contacts stay, in their order, and the cache head then refills the tail, keeping the size |
| Closest.SortBy | node/src/main/java/dht/KBucket.java:55-59 | A permutation of the input in ascending distance; `List.sort` is stable, so among contacts at the same distance the input order is kept |
| KBuckets.ClosestContacts | node/src/main/java/dht/KBucket.java:53-61 | `min(count, size)` live contacts, sorted by distance, none farther than any contact left out |
| KBuckets.LeastRecentlySeen | node/src/main/java/dht/KBucket.java:74-76 | The tail of the live list, or null when the bucket is empty |
| KBuckets.FullIffRefuses | node/src/main/java/dht/KBucket.java:69-71 | A bucket is full exactly when it turns a new contact away, leaving its live list unchanged |
| KBuckets.Size | node/src/main/java/dht/KBucket.java:82-84 | The size never exceeds K = 20 and is 0 exactly when there is no least recently seen contact |
| KBuckets.CapacityInvariant | node/src/main/java/dht/KBucket.java:21-50 | After any sequence of additions and removals, a bucket holds at most K = 20 live contacts |
| KBuckets.FullBucketRejects | node/src/main/java/dht/KBucket.java:35-39 | A new contact offered to a full bucket goes to the cache; the live list is unchanged |
| RoutingTables.NewTable | node/src/main/java/dht/RoutingTable.java:13-20 | A new table has one bucket and no contacts |
| RoutingTables.Lookup | node/src/main/java/dht/RoutingTable.java:100-102 | `getContact` finds the indexed contact with that id, or null |
| RoutingTables.GetContact | node/src/main/java/dht/RoutingTable.java:100-102 | `getContact` finds a contact exactly for an indexed id, with that id, and never the local node |
| RoutingTables.BucketIndex | node/src/main/java/dht/RoutingTable.java:82-86 | The bucket index is `distance - 1` clamped to the bucket range, and never above 159 |
| RoutingTables.Redistribute | node/src/main/java/dht/RoutingTable.java:64-74 | Each half of a split receives exactly the contacts whose bit selects it |
| RoutingTables.SplitHalves | node/src/main/java/dht/RoutingTable.java:64-74 | The two halves are one level deeper, within capacity, and together hold every old live id, split by bit |
| RoutingTables.SplitBucket | node/src/main/java/dht/RoutingTable.java:51-79 | Only the last bucket splits, while its depth stays within 160; the count grows by one and no live contact is lost |
| RoutingTables.Refresh | node/src/main/java/dht/RoutingTable.java:33-37 | A re-added contact's last-seen time is refreshed, and its HTTP port is taken unless the new one is -1 |
| RoutingTables.AddContact | node/src/main/java/dht/RoutingTable.java:23-47 | The local id is refused; a known id is refreshed in place; a new contact is indexed exactly when the call answers true, which it does when its bucket has room or already holds it; a full bucket that is not the last refuses it and no bucket is added; a full last bucket splits, so the table grows |
| RoutingTables.RemoveContact | node/src/main/java/dht/RoutingTable.java:105-113 | Answers whether the id was indexed and removes it, leaving every other entry |
| RoutingTables.FindClosestContacts | node/src/main/java/dht/RoutingTable.java:89-97 | `min(count, total)` indexed contacts, sorted by distance, none farther than any contact left out |
| RoutingTables.TotalContacts | node/src/main/java/dht/RoutingTable.java:120-122 | The number of distinct ids indexed |
| RoutingTables.TableInvariant | node/src/main/java/dht/RoutingTable.java:13-113 | From the constructor, whatever the calls, the local id is never indexed, there are at most 161 buckets, and each has at most K live contacts |
| DataStores.Put | node/src/main/java/dht/DataStore.java:19-23 | `put` overwrites the value, restarts its lifetime and touches no other key |
| DataStores.Get | node/src/main/java/dht/DataStore.java:26-37 | `get` returns a value exactly when it is at most 24 hours old; an expired entry is erased from both maps |
| DataStores.Remove | node/src/main/java/dht/DataStore.java:40-44 | `remove` forgets the key in both maps and nothing else |
| DataStores.Contains | node/src/main/java/dht/DataStore.java:47-49 | `contains` is `get` being non-null, with the same erasure |
| DataStores.Cleanup | node/src/main/java/dht/DataStore.java:52-66 | `cleanup` erases exactly the entries more than 24 hours old and keeps the others unchanged |
| DataStores.PutThenGet | node/src/main/java/dht/DataStore.java:19-37 | A value put at time T is read back at any time up to T + 24h |
| DataStores.PutThenExpire | node/src/main/java/dht/DataStore.java:26-54 | Past T + 24h the read returns null and erases the entry |
| DataStores.CleanupPreservesReads | node/src/main/java/dht/DataStore.java:26-66 | Cleaning up changes no later read |
| DataStores.GetIsStable | node/src/main/java/dht/DataStore.java:26-37 | A read does not change what later reads return |
| DataStores.ExpiryIsFinal | node/src/main/java/dht/DataStore.java:52-54 | An entry is live through exactly 24 hours and, once expired, stays expired |
| DataStores.Size | node/src/main/java/dht/DataStore.java:68-70 | The size counts the values, which is also the number of timestamps |
| DataStores.SizeAfterPut | node/src/main/java/dht/DataStore.java:19-70 | `put` grows the size by one for a new key and keeps it for a stored one |
| Messages.TypeOf | node/src/main/java/dht/Message.java:11-20 | Each class fixes its tag; FIND_PIECE and FIND_PIECES_RESPONSE are never used |
| Messages.TagDeterminesClass | node/src/main/java/dht/Message.java:54-329 | Two messages with the same tag are of the same class |
| Messages.HttpAwarePort | node/src/main/java/dht/Message.java:54-308 | Only PING and STORE are HttpAware, carrying their own HTTP port |
| Messages.EmptyPieceHasNoData | node/src/main/java/dht/Message.java:284 | `hasData` is false for null and for empty data, true for any non-empty data |
| Messages.NewPing | node/src/main/java/dht/Message.java:54-64 | A PING carries its HTTP port and is HttpAware |
| Messages.NewPong | node/src/main/java/dht/Message.java:72-75 | A PONG is tagged PONG and carries the given request id |
| Messages.NewStore | node/src/main/java/dht/Message.java:81-105 | A STORE carries key, value and HTTP port, and is HttpAware |
| Messages.NewStoreResponse | node/src/main/java/dht/Message.java:124-128 | A STORE_RESPONSE carries the request id and the success flag |
| Messages.NewFindNode | node/src/main/java/dht/Message.java:138-141 | A FIND_NODE carries the target id |
| Messages.NewFindNodeResponse | node/src/main/java/dht/Message.java:151-155 | A FIND_NODE_RESPONSE carries the request id and the contacts |
| Messages.NewFindValue | node/src/main/java/dht/Message.java:165-168 | A FIND_VALUE carries the key |
| Messages.NewFindValueResponse | node/src/main/java/dht/Message.java:179-190 | A FIND_VALUE_RESPONSE carries the request id, the value and the contacts; `hasValue` holds exactly when the value is non-null |
| Messages.NewStorePiece | node/src/main/java/dht/Message.java:195-211 | A STORE_PIECE carries key, data and an HTTP port, but is not HttpAware |
| Messages.NewStorePieceResponse | node/src/main/java/dht/Message.java:226-230 | A StorePieceResponse is tagged STORE_PIECE_RESPONSE and carries the request id |
| Messages.NewGetPiece | node/src/main/java/dht/Message.java:243-256 | A GET_PIECE carries key and HTTP port, but is not HttpAware |
| Messages.NewGetPieceResponse | node/src/main/java/dht/Message.java:274-279 | A GetPieceResponse is tagged GET_PIECES_RESPONSE and carries the request id, key and data |
| Messages.NewStoreMetadata | node/src/main/java/dht/Message.java:295-308 | A STORE_METADATA carries the torrent and HTTP port, but is not HttpAware |
| Messages.NewStoreMetadataResponse | node/src/main/java/dht/Message.java:325-329 | A STORE_METADATA_RESPONSE carries the request id and the success flag |
| Rpc.RequestIdOf | node/src/main/java/dht/KademliaRPC.java:41-52 | `getRequestId` is the request id of the seven response classes and null for every request |
| Rpc.HandleResponse | node/src/main/java/dht/KademliaRPC.java:27-39 | The entry under the response's request id is removed and completed with it; a request changes nothing |
| Rpc.DuplicateResponseIgnored | node/src/main/java/dht/KademliaRPC.java:27-39 | A second response with the same id finds no entry and changes nothing |
| Rpc.Await | node/src/main/java/dht/KademliaRPC.java:82-86 | The first matching arrival completes the call; with none the entry is removed and the call times out |
| Rpc.SendRequest | node/src/main/java/dht/KademliaRPC.java:54-87 | The entry is registered before sending; over 60000 bytes TCP answers directly and leaves it registered; over UDP a successful send ends with the entry removed, by the matching response or by the timeout, and a failed send leaves it registered |
| Rpc.UnansweredRequestTimesOut | node/src/main/java/dht/KademliaRPC.java:82-86 | An unanswered UDP request times out and leaves no entry |
| Rpc.Ping | node/src/main/java/dht/KademliaRPC.java:130-153 | A PONG refreshes the contact and returns it; an exception counts a failure; any other reply returns null and changes nothing |
| Rpc.SuccessNeedsMatchingClass | node/src/main/java/dht/KademliaRPC.java:155-164 | `store`, and likewise `sendStorePiece` and `sendStoreMetadata`, succeed exactly on a response of their own class reporting success |
| Rpc.GetPieceData | node/src/main/java/dht/KademliaRPC.java:243-275 | `sendGetPiece` returns bytes exactly for a GET_PIECES_RESPONSE with data |
| Rpc.Offer | node/src/main/java/dht/KademliaRPC.java:172 | Offering a contact to the routing table changes no other entry and refreshes a known one |
| Rpc.AddAllKeepsOthers | node/src/main/java/dht/KademliaRPC.java:172 | Offering a list of contacts changes no entry whose id is not on the list |
| Rpc.FindNode | node/src/main/java/dht/KademliaRPC.java:166-178 | `findNode` returns the contacts of a FIND_NODE_RESPONSE and the empty list otherwise |
| Rpc.FindValue | node/src/main/java/dht/KademliaRPC.java:184-196 | `findValue` returns the value when present, else the contacts, else the empty result |
| Server.ResponsesForwarded | node/src/main/java/dht/KademliaServer.java:163-172 | Every correlated response class except STORE_PIECE_RESPONSE is forwarded to the RPC layer |
| Server.IsResponse | node/src/main/java/dht/KademliaServer.java:163-172 | The forwarded messages are exactly the correlated response classes other than STORE_PIECE_RESPONSE |
| Server.AddSender | node/src/main/java/dht/KademliaServer.java:84-95 | Recording the sender changes no other routing entry and refreshes a known sender |
| Server.Answer | node/src/main/java/dht/KademliaServer.java:97-154 | Each request tag is answered with a reply to its message id from the local node; the pending table is untouched, and the routing table changes at most by offering the sender |
| Server.SenderHttpPort | node/src/main/java/dht/KademliaServer.java:84-95 | The sender's HTTP port is the message's own when HttpAware, else `udpPort % 2206 + 8082` |
| Server.HandlePing | node/src/main/java/dht/KademliaServer.java:100-102 | A PING is answered by a PONG whose request id is the ping's message id |
| Server.HandleStore | node/src/main/java/dht/KademliaServer.java:103-113 | A STORE succeeds exactly when key and value are non-null, and the stored value is then readable; otherwise nothing changes |
| Server.HandleFindNode | node/src/main/java/dht/KademliaServer.java:114-122 | FIND_NODE is answered with the K indexed contacts closest to the target |
| Server.HandleFindValue | node/src/main/java/dht/KademliaServer.java:123-137 | FIND_VALUE is answered with the live value and null contacts, or a null value and the K closest contacts |
| Server.HandleStorePiece | node/src/main/java/dht/KademliaServer.java:191-232 | A non-null piece is saved and confirmed; a null one is refused and nothing is saved |
| Server.HandleGetPiece | node/src/main/java/dht/KademliaServer.java:235-291 | GET_PIECE is answered with the locally stored bytes, or null data |
| Server.HandleStoreMetadata | node/src/main/java/dht/KademliaServer.java:296-337 | A torrent with an info hash is stored and confirmed; otherwise failure is answered and nothing changes |
| Server.Dispatch | node/src/main/java/dht/KademliaServer.java:97-154 | Exactly the seven request tags get a reply, which answers the request's message id from the local node |
| Server.SenderOf | node/src/main/java/dht/KademliaServer.java:84-95 | A request's sender is recorded with the packet's address and port and the derived HTTP port |
| Server.HandleMessage | node/src/main/java/dht/KademliaServer.java:68-160 | A response is handed to the RPC layer with no reply and no routing change; a request leaves the pending table alone |
| Server.RequestRefreshesKnownSender | node/src/main/java/dht/KademliaServer.java:84-95 | A request's known sender is refreshed with the packet's time, whatever the request |
| Server.StorePieceResponseNotForwarded | node/src/main/java/dht/KademliaServer.java:77-81 | A STORE_PIECE_RESPONSE over UDP gets no reply and completes no pending request |
| Server.Forwarded | node/src/main/java/dht/KademliaServer.java:77-81 | Exactly the forwarded responses of a UDP stream reach the RPC layer |
| Server.SmallStorePieceTimesOut | node/src/main/java/dht/KademliaRPC.java:207-238 | A STORE_PIECE sent over UDP times out even when the receiver stored the piece and answered success |
| Server.ProcessTcpMessage | node/src/main/java/dht/KademliaServer.java:484-508 | A reply on the connection answers the message's id from the local node |
| Server.TcpReplies | node/src/main/java/dht/KademliaServer.java:484-508 | TCP always confirms STORE_PIECE and STORE_METADATA; GET_PIECE gets the stored bytes; GET_PIECES_RESPONSE goes to the RPC layer; other tags are dropped |
| Server.HandleTcpConnection | node/src/main/java/dht/KademliaServer.java:447-483 | A TCP message's reply answers its id from the local node |
| Server.TcpStorePieceAlwaysConfirmed | node/src/main/java/dht/KademliaServer.java:486-489 | Over TCP even a null piece, which is not stored, is confirmed with success |
| KademliaNodes.Fresh | node/src/main/java/dht/KademliaNode.java:179-184 | A round queries each unqueried contact once |
| KademliaNodes.Discovered | node/src/main/java/dht/KademliaNode.java:186-197 | The next round waits for exactly the unqueried contacts the answers list |
| KademliaNodes.TreeAdd | node/src/main/java/dht/KademliaNode.java:174 | The distance-ordered TreeSet keeps one contact per distance, in ascending order |
| KademliaNodes.ClosestSet | node/src/main/java/dht/KademliaNode.java:173-175 | `closest` holds at most K seeds, one per distance, ascending |
| KademliaNodes.OfferAnswersKeepsOthers | node/src/main/java/dht/KademliaRPC.java:166-178 | Offering a round's `findNode` answers to the routing table changes no entry whose id none of the answers names |
| KademliaNodes.NodeLookup | node/src/main/java/dht/KademliaNode.java:171-200 | The result is the ALPHA seeds, one per distance, ascending, with nothing discovered; every reachable contact is queried exactly once |
| KademliaNodes.Search | node/src/main/java/dht/KademliaNode.java:177-198 | The rounds end when nothing new is discovered; every seed and every contact an answer names has been queried once |
| KademliaNodes.RoundKeepsSearching | node/src/main/java/dht/KademliaNode.java:177-198 | A round keeps the loop invariant and shrinks the set of reachable ids not yet queried, so the loop ends |
| KademliaNodes.FirstValue | node/src/main/java/dht/KademliaNode.java:153-165 | The value a round yields is the first one in query order |
| KademliaNodes.FindValue | node/src/main/java/dht/KademliaNode.java:135-168 | A live local value is returned without RPC; otherwise the value returned is that of the first queried contact, in query order, that returned any value; with none, every reachable contact was queried once and null is returned |
| KademliaNodes.CountAcked | node/src/main/java/dht/KademliaNode.java:125-132 | The number of successful store calls |
| KademliaNodes.Store | node/src/main/java/dht/KademliaNode.java:125-132 | `store` sends to the lookup result and reports how many of those calls were acknowledged |
| KademliaNodes.ClosestAreRemote | node/src/main/java/dht/RoutingTable.java:23-26 | No contact a routing table returns is the local node |
| KademliaNodes.SendPieces | node/src/main/java/dht/KademliaNode.java:79-94 | `sendStorePiece` is called on exactly the non-local targets; it sends them the piece, except that null data throws before anything is sent |
| KademliaNodes.StorePiece | node/src/main/java/dht/KademliaNode.java:66-95 | `sendStorePiece` is called on the 3 contacts closest to the key's hash, and the local branch is never taken; all 3 are sent the piece unless it is null, when none is |
| KademliaNodes.AskInTurn | node/src/main/java/dht/KademliaNode.java:270-288 | No more nodes are asked than there are targets; every node asked is a target and never the local node |
| KademliaNodes.AskInTurnAsksInOrder | node/src/main/java/dht/KademliaNode.java:270-288 | The nodes asked are a prefix of the non-local targets, in their list order |
| KademliaNodes.AskInTurnStopsAtData | node/src/main/java/dht/KademliaNode.java:270-288 | Asking stops at the first node returning data |
| KademliaNodes.AskInTurnAsksAll | node/src/main/java/dht/KademliaNode.java:270-288 | Without data, every non-local target was asked |
| KademliaNodes.RetrievePiece | node/src/main/java/dht/KademliaNode.java:249-292 | Local data first; otherwise a prefix of the up to 5 closest, closest first, is asked, and the first data is cached and returned; null when none has it |
| KademliaNodes.StoreMetadataToDht | node/src/main/java/dht/KademliaNode.java:313-338 | A torrent without an info hash fails; otherwise it is stored locally and sent to the K closest to its hash |
| KademliaNodes.Remote | node/src/main/java/dht/KademliaNode.java:270-288 | The local node is skipped and the order kept |
| ChunkStorage.SaveChunk | node/src/main/java/file/ChunkStorage.java:24-33 | After `saveChunk`, `loadChunk` of that hash returns the data and other hashes are untouched |
| ChunkStorage.LoadChunk | node/src/main/java/file/ChunkStorage.java:36-45 | `loadChunk` returns data exactly when `hasChunk` holds |
| ChunkStorage.DeleteChunk | node/src/main/java/file/ChunkStorage.java:53-61 | After `deleteChunk(h)`, `hasChunk(h)` is false; the answer says whether it existed |
| ChunkStorage.FileNameInjective | node/src/main/java/file/ChunkStorage.java:24-89 | Distinct hashes name distinct chunk files |
| FileManagers.Chunks | node/src/main/java/file/FileManager.java:22-30 | The chunks are non-empty, at most `chunkSize` bytes, and concatenate to the file |
| FileManagers.Digests | node/src/main/java/file/FileManager.java:26-28 | The hash list is the chunk digests in chunk order |
| FileManagers.SplitFile | node/src/main/java/file/FileManager.java:19-32 | `splitFile` returns the chunk digests in order, saves each chunk under its digest, and leaves other files alone |
| FileManagers.MergeFile | node/src/main/java/file/FileManager.java:35-47 | `mergeFile` returns true exactly when every listed chunk exists, and writes the contents of the listed chunks in order up to the first missing one |
| FileManagers.MergeAfterSplit | node/src/main/java/file/FileManager.java:19-47 | Without digest collisions, merging the split's hashes writes exactly the file |
| FileManagers.VerifyFile | node/src/main/java/file/FileManager.java:50-63 | `verifyFile` holds exactly when every chunk exists and hashes back to its name |
| FileManagers.SplitChunksVerify | node/src/main/java/file/FileManager.java:19-63 | Every hash `splitFile` returned verifies afterwards |
| PieceManagers.GetPiece | node/src/main/java/bittorrent/PieceManager.java:47-51 | `getPiece` is null for an unknown torrent or an index past the end; a negative index throws |
| PieceManagers.Pad | node/src/main/java/bittorrent/PieceManager.java:54-57 | The list is padded with nulls up to `index + 1` |
| PieceManagers.SavePiece | node/src/main/java/bittorrent/PieceManager.java:53-59 | `savePiece` sets the entry, grows the list to `max(old, i + 1)`, and leaves other entries and torrents unchanged |
| PieceManagers.GetTotalPieces | node/src/main/java/bittorrent/PieceManager.java:75-78 | 0 for an unknown torrent, else the list length |
| PieceManagers.SaveThenGet | node/src/main/java/bittorrent/PieceManager.java:47-59 | A saved piece reads back and the count covers it |
| PieceManagers.SaveLeavesOthers | node/src/main/java/bittorrent/PieceManager.java:53-59 | No other index or torrent changes |
| PieceManagers.SafeKey | node/src/main/java/bittorrent/PieceManager.java:60-71 | Piece keys map to file names by replacing `:` with `_` |
| PieceManagers.SavePieceData | node/src/main/java/bittorrent/PieceManager.java:60-74 | The bytes are written to the key's file; null data leaves an empty file and throws |
| PieceManagers.LoadPieceData | node/src/main/java/bittorrent/PieceManager.java:29-38 | Bytes are returned exactly when the key's file exists |
| PieceManagers.SafeKeyCollides | node/src/main/java/bittorrent/PieceManager.java:29-71 | Two keys map to the same file name exactly when they agree up to `:` and `_` |
| PieceManagers.LoadAfterSave | node/src/main/java/bittorrent/PieceManager.java:29-71 | Data saved under one key is read under any key that shares its file |
| PieceManagers.ColonAndUnderscoreCollide | node/src/main/java/bittorrent/PieceManager.java:29-71 | Data saved under `a:b` is read back under `a_b` |
| PieceManagers.SaveDataLeavesOthers | node/src/main/java/bittorrent/PieceManager.java:60-74 | Saving under one file leaves every other file unchanged |
| MetadataStores.GetMetadata | node/src/main/java/bittorrent/MetadataStore.java:32-38 | `getMetadata` is non-null exactly when `hasMetadata` holds |
| MetadataStores.StoreMetadata | node/src/main/java/bittorrent/MetadataStore.java:23-29 | After `storeMetadata(t)`, `getMetadata(t.infoHash)` returns `t` and other keys are untouched; a null hash is refused |
| MetadataStores.RemoveMetadata | node/src/main/java/bittorrent/MetadataStore.java:41-51 | After `removeMetadata(h)`, `hasMetadata(h)` is false and other keys are untouched |
| MetadataStores.LastWriteWins | node/src/main/java/bittorrent/MetadataStore.java:23-29 | The second store under an info hash wins |
| MetadataStores.StoreThenRemove | node/src/main/java/bittorrent/MetadataStore.java:23-51 | Store then remove forgets the torrent and changes no other key |
| Torrents.NewTorrent | gateway/src/main/java/model/TorrentFile.java:16-21 | A new torrent has no pieces and no info hash |
| Torrents.AddPieceHash | gateway/src/main/java/model/TorrentFile.java:24-27 | Appends exactly the piece's hex digest, keeping earlier entries |
| Torrents.Sha1Hex | gateway/src/main/java/model/TorrentFile.java:25 | A piece digest is 40 lower-case hex characters |
| Torrents.GenerateInfoHash | gateway/src/main/java/model/TorrentFile.java:30-37 | Sets a 40-character info hash and changes nothing else |
| Torrents.SetInfoHash | gateway/src/main/java/model/TorrentFile.java:45-47 | Overwrites the info hash and nothing else |
| Torrents.InfoHashDependsOnContent | gateway/src/main/java/model/TorrentFile.java:30-37 | The info hash depends only on the name, the size and the pieces |
| Torrents.NameSizeCollision | gateway/src/main/java/model/TorrentFile.java:32-36 | ("a1", 23) and ("a12", 3) with the same pieces get the same info hash |
| Torrents.InfoHashInputDeterminesPieces | gateway/src/main/java/model/TorrentFile.java:32-35 | For a fixed name and size, the digested text determines the piece list |
| Torrents.Digits | gateway/src/main/java/model/TorrentFile.java:32 | The size is printed in decimal digits with no leading zero |
| Torrents.DigitsRoundTrip | gateway/src/main/java/model/TorrentFile.java:32 | The printed digits read back as the number: printing loses nothing |
| Torrents.DecimalRoundTrip | gateway/src/main/java/model/TorrentFile.java:32 | The printed size starts with a minus exactly when it is negative, and its digits read back as its magnitude |

## Left out

- Wire encoding: the Java object serialization in `toBytes`/`fromBytes` is opaque. Messages
  are a datatype, and an encoding's size is a parameter of `Rpc.SendRequest`.
- Sockets, threads and futures: the UDP receive loop, the TCP listener and stream
  reading, `sendViaTCP`, and the `CompletableFuture` fan-out are left out. Each remote call
  is a sequential lookup in an answer map, and concurrent interleavings are not modelled.
- Message ids: the random UUIDs are `freshId` parameters.
- SHA-1 and the platform charset are uninterpreted functions, and the clock is `now`.
- The filesystem is modelled only as maps. This leaves out MetadataStore load/save and its
  shutdown hook, `PieceManager.loadFile`, and I/O errors on chunk and piece files.
- Node lifecycle: the `KademliaNode` constructor, `start`/`stop`, `startPeerServer`,
  `bootstrap` and `storePeer`/`findPeers` set up the environment and the network.
- Out of scope: the node's `TorrentManager`, `PeerServer` and `PeerConnection`, the HTTP
  controllers and gateway services, `HashUtil`, the front-end, `KademliaNodeTest` and
  `data/node3/uploads/cl.java`. These are orchestration, commented-out code or unrelated
  code.
- The node's `bittorrent/TorrentFile.java` is not part of this model. The gateway's
  `model/TorrentFile.java` stands in for the torrent metadata that nodes store.
- Null piece keys, null identifiers and a chunk size of 0 or less. The callers never pass
  them, and a zero buffer would never reach end of file.
- Hash-map and hash-set iteration order: `allContacts`, the lookup's frontier sets and the
  `queried` set are lists, and their order stands in for the unspecified one. This order
  matters beyond ties at equal distance:
  - `findValue` stops at the first value in the order its round's futures were created, so
    when two contacts of one round hold different values, the hash-set order picks the
    value returned. The model's "first value" (`FirstAnsweredWith`, `FirstValue`) is first
    in the model's query order, not in the source's.
  - The same order decides in which order answers are offered to the routing table, and
    so which contact a full bucket turns away to its replacement cache.
- `Character.digit` outside ASCII: Unicode digits beyond `0-9a-fA-F` read as -1.
- Contact aliasing: the source mutates shared `Contact` objects in place. The model
  replaces the indexed entry and does not track other references to it.
- Failures of `sendResponse` and of the TCP reply write.
- The pending-table side effects of the node-level RPCs inside `KademliaNodes`. The lookups
  read their answers from oracles, and `Rpc.SendRequest` models the table on its own.
- `Contacts.IsStale` is a predicate, the strict comparison `now - lastSeen > timeout`.
  What it means over time is stated on `Contacts.StaleAfterTimeout`.
- KademliaNodes.ClosestSet: the one-per-distance property is stated only when at most K
  contacts are offered. `nodeLookup` offers at most ALPHA = 3, and the general case needs
  the TreeSet's cut at K.
- Server.HandleTcpConnection: it states only that the state stays valid and that a reply
  answers the message. What each tag does is stated on `Server.ProcessTcpMessage` and
  `Server.TcpReplies`.
- Contacts.HashCode: it states only the Java int range. Its value is stated on
  `Contacts.ArraysHashCode`, and its use, equal hashes for equal contacts, on
  `Contacts.SamePeerSameHash`.

## Findings

| source | as written | input that shows it | evidently intended | confidence | as-written member | corrected member |
|---|---|---|---|---|---|---|
| node/src/main/java/core/NodeID.java:19-25 | The String constructor accepts exactly 20 characters and hex-decodes them into 10 bytes | Any 20-character string gives a 10-byte id, which `xor` and `compareTo` index out of bounds; the 40-character `toString` of any id is refused | 40 hex characters decoded into the 20 id bytes, inverting `toString` | not executed | NodeIds.FromStringYieldsShortId | NodeIds.FromHexStringInvertsToHex |

=== FILE: chunk_storage.dfy ===
/**
 * `file.ChunkStorage`: chunks kept as files named by the hex of their hash. The directory
 * is a map from file name to contents; I/O errors are not modelled.
 */
module ChunkStorage {
  import opened Common
  import Hex

  /** The chunk directory: file name to contents. */
  type Directory = map<string, Bytes>

  /** `baseDir.resolve(bytesToHex(chunkHash))`. */
  function FileName(chunkHash: Bytes): string {
    Hex.Encode(chunkHash)
  }

  /** `saveChunk(data, hash)`: writes (or overwrites) the file named by the hash; answers true. */
  function SaveChunk(dir: Directory, data: Bytes, chunkHash: Bytes): (r: (Directory, bool))
    ensures r.1
    ensures LoadChunk(r.0, chunkHash) == Some(data)
    ensures forall h | h != chunkHash :: LoadChunk(r.0, h) == LoadChunk(dir, h)
  {
    forall h | h != chunkHash ensures FileName(h) != FileName(chunkHash) {
      FileNameInjective(h, chunkHash);
    }
    (dir[FileName(chunkHash) := data], true)
  }

  /** `loadChunk(hash)`: the file's contents, or null when it does not exist. */
  function LoadChunk(dir: Directory, chunkHash: Bytes): (r: Option<Bytes>)
    ensures r.Some? <==> HasChunk(dir, chunkHash)
  {
    if FileName(chunkHash) in dir then Some(dir[FileName(chunkHash)]) else None
  }

  /** `hasChunk(hash)`. */
  predicate HasChunk(dir: Directory, chunkHash: Bytes) {
    FileName(chunkHash) in dir
  }

  /** `deleteChunk(hash)`: removes the file; answers whether it existed. */
  function DeleteChunk(dir: Directory, chunkHash: Bytes): (r: (Directory, bool))
    ensures r.1 <==> HasChunk(dir, chunkHash)
    ensures !HasChunk(r.0, chunkHash)
    ensures forall h | h != chunkHash :: LoadChunk(r.0, h) == LoadChunk(dir, h)
  {
    forall h | h != chunkHash ensures FileName(h) != FileName(chunkHash) {
      FileNameInjective(h, chunkHash);
    }
    (dir - {FileName(chunkHash)}, FileName(chunkHash) in dir)
  }

  /** Distinct hashes name distinct files, because `hexToBytes` inverts `bytesToHex`. */
  lemma FileNameInjective(a: Bytes, b: Bytes)
    ensures FileName(a) == FileName(b) <==> a == b
  {
    Hex.DecodeEncode(a);
    Hex.DecodeEncode(b);
  }
}

=== FILE: closest.dfy ===
/**
 * The "closest contacts" query shared by `KBucket.getClosestContacts` and
 * `RoutingTable.findClosestContacts`: a stable sort by XOR distance to the target
 * (`List.sort` is a stable merge sort) followed by a prefix of at most `count` elements.
 */
module Closest {
  import opened Common
  import opened NodeIds
  import opened Contacts

  /** `contact.getNodeId().getDistance(target)`. */
  function Dist(c: Contact, target: Id): nat {
    Distance(c.nodeId, target)
  }

  /**
   * The sort is stated over an arbitrary ranking `key`, so that its proofs never unfold
   * the distance arithmetic.
   */
  type Ranking = Contact -> nat

  predicate SortedBy(s: seq<Contact>, key: Ranking) {
    forall i, j | 0 <= i < j < |s| :: key(s[i]) <= key(s[j])
  }

  /** The ranking the source sorts by: distance to `target`. */
  function ByDistance(target: Id): Ranking {
    c => Dist(c, target)
  }

  /** Inserts `c` in front of the first element that is not strictly closer than `c`. */
  function Insert(c: Contact, s: seq<Contact>, key: Ranking): (r: seq<Contact>)
    requires SortedBy(s, key)
    ensures multiset(r) == multiset(s) + multiset{c}
    ensures SortedBy(r, key)
  {
    if |s| == 0 then [c]
    else if key(c) <= key(s[0]) then
      assert multiset([c] + s) == multiset{c} + multiset(s);
      [c] + s
    else
      var tail := Insert(c, s[1..], key);
      assert multiset(s) == multiset{s[0]} + multiset(s[1..]) by {
        assert s == [s[0]] + s[1..];
      }
      assert multiset([s[0]] + tail) == multiset{s[0]} + multiset(tail);
      assert forall k | 0 <= k < |s[1..]| :: key(s[0]) <= key(s[1..][k]);
      MemberBound(tail, s[1..], c, key(s[0]), key);
      ConsSorted(s[0], tail, key);
      [s[0]] + tail
  }

  /** Every element of a permutation of `pool + [c]` keeps a lower bound shared by all of them. */
  lemma MemberBound(tail: seq<Contact>, pool: seq<Contact>, c: Contact, lo: nat, key: Ranking)
    requires multiset(tail) == multiset(pool) + multiset{c}
    requires lo <= key(c)
    requires forall k | 0 <= k < |pool| :: lo <= key(pool[k])
    ensures forall j | 0 <= j < |tail| :: lo <= key(tail[j])
  {
    forall j | 0 <= j < |tail|
      ensures lo <= key(tail[j])
    {
      assert tail[j] in multiset(tail);
      if tail[j] != c {
        assert tail[j] in multiset(pool);
        var k :| 0 <= k < |pool| && pool[k] == tail[j];
      }
    }
  }

  lemma ConsSorted(h: Contact, t: seq<Contact>, key: Ranking)
    requires SortedBy(t, key)
    requires forall j | 0 <= j < |t| :: key(h) <= key(t[j])
    ensures SortedBy([h] + t, key)
  {
    var r := [h] + t;
    forall i, j | 0 <= i < j < |r|
      ensures key(r[i]) <= key(r[j])
    {
      if i > 0 {
        assert r[i] == t[i - 1] && r[j] == t[j - 1];
      } else {
        assert r[j] == t[j - 1];
      }
    }
  }

  /**
   * The stable sort: a permutation of the input ordered by distance; among contacts at the
   * same distance, the input order is kept.
   */
  function SortBy(s: seq<Contact>, key: Ranking): (r: seq<Contact>)
    ensures multiset(r) == multiset(s)
    ensures |r| == |s|
    ensures SortedBy(r, key)
    ensures forall k: nat :: WithKey(r, key, k) == WithKey(s, key, k)
  {
    if |s| == 0 then []
    else
      assert s == [s[0]] + s[1..];
      var sorted := SortBy(s[1..], key);
      StableStep(s, sorted, key);
      Insert(s[0], sorted, key)
  }

  /** The elements of `s` whose key is `k`, in their order in `s`. */
  function WithKey(s: seq<Contact>, key: Ranking, k: nat): (r: seq<Contact>)
    ensures |r| <= |s|
    ensures forall i | 0 <= i < |r| :: key(r[i]) == k && r[i] in s
  {
    if |s| == 0 then []
    else (if key(s[0]) == k then [s[0]] else []) + WithKey(s[1..], key, k)
  }

  /** Filtering by key distributes over a leading element. */
  lemma WithKeyCons(h: Contact, t: seq<Contact>, key: Ranking, k: nat)
    ensures WithKey([h] + t, key, k) == (if key(h) == k then [h] else []) + WithKey(t, key, k)
  {
    var r := [h] + t;
    assert r[0] == h && r[1..] == t;
  }

  /** `Insert` puts `c` ahead of every element with the same key and moves no other one. */
  lemma {:induction false} InsertWithKey(c: Contact, s: seq<Contact>, key: Ranking, k: nat)
    requires SortedBy(s, key)
    ensures WithKey(Insert(c, s, key), key, k) ==
      (if key(c) == k then [c] else []) + WithKey(s, key, k)
    decreases |s|
  {
    if |s| == 0 || key(c) <= key(s[0]) {
      assert Insert(c, s, key) == [c] + s;
      WithKeyCons(c, s, key, k);
    } else {
      var tail := Insert(c, s[1..], key);
      assert Insert(c, s, key) == [s[0]] + tail;
      InsertWithKey(c, s[1..], key, k);
      InsertBehind(c, s, tail, key, k);
    }
  }

  /** The step of `InsertWithKey` where `c` goes behind the strictly closer head of `s`. */
  lemma InsertBehind(c: Contact, s: seq<Contact>, tail: seq<Contact>, key: Ranking, k: nat)
    requires |s| > 0 && key(s[0]) < key(c)
    requires WithKey(tail, key, k) == (if key(c) == k then [c] else []) + WithKey(s[1..], key, k)
    ensures WithKey([s[0]] + tail, key, k) == (if key(c) == k then [c] else []) + WithKey(s, key, k)
  {
    WithKeyCons(s[0], tail, key, k);
    assert s == [s[0]] + s[1..];
    WithKeyCons(s[0], s[1..], key, k);
    var rest := WithKey(s[1..], key, k);
    if key(c) == k {
      assert WithKey(s, key, k) == rest;
      assert WithKey([s[0]] + tail, key, k) == [c] + rest;
    } else if key(s[0]) == k {
      assert [] + rest == rest;
      assert WithKey(tail, key, k) == rest;
      assert WithKey(s, key, k) == [s[0]] + rest;
      assert WithKey([s[0]] + tail, key, k) == [s[0]] + rest;
    } else {
      assert [] + rest == rest;
      assert WithKey(tail, key, k) == rest;
      assert WithKey(s, key, k) == rest;
      assert WithKey([s[0]] + tail, key, k) == rest;
    }
  }

  /** Inserting the head of `s` into a stable sort of its tail keeps every key's order. */
  lemma StableStep(s: seq<Contact>, sorted: seq<Contact>, key: Ranking)
    requires |s| > 0 && SortedBy(sorted, key)
    requires forall k: nat :: WithKey(sorted, key, k) == WithKey(s[1..], key, k)
    ensures forall k: nat :: WithKey(Insert(s[0], sorted, key), key, k) == WithKey(s, key, k)
  {
    forall k: nat ensures WithKey(Insert(s[0], sorted, key), key, k) == WithKey(s, key, k) {
      InsertWithKey(s[0], sorted, key, k);
      assert s == [s[0]] + s[1..];
      WithKeyCons(s[0], s[1..], key, k);
    }
  }

  /**
   * `getClosestContacts(target, count)`: the first `min(count, size)` contacts of the
   * sorted list. Every contact left out is at least as far from the target as every
   * contact returned.
   */
  function ClosestContacts(s: seq<Contact>, target: Id, count: nat): (r: seq<Contact>)
    ensures |r| == Min(count, |s|)
    ensures SortedBy(r, ByDistance(target))
    ensures multiset(r) <= multiset(s)
    ensures forall x, i | x in multiset(s) - multiset(r) && 0 <= i < |r| ::
      Dist(r[i], target) <= Dist(x, target)
  {
    var sorted := SortBy(s, ByDistance(target));
    var n := Min(count, |s|);
    ClosestPrefix(s, sorted, n, target);
    sorted[..n]
  }

  /** The first `n` contacts of `s` sorted by distance are as close as any contact left out. */
  lemma ClosestPrefix(s: seq<Contact>, sorted: seq<Contact>, n: nat, target: Id)
    requires multiset(sorted) == multiset(s) && SortedBy(sorted, ByDistance(target))
    requires n <= |sorted|
    ensures multiset(sorted[..n]) <= multiset(s)
    ensures forall x, i | x in multiset(s) - multiset(sorted[..n]) && 0 <= i < n ::
      Dist(sorted[..n][i], target) <= Dist(x, target)
  {
    var key := ByDistance(target);
    var r := sorted[..n];
    TakeIsClosest(sorted, n, key);
    forall x, i | x in multiset(s) - multiset(r) && 0 <= i < n
      ensures Dist(r[i], target) <= Dist(x, target)
    {
      assert key(sorted[i]) <= key(x);
    }
  }

  /** Cutting a sorted list: everything after the cut ranks no better than everything before. */
  lemma TakeIsClosest(sorted: seq<Contact>, n: nat, key: Ranking)
    requires SortedBy(sorted, key)
    requires n <= |sorted|
    ensures multiset(sorted[..n]) <= multiset(sorted)
    ensures forall x, i | x in multiset(sorted) - multiset(sorted[..n]) && 0 <= i < n ::
      key(sorted[i]) <= key(x)
  {
    var r := sorted[..n];
    assert sorted == r + sorted[n..];
    assert multiset(sorted) == multiset(r) + multiset(sorted[n..]);
    forall x, i | x in multiset(sorted) - multiset(r) && 0 <= i < n
      ensures key(sorted[i]) <= key(x)
    {
      assert x in multiset(sorted[n..]);
      var k :| n <= k < |sorted| && sorted[k] == x;
    }
  }
}

=== FILE: common.dfy ===
/** Shared vocabulary of the model: bytes, nullable values and Java exceptions. */
module Common {

  /**
   * A Java `byte`, read as its unsigned bit pattern (`b & 0xFF`); the source's
   * `(byte)` casts become `% 256` on this representation.
   */
  type Byte = x: int | 0 <= x < 256

  /** A Java `byte[]`. */
  type Bytes = seq<Byte>

  /** A SHA-1 digest: always 20 bytes. */
  type Digest = d: Bytes | |d| == 20 witness seq(20, i => 0)

  /** SHA-1 as an uninterpreted digest function (`MessageDigest.getInstance("SHA-1")`). */
  type Sha1 = Bytes -> Digest

  /** `String.getBytes` under the platform charset, left uninterpreted. */
  type Charset = string -> Bytes

  /** A Java reference that may be null. */
  datatype Option<+T> = None | Some(value: T)

  /** The exceptions the modelled code can raise or catch. */
  datatype Fault =
    | IllegalArgument      // IllegalArgumentException from a constructor check
    | IndexOutOfBounds     // array, list or string index out of range
    | NullPointer          // a null key, value or field dereferenced
    | Timeout              // the RPC deadline passed without a matching response
    | TransportFailure     // socket or stream error, or an empty TCP reply

  /** The outcome of a call that either returns a value or throws. */
  datatype Result<+T> = Ok(value: T) | Err(fault: Fault)

  /** Java's `int` range; counters that are Java ints wrap at its ends. */
  const IntMin: int := -0x8000_0000
  const IntMax: int := 0x7fff_ffff

  function Min(a: int, b: int): int { if a <= b then a else b }
  function Max(a: int, b: int): int { if a >= b then a else b }
}

=== FILE: contact.dfy ===
/**
 * `core.Contact`: a remote peer's identifier, socket address and liveness bookkeeping.
 * Two contacts are the same peer when their node ids are equal.
 */
module Contacts {
  import opened Common
  import opened NodeIds

  const MaxPort: int := 65535

  /**
   * `ip` holds `InetAddress.getAddress()` (4 or 16 bytes); `lastSeen` is milliseconds on
   * the node's clock.
   */
  datatype Contact = Contact(
    nodeId: Id,
    ip: Bytes,
    port: int,
    lastSeen: int,
    failedRequests: int,
    httpPort: int)

  /**
   * `new Contact(nodeId, ip, port, httpPort)` at clock time `now`. The
   * `InetSocketAddress` it builds throws for a port outside 0..65535.
   */
  function NewContact(nodeId: Id, ip: Bytes, port: int, httpPort: int, now: int): (r: Result<Contact>)
    ensures r.Ok? <==> 0 <= port <= MaxPort
    ensures r.Ok? ==> r.value.failedRequests == 0 && r.value.lastSeen == now
    ensures r.Ok? ==> r.value.nodeId == nodeId && r.value.port == port && r.value.httpPort == httpPort
  {
    if port < 0 || port > MaxPort then Err(IllegalArgument)
    else Ok(Contact(nodeId, ip, port, now, 0, httpPort))
  }

  /**
   * `equals`: contacts are compared by node id only, so two contacts are the same peer
   * exactly when `compareTo` on their ids answers 0.
   */
  function SamePeer(a: Contact, b: Contact): (r: bool)
    ensures r <==> Compare(a.nodeId, b.nodeId) == 0
  {
    CompareZeroIffEqual(a.nodeId, b.nodeId);
    a.nodeId == b.nodeId
  }

  /** Java `int` arithmetic: the value reduced into `IntMin..IntMax`. */
  function WrapInt(x: int): (r: int)
    ensures IntMin <= r <= IntMax
    ensures IntMin <= x <= IntMax ==> r == x
    ensures (r - x) % 0x1_0000_0000 == 0
  {
    (x - IntMin) % 0x1_0000_0000 + IntMin
  }

  /** A Java `byte` read as a signed value. */
  function Signed(b: Byte): (r: int)
    ensures -128 <= r < 128 && (r - b) % 256 == 0
  {
    if b >= 128 then b - 256 else b
  }

  /**
   * Reference definition of `Arrays.hashCode` in unbounded arithmetic: starting from `h`,
   * each byte, first to last, turns `h` into `31 * h + b`.
   */
  function Horner(h: int, bs: Bytes): int
    decreases |bs|
  {
    if |bs| == 0 then h else Horner(31 * h + Signed(bs[0]), bs[1..])
  }

  /** Folding a byte string ends with the fold of all but its last byte, then that byte. */
  lemma {:induction false} HornerLast(h: int, bs: Bytes)
    requires |bs| > 0
    ensures Horner(h, bs) == 31 * Horner(h, bs[..|bs| - 1]) + Signed(bs[|bs| - 1])
    decreases |bs|
  {
    if |bs| > 1 {
      var h' := 31 * h + Signed(bs[0]);
      HornerLast(h', bs[1..]);
      assert bs[1..][..|bs[1..]| - 1] == bs[..|bs| - 1][1..];
    }
  }

  /** Wrapping the running hash before the next step gives the same `int` as wrapping after. */
  lemma WrapStep(x: int, s: int)
    ensures WrapInt(31 * WrapInt(x) + s) == WrapInt(31 * x + s)
  {
    var w := WrapInt(x);
    var k := (w - x) / 0x1_0000_0000;
    assert w == x + k * 0x1_0000_0000;
    assert 31 * w + s - IntMin == (31 * x + s - IntMin) + (31 * k) * 0x1_0000_0000;
    ModAddMultiple(31 * x + s - IntMin, 31 * k);
  }

  lemma ModAddMultiple(a: int, k: int)
    ensures (a + k * 0x1_0000_0000) % 0x1_0000_0000 == a % 0x1_0000_0000
  {
    var q := a / 0x1_0000_0000;
    assert a == q * 0x1_0000_0000 + a % 0x1_0000_0000;
    assert a + k * 0x1_0000_0000 == (q + k) * 0x1_0000_0000 + a % 0x1_0000_0000;
  }

  /** `Arrays.hashCode(byte[])`: `31 * h + b` over the signed bytes, in `int` arithmetic. */
  function ArraysHashCode(bs: Bytes): (r: int)
    ensures IntMin <= r <= IntMax
    ensures r == WrapInt(Horner(1, bs))
  {
    if |bs| == 0 then 1
    else
      var b: int := bs[|bs| - 1];
      var prefix := ArraysHashCode(bs[..|bs| - 1]);
      HornerLast(1, bs);
      WrapStep(Horner(1, bs[..|bs| - 1]), Signed(b));
      WrapInt(31 * prefix + Signed(b))
  }

  /** `hashCode`: the hash of the node id, so equal contacts hash equally. */
  function HashCode(c: Contact): (r: int)
    ensures IntMin <= r <= IntMax
  {
    ArraysHashCode(c.nodeId.bytes)
  }

  /** Contacts that `equals` each other hash equally, whatever their addresses and counters. */
  lemma SamePeerSameHash(a: Contact, b: Contact)
    requires SamePeer(a, b)
    ensures HashCode(a) == HashCode(b)
  {
  }

  /** `updateLastSeen` at clock time `now`: refresh the timestamp, forget past failures. */
  function UpdateLastSeen(c: Contact, now: int): (r: Contact)
    ensures r.lastSeen == now && r.failedRequests == 0
    ensures r.(lastSeen := c.lastSeen, failedRequests := c.failedRequests) == c
  {
    c.(lastSeen := now, failedRequests := 0)
  }

  /** `incrementFailedRequests`: `failedRequests++` on a Java `int`. */
  function IncrementFailedRequests(c: Contact): (r: Contact)
    ensures IntMin <= c.failedRequests < IntMax ==> r.failedRequests == c.failedRequests + 1
    ensures c.failedRequests == IntMax ==> r.failedRequests == IntMin
    ensures r.(failedRequests := c.failedRequests) == c
  {
    c.(failedRequests := WrapInt(c.failedRequests + 1))
  }

  /** `isStale(timeoutMs)` at clock time `now`: strictly more than the timeout has passed. */
  predicate IsStale(c: Contact, timeoutMs: int, now: int) {
    now - c.lastSeen > timeoutMs
  }

  /**
   * A contact just refreshed is not stale for any non-negative timeout; it turns stale
   * exactly once the timeout has passed, and stays stale as the clock advances.
   */
  lemma StaleAfterTimeout(c: Contact, timeoutMs: int, seen: int, now: int, later: int)
    requires timeoutMs >= 0 && now <= later
    ensures !IsStale(UpdateLastSeen(c, seen), timeoutMs, seen)
    ensures IsStale(UpdateLastSeen(c, seen), timeoutMs, now) <==> now > seen + timeoutMs
    ensures IsStale(c, timeoutMs, now) ==> IsStale(c, timeoutMs, later)
  {
  }

  /** `portToBytes`: `(byte) ((port >> 8) & 0xFF)` then `(byte) (port & 0xFF)`. */
  function PortToBytes(port: int): (r: Bytes)
    ensures |r| == 2
    ensures r[0] as int * 256 + r[1] == port % 0x1_0000
  {
    [(port / 256) % 256, port % 256]
  }

  /**
   * `bytesToPort`: the first two bytes read big-endian; an array shorter than two bytes
   * throws. It inverts `portToBytes` on those two bytes.
   */
  function BytesToPort(data: Bytes): (r: Result<int>)
    ensures r.Ok? <==> |data| >= 2
    ensures r.Ok? ==> 0 <= r.value <= MaxPort
    ensures r.Ok? ==> r.value == data[0] as int * 256 + data[1]
    ensures r.Ok? ==> PortToBytes(r.value) == data[..2]
  {
    if |data| < 2 then Err(IndexOutOfBounds) else Ok(data[0] as int * 256 + data[1])
  }

  /** Round trip of the port codec over the valid port range. */
  lemma PortRoundTrip(port: int)
    requires 0 <= port <= MaxPort
    ensures BytesToPort(PortToBytes(port)) == Ok(port)
  {
    var r := PortToBytes(port);
    assert r[0] as int * 256 + r[1] == port;
  }

  /** `getAddressBytes`: the IP bytes followed by the two port bytes. */
  function AddressBytes(c: Contact): (r: Bytes)
    ensures |r| == |c.ip| + 2
    ensures r[..|c.ip|] == c.ip
    ensures 0 <= c.port <= MaxPort ==> BytesToPort(r[|c.ip|..]) == Ok(c.port)
  {
    PortRoundTrip(c.port % 0x1_0000);
    c.ip + PortToBytes(c.port)
  }
}

=== FILE: data_store.dfy ===
/**
 * `dht.DataStore`: the node's key/value store for DHT values, each entry stamped with the
 * time it was written and treated as gone once more than 24 hours have passed.
 * The clock is the parameter `now` (milliseconds).
 */
module DataStores {
  import opened Common
  import opened NodeIds

  /** `EXPIRATION_TIME`: 24 hours in milliseconds. */
  const ExpirationTime: int := 24 * 60 * 60 * 1000

  datatype DataStore = DataStore(store: map<NodeId, Bytes>, timestamps: map<NodeId, int>)

  /** Both maps always hold the same keys: every public operation writes or erases both. */
  predicate Valid(ds: DataStore) {
    ds.store.Keys == ds.timestamps.Keys
  }

  function Empty(): (ds: DataStore)
    ensures Valid(ds) && |ds.store| == 0
  {
    DataStore(map[], map[])
  }

  /** `isExpired(timestamp)`: strictly more than 24 hours old. */
  predicate IsExpired(timestamp: int, now: int) {
    now - timestamp > ExpirationTime
  }

  /**
   * An entry lives through exactly 24 hours: it is not expired at `t + 24h`, is expired
   * one millisecond later, and once expired stays expired as the clock advances.
   */
  lemma ExpiryIsFinal(t: int, now: int, later: int)
    requires now <= later
    ensures !IsExpired(t, t + ExpirationTime) && IsExpired(t, t + ExpirationTime + 1)
    ensures IsExpired(t, now) ==> IsExpired(t, later)
  {
  }

  /** `put(key, value)` at time `now`: overwrites the value and restarts its lifetime. */
  function Put(ds: DataStore, key: NodeId, value: Bytes, now: int): (r: DataStore)
    ensures Valid(ds) ==> Valid(r)
    ensures key in r.store && r.store[key] == value && key in r.timestamps && r.timestamps[key] == now
    ensures forall k | k != key :: (k in r.store <==> k in ds.store) && (k in r.timestamps <==> k in ds.timestamps)
    ensures forall k | k in ds.store && k != key :: r.store[k] == ds.store[k]
    ensures forall k | k in ds.timestamps && k != key :: r.timestamps[k] == ds.timestamps[k]
  {
    DataStore(ds.store[key := value], ds.timestamps[key := now])
  }

  /** `remove(key)`: forgets the value and its timestamp. */
  function Remove(ds: DataStore, key: NodeId): (r: DataStore)
    ensures Valid(ds) ==> Valid(r)
    ensures key !in r.store && key !in r.timestamps
    ensures forall k | k != key :: (k in r.store <==> k in ds.store) && (k in r.timestamps <==> k in ds.timestamps)
    ensures forall k | k in r.store :: r.store[k] == ds.store[k]
    ensures forall k | k in r.timestamps :: r.timestamps[k] == ds.timestamps[k]
  {
    DataStore(ds.store - {key}, ds.timestamps - {key})
  }

  /**
   * `get(key)` at time `now`: the value of a live entry; an expired entry is erased and
   * reads as null, as does a missing one.
   */
  function Get(ds: DataStore, key: NodeId, now: int): (r: (Option<Bytes>, DataStore))
    ensures Valid(ds) ==> Valid(r.1)
    ensures Valid(ds) ==>
      (r.0.Some? <==> key in ds.timestamps && !IsExpired(ds.timestamps[key], now))
    ensures r.0.Some? ==> key in ds.store && r.0.value == ds.store[key] && r.1 == ds
    ensures key in ds.timestamps && IsExpired(ds.timestamps[key], now) ==> r.1 == Remove(ds, key)
    ensures key !in ds.timestamps ==> r == (None, ds)
  {
    if key in ds.timestamps && !IsExpired(ds.timestamps[key], now) then
      (if key in ds.store then Some(ds.store[key]) else None, ds)
    else if key in ds.timestamps then (None, Remove(ds, key))
    else (None, ds)
  }

  /** `contains(key)` at time `now`: whether `get` finds a value (with `get`'s erasure). */
  function Contains(ds: DataStore, key: NodeId, now: int): (r: (bool, DataStore))
    ensures r.0 <==> Get(ds, key, now).0.Some?
    ensures r.1 == Get(ds, key, now).1
  {
    var got := Get(ds, key, now);
    (got.0.Some?, got.1)
  }

  /** `cleanup()` at time `now`: erases every expired entry and keeps every live one. */
  function Cleanup(ds: DataStore, now: int): (r: DataStore)
    ensures Valid(ds) ==> Valid(r)
    ensures forall k :: k in r.timestamps <==> k in ds.timestamps && !IsExpired(ds.timestamps[k], now)
    ensures forall k | k in r.timestamps :: r.timestamps[k] == ds.timestamps[k]
    ensures forall k | k in r.store :: k in ds.store && r.store[k] == ds.store[k]
    ensures forall k | k in ds.store && k !in ds.timestamps :: k in r.store
  {
    var expired := set k | k in ds.timestamps && IsExpired(ds.timestamps[k], now);
    DataStore(ds.store - expired, ds.timestamps - expired)
  }

  /** `size()`: the number of stored values. */
  function Size(ds: DataStore): (r: nat)
    ensures Valid(ds) ==> r == |ds.timestamps|
  {
    assert Valid(ds) ==> |ds.store| == |ds.store.Keys| == |ds.timestamps.Keys| == |ds.timestamps|;
    |ds.store|
  }

  /** `put` grows the size by one for a new key and keeps it for a stored one. */
  lemma SizeAfterPut(ds: DataStore, key: NodeId, value: Bytes, now: int)
    ensures Size(Put(ds, key, value, now)) == if key in ds.store then Size(ds) else Size(ds) + 1
  {
    var r := Put(ds, key, value, now);
    if key in ds.store {
      assert r.store.Keys == ds.store.Keys;
    } else {
      assert r.store.Keys == ds.store.Keys + {key};
    }
  }

  /** A value put at time `t` is returned unchanged by any read up to exactly 24 hours later. */
  lemma PutThenGet(ds: DataStore, key: NodeId, value: Bytes, t: int, now: int)
    requires now - t <= ExpirationTime
    ensures Get(Put(ds, key, value, t), key, now).0 == Some(value)
  {
  }

  /** One millisecond later the same entry is gone, and the read erases it. */
  lemma PutThenExpire(ds: DataStore, key: NodeId, value: Bytes, t: int, now: int)
    requires Valid(ds)
    requires now - t > ExpirationTime
    ensures Get(Put(ds, key, value, t), key, now).0 == None
    ensures key !in Get(Put(ds, key, value, t), key, now).1.store
  {
  }

  /**
   * Cleaning up changes no answer: for every key and any time at or after the cleanup,
   * `get` reads the same value before and after it.
   */
  lemma CleanupPreservesReads(ds: DataStore, now: int, later: int, key: NodeId)
    requires Valid(ds)
    requires now <= later
    ensures Get(Cleanup(ds, now), key, later).0 == Get(ds, key, later).0
  {
    if key in ds.timestamps && IsExpired(ds.timestamps[key], now) {
      assert IsExpired(ds.timestamps[key], later);
    }
  }

  /** A read does not change what later reads of the same key return. */
  lemma GetIsStable(ds: DataStore, key: NodeId, now: int, later: int)
    requires Valid(ds)
    requires now <= later
    ensures Get(Get(ds, key, now).1, key, later).0 == Get(ds, key, later).0
  {
  }
}

=== FILE: file_manager.dfy ===
/**
 * `file.FileManager`: splitting a file into hashed chunks stored in `ChunkStorage`,
 * merging them back, and verifying them. Files are byte sequences.
 */
module FileManagers {
  import opened Common
  import ChunkStorage

  function Flatten(chunks: seq<Bytes>): Bytes {
    if |chunks| == 0 then [] else chunks[0] + Flatten(chunks[1..])
  }

  /**
   * The chunks the `splitFile` read loop cuts: full buffers of `chunkSize` bytes, then
   * whatever remains. A reference definition of the loop's output.
   */
  function Chunks(file: Bytes, chunkSize: nat): (r: seq<Bytes>)
    requires chunkSize > 0
    ensures Flatten(r) == file
    ensures forall i | 0 <= i < |r| :: 0 < |r[i]| <= chunkSize
    decreases |file|
  {
    if |file| == 0 then []
    else
      var n := Min(chunkSize, |file|);
      assert file == file[..n] + file[n..];
      [file[..n]] + Chunks(file[n..], chunkSize)
  }

  /** No two chunks share a digest unless they are equal. */
  predicate CollisionFree(chunks: seq<Bytes>, sha1: Sha1) {
    forall i, j | 0 <= i < |chunks| && 0 <= j < |chunks| ::
      sha1(chunks[i]) == sha1(chunks[j]) ==> chunks[i] == chunks[j]
  }

  /** Every chunk's digest names a stored file holding some chunk with that digest. */
  predicate StoresAll(dir: ChunkStorage.Directory, chunks: seq<Bytes>, sha1: Sha1) {
    forall i | 0 <= i < |chunks| :: StoredUnder(dir, chunks, sha1, sha1(chunks[i]))
  }

  predicate StoredUnder(dir: ChunkStorage.Directory, chunks: seq<Bytes>, sha1: Sha1, h: Bytes) {
    var d := ChunkStorage.LoadChunk(dir, h);
    d.Some? && d.value in chunks && sha1(d.value) == h
  }

  /** The digest list of a chunk list. */
  function Digests(chunks: seq<Bytes>, sha1: Sha1): (r: seq<Bytes>)
    ensures |r| == |chunks|
    ensures forall i | 0 <= i < |r| :: r[i] == sha1(chunks[i])
  {
    if |chunks| == 0 then [] else [sha1(chunks[0])] + Digests(chunks[1..], sha1)
  }

  /**
   * `splitFile`: reads the file a buffer at a time; each chunk is saved under its SHA-1 and
   * its hash appended to the returned list. A later chunk with the same digest overwrites
   * the earlier file. A buffer of size 0 would never reach end of file, hence `chunkSize > 0`.
   */
  method SplitFile(dir: ChunkStorage.Directory, file: Bytes, chunkSize: nat, sha1: Sha1)
    returns (hashes: seq<Bytes>, out: ChunkStorage.Directory)
    requires chunkSize > 0
    ensures hashes == Digests(Chunks(file, chunkSize), sha1)
    ensures StoresAll(out, Chunks(file, chunkSize), sha1)
    ensures forall h | h !in hashes :: ChunkStorage.LoadChunk(out, h) == ChunkStorage.LoadChunk(dir, h)
  {
    var all := Chunks(file, chunkSize);
    var pos, k := 0, 0;
    hashes := [];
    out := dir;
    assert file[0..] == file && all[0..] == all;
    assert all[k..] == Chunks(file[pos..], chunkSize);
    while pos < |file|
      invariant pos <= |file| && k <= |all|
      invariant all[k..] == Chunks(file[pos..], chunkSize)
      invariant hashes == Digests(all[..k], sha1)
      invariant out == SaveAll(dir, all[..k], sha1)
      decreases |file| - pos
    {
      var n := Min(chunkSize, |file| - pos);
      var chunk := file[pos..pos + n];
      var h := sha1(chunk);
      NextChunk(file, chunkSize, pos, n, chunk, all, k);
      SplitStep(dir, all, k, chunk, sha1);
      out := ChunkStorage.SaveChunk(out, chunk, h).0;
      hashes := hashes + [h];
      pos, k := pos + n, k + 1;
      assert all[k..] == Chunks(file[pos..], chunkSize);
    }
    assert file[pos..] == [];
    SplitDone(dir, all, k, sha1);
  }

  /** When the read loop has consumed every chunk, its digests and directory are the whole list's. */
  lemma SplitDone(dir: ChunkStorage.Directory, all: seq<Bytes>, k: nat, sha1: Sha1)
    requires k == |all|
    ensures Digests(all[..k], sha1) == Digests(all, sha1)
    ensures StoresAll(SaveAll(dir, all[..k], sha1), all, sha1)
    ensures forall h | h !in Digests(all[..k], sha1) ::
      ChunkStorage.LoadChunk(SaveAll(dir, all[..k], sha1), h) == ChunkStorage.LoadChunk(dir, h)
  {
    assert all[..k] == all;
    SaveAllStores(dir, all, sha1);
    SaveAllElsewhere(dir, all, sha1);
  }

  /**
   * The directory after saving `chunks` in order, each under its digest: the reference
   * definition of what the `splitFile` loop writes.
   */
  function SaveAll(dir: ChunkStorage.Directory, chunks: seq<Bytes>, sha1: Sha1): ChunkStorage.Directory
  {
    if |chunks| == 0 then dir
    else
      var last := chunks[|chunks| - 1];
      ChunkStorage.SaveChunk(SaveAll(dir, chunks[..|chunks| - 1], sha1), last, sha1(last)).0
  }

  /** One turn of the read loop extends the digests and the saved prefix by the next chunk. */
  lemma SplitStep(dir: ChunkStorage.Directory, all: seq<Bytes>, k: nat, chunk: Bytes, sha1: Sha1)
    requires k < |all| && all[k] == chunk
    ensures all[..k + 1] == all[..k] + [chunk]
    ensures Digests(all[..k + 1], sha1) == Digests(all[..k], sha1) + [sha1(chunk)]
    ensures SaveAll(dir, all[..k + 1], sha1) == ChunkStorage.SaveChunk(SaveAll(dir, all[..k], sha1), chunk, sha1(chunk)).0
  {
    assert all[..k + 1] == all[..k] + [chunk];
    assert all[..k + 1][..k] == all[..k];
    DigestsSnoc(all[..k], chunk, sha1);
  }

  /** The chunk list from `pos` on starts with the next buffer and continues with the rest. */
  lemma NextChunk(file: Bytes, chunkSize: nat, pos: nat, n: nat, chunk: Bytes, all: seq<Bytes>, k: nat)
    requires chunkSize > 0 && pos < |file| && k <= |all|
    requires n == Min(chunkSize, |file| - pos) && chunk == file[pos..pos + n]
    requires all[k..] == Chunks(file[pos..], chunkSize)
    ensures k < |all| && all[k] == chunk && all[k + 1..] == Chunks(file[pos + n..], chunkSize)
  {
    assert file[pos..][..n] == chunk && file[pos..][n..] == file[pos + n..];
    assert all[k..] == [chunk] + Chunks(file[pos + n..], chunkSize);
    assert all[k + 1..] == all[k..][1..];
  }

  /** After saving a chunk list, every chunk's digest names a stored file holding a chunk with that digest. */
  lemma {:induction false} SaveAllStores(dir: ChunkStorage.Directory, chunks: seq<Bytes>, sha1: Sha1)
    ensures StoresAll(SaveAll(dir, chunks, sha1), chunks, sha1)
  {
    if |chunks| > 0 {
      var init := chunks[..|chunks| - 1];
      SaveAllStores(dir, init, sha1);
      assert chunks == init + [chunks[|chunks| - 1]];
      StoresAllAfterSave(SaveAll(dir, init, sha1), init, chunks[|chunks| - 1], sha1);
    }
  }

  /** Saving a chunk list writes nothing under a digest none of its chunks has. */
  lemma {:induction false} SaveAllElsewhere(dir: ChunkStorage.Directory, chunks: seq<Bytes>, sha1: Sha1)
    ensures forall h | h !in Digests(chunks, sha1) ::
      ChunkStorage.LoadChunk(SaveAll(dir, chunks, sha1), h) == ChunkStorage.LoadChunk(dir, h)
  {
    if |chunks| > 0 {
      var init := chunks[..|chunks| - 1];
      var last := chunks[|chunks| - 1];
      SaveAllElsewhere(dir, init, sha1);
      assert chunks == init + [last];
      DigestsSnoc(init, last, sha1);
    }
  }

  lemma DigestsSnoc(chunks: seq<Bytes>, c: Bytes, sha1: Sha1)
    ensures Digests(chunks + [c], sha1) == Digests(chunks, sha1) + [sha1(c)]
  {
  }

  /** Saving one more chunk keeps every earlier chunk findable under its digest. */
  lemma StoresAllAfterSave(dir: ChunkStorage.Directory, chunks: seq<Bytes>, c: Bytes, sha1: Sha1)
    requires StoresAll(dir, chunks, sha1)
    ensures StoresAll(ChunkStorage.SaveChunk(dir, c, sha1(c)).0, chunks + [c], sha1)
  {
    var out := ChunkStorage.SaveChunk(dir, c, sha1(c)).0;
    var all := chunks + [c];
    forall i | 0 <= i < |all|
      ensures StoredUnder(out, all, sha1, sha1(all[i]))
    {
      if sha1(all[i]) == sha1(c) {
        assert all[|chunks|] == c;
      } else {
        assert all[i] == chunks[i];
        assert StoredUnder(dir, chunks, sha1, sha1(chunks[i]));
      }
    }
  }

  /**
   * `mergeFile(hashes, out)`: the bytes written, chunk by chunk in list order, and whether
   * every chunk was found; the first missing chunk stops the merge with false.
   */
  function MergeFile(dir: ChunkStorage.Directory, hashes: seq<Bytes>): (r: (bool, Bytes))
    ensures r.0 <==> forall i | 0 <= i < |hashes| :: ChunkStorage.HasChunk(dir, hashes[i])
    ensures r.1 == Flatten(Loaded(dir, hashes[..FoundPrefix(dir, hashes)]))
  {
    if |hashes| == 0 then (true, [])
    else match ChunkStorage.LoadChunk(dir, hashes[0])
      case None => (false, [])
      case Some(data) =>
        var rest := MergeFile(dir, hashes[1..]);
        assert forall i | 1 <= i < |hashes| :: hashes[i] == hashes[1..][i - 1];
        var k := FoundPrefix(dir, hashes[1..]);
        assert hashes[..k + 1] == [hashes[0]] + hashes[1..][..k];
        LoadedCons(dir, hashes[0], hashes[1..][..k]);
        (rest.0, data + rest.1)
  }

  /** The length of the longest prefix of `hashes` whose chunks all exist. */
  function FoundPrefix(dir: ChunkStorage.Directory, hashes: seq<Bytes>): (k: nat)
    ensures k <= |hashes|
    ensures forall i | 0 <= i < k :: ChunkStorage.HasChunk(dir, hashes[i])
    ensures k < |hashes| ==> !ChunkStorage.HasChunk(dir, hashes[k])
  {
    if |hashes| == 0 || !ChunkStorage.HasChunk(dir, hashes[0]) then 0
    else
      assert forall i | 1 <= i < |hashes| :: hashes[i] == hashes[1..][i - 1];
      1 + FoundPrefix(dir, hashes[1..])
  }

  /** The contents of the chunks named by `hashes`, all of which exist, in list order. */
  function Loaded(dir: ChunkStorage.Directory, hashes: seq<Bytes>): (r: seq<Bytes>)
    requires forall i | 0 <= i < |hashes| :: ChunkStorage.HasChunk(dir, hashes[i])
    ensures |r| == |hashes|
    ensures forall i | 0 <= i < |hashes| :: Some(r[i]) == ChunkStorage.LoadChunk(dir, hashes[i])
  {
    seq(|hashes|, i requires 0 <= i < |hashes| => ChunkStorage.LoadChunk(dir, hashes[i]).value)
  }

  lemma LoadedCons(dir: ChunkStorage.Directory, h: Bytes, hashes: seq<Bytes>)
    requires ChunkStorage.HasChunk(dir, h)
    requires forall i | 0 <= i < |hashes| :: ChunkStorage.HasChunk(dir, hashes[i])
    ensures Loaded(dir, [h] + hashes) == [ChunkStorage.LoadChunk(dir, h).value] + Loaded(dir, hashes)
  {
  }

  /**
   * Round trip: merging the hash list `splitFile` returned, from the directory it left,
   * writes exactly the original file, provided no two different chunks share a digest.
   */
  lemma {:induction false} MergeAfterSplit(dir: ChunkStorage.Directory, chunks: seq<Bytes>, sha1: Sha1)
    requires StoresAll(dir, chunks, sha1)
    requires CollisionFree(chunks, sha1)
    ensures MergeFile(dir, Digests(chunks, sha1)) == (true, Flatten(chunks))
  {
    MergeSuffix(dir, chunks, sha1, 0);
    assert chunks[0..] == chunks;
  }

  lemma {:induction false} MergeSuffix(dir: ChunkStorage.Directory, chunks: seq<Bytes>, sha1: Sha1, k: nat)
    requires StoresAll(dir, chunks, sha1)
    requires CollisionFree(chunks, sha1)
    requires k <= |chunks|
    ensures MergeFile(dir, Digests(chunks, sha1)[k..]) == (true, Flatten(chunks[k..]))
    decreases |chunks| - k
  {
    var hs := Digests(chunks, sha1);
    if k < |chunks| {
      HeadChunk(dir, chunks, sha1, k);
      MergeSuffix(dir, chunks, sha1, k + 1);
      assert hs[k..][1..] == hs[k + 1..];
      assert chunks[k..] == [chunks[k]] + chunks[k + 1..];
    } else {
      assert hs[k..] == [];
    }
  }

  /** Without collisions, the file stored under a chunk's digest holds that very chunk. */
  lemma HeadChunk(dir: ChunkStorage.Directory, chunks: seq<Bytes>, sha1: Sha1, k: nat)
    requires StoresAll(dir, chunks, sha1)
    requires CollisionFree(chunks, sha1)
    requires k < |chunks|
    ensures ChunkStorage.LoadChunk(dir, sha1(chunks[k])) == Some(chunks[k])
  {
    assert StoredUnder(dir, chunks, sha1, sha1(chunks[k]));
    var d := ChunkStorage.LoadChunk(dir, sha1(chunks[k])).value;
    var j :| 0 <= j < |chunks| && chunks[j] == d;
  }

  /** `verifyChunk(hash)`: false for a missing chunk, else whether its contents hash back to `hash`. */
  predicate VerifyChunk(dir: ChunkStorage.Directory, chunkHash: Bytes, sha1: Sha1) {
    match ChunkStorage.LoadChunk(dir, chunkHash)
    case None => false
    case Some(data) => sha1(data) == chunkHash
  }

  /** `verifyFile(hashes)`: stops at the first chunk that fails. */
  function VerifyFile(dir: ChunkStorage.Directory, hashes: seq<Bytes>, sha1: Sha1): (r: bool)
    ensures r <==> forall i | 0 <= i < |hashes| :: VerifyChunk(dir, hashes[i], sha1)
  {
    if |hashes| == 0 then true
    else if !VerifyChunk(dir, hashes[0], sha1) then false
    else
      assert forall i | 1 <= i < |hashes| :: hashes[i] == hashes[1..][i - 1];
      VerifyFile(dir, hashes[1..], sha1)
  }

  /** Whatever the collisions, every hash `splitFile` returned verifies afterwards. */
  lemma SplitChunksVerify(dir: ChunkStorage.Directory, chunks: seq<Bytes>, sha1: Sha1)
    requires StoresAll(dir, chunks, sha1)
    ensures VerifyFile(dir, Digests(chunks, sha1), sha1)
  {
    var hs := Digests(chunks, sha1);
    forall i | 0 <= i < |hs| ensures VerifyChunk(dir, hs[i], sha1) {
      assert StoredUnder(dir, chunks, sha1, sha1(chunks[i]));
    }
  }
}

=== FILE: gateway_node_id.dfy ===
/**
 * The gateway's `model.NodeID`. Its byte-array constructor, `fromHash`, `equals`,
 * `compareTo` and `toString` are the same code as the node's and are the `NodeIds`
 * members; only the String constructor differs.
 */
module GatewayIds {
  import opened Common
  import opened NodeIds
  import Hex

  /**
   * `new NodeID(String)`: hex-decodes the 40-character SHA-1 hex of the string's
   * platform-charset bytes, with no length check on the input, so every string yields a
   * 20-byte identifier: the digest itself.
   */
  function FromString(s: string, sha1: Sha1, charset: Charset): (r: Id)
    ensures r.bytes == sha1(charset(s))
  {
    var digest := sha1(charset(s));
    Hex.DecodeEncode(digest);
    NodeId(Hex.DecodeEven(Hex.Encode(digest)))
  }

  /** `toString` on a gateway identifier: 40 lower-case hex characters, two per byte. */
  lemma ToStringIsFortyHex(id: Id)
    ensures |ToHex(id)| == 40
    ensures forall i | 0 <= i < 40 :: ToHex(id)[i] in Hex.Alphabet
    ensures FromHexString(ToHex(id)) == Ok(id)
  {
    FromHexStringInvertsToHex(id);
  }

  /** The gateway's String constructor and `fromHash` agree when the charset is UTF-8. */
  lemma FromStringIsFromHash(s: string, sha1: Sha1, utf8: Charset)
    ensures FromString(s, sha1, utf8) == FromHash(s, sha1, utf8)
  {
  }
}

=== FILE: hex.dfy ===
/**
 * Lower-case hexadecimal text for byte arrays, the codec behind `ChunkStorage.bytesToHex`,
 * `hexToBytes`, `NodeID.toString` and the private `hexStringToByteArray` helpers
 * (all of them share one algorithm in the source).
 */
module Hex {
  import opened Common

  const Alphabet: string := "0123456789abcdef"

  /** The two characters `String.format("%02x", b)` prints for one byte. */
  function ByteToHex(b: Byte): string {
    [Alphabet[b / 16], Alphabet[b % 16]]
  }

  /** `bytesToHex`: two lower-case hex digits per byte, most significant nibble first. */
  function Encode(bs: Bytes): (r: string)
    ensures |r| == 2 * |bs|
    ensures forall i | 0 <= i < |r| :: r[i] in Alphabet
  {
    if |bs| == 0 then "" else ByteToHex(bs[0]) + Encode(bs[1..])
  }

  /** `Character.digit(c, 16)` restricted to ASCII: the nibble value, or -1. */
  function Digit(c: char): (r: int)
    ensures -1 <= r < 16
    ensures r == -1 <==> !IsHexChar(c)
  {
    if '0' <= c <= '9' then c as int - '0' as int
    else if 'a' <= c <= 'f' then c as int - 'a' as int + 10
    else if 'A' <= c <= 'F' then c as int - 'A' as int + 10
    else -1
  }

  predicate IsHexChar(c: char) {
    ('0' <= c <= '9') || ('a' <= c <= 'f') || ('A' <= c <= 'F')
  }

  /** `(byte) ((digit(hi) << 4) + digit(lo))`: the Java cast keeps the low eight bits. */
  function DecodePair(hi: char, lo: char): Byte {
    (Digit(hi) * 16 + Digit(lo)) % 256
  }

  /** The loop body of `hexToBytes` over a string of even length. */
  function DecodeEven(s: string): (r: Bytes)
    requires |s| % 2 == 0
    ensures |r| == |s| / 2
    ensures forall i | 0 <= i < |r| :: r[i] == DecodePair(s[2 * i], s[2 * i + 1])
  {
    if |s| == 0 then [] else [DecodePair(s[0], s[1])] + DecodeEven(s[2..])
  }

  /**
   * `hexToBytes` / `hexStringToByteArray`. An odd length makes the last `charAt(i + 1)`
   * throw; invalid characters are not rejected but decode through digit -1.
   */
  function Decode(s: string): (r: Result<Bytes>)
    ensures r.Err? <==> |s| % 2 == 1
    ensures r.Err? ==> r.fault == IndexOutOfBounds
    ensures r.Ok? ==> |r.value| == |s| / 2
  {
    if |s| % 2 == 1 then Err(IndexOutOfBounds) else Ok(DecodeEven(s))
  }

  /** Every alphabet character decodes back to its position. */
  lemma DigitOfAlphabet(n: int)
    requires 0 <= n < 16
    ensures Digit(Alphabet[n]) == n
  {
    assert Alphabet == ['0', '1', '2', '3', '4', '5', '6', '7', '8', '9', 'a', 'b', 'c', 'd', 'e', 'f'];
  }

  lemma PairOfByte(b: Byte)
    ensures DecodePair(ByteToHex(b)[0], ByteToHex(b)[1]) == b
  {
    DigitOfAlphabet(b / 16);
    DigitOfAlphabet(b % 16);
  }

  /** Round trip: `hexToBytes(bytesToHex(b)) == b`. */
  lemma {:induction false} DecodeEncode(bs: Bytes)
    ensures Decode(Encode(bs)) == Ok(bs)
  {
    var s := Encode(bs);
    var r := DecodeEven(s);
    assert |r| == |bs|;
    forall i | 0 <= i < |bs|
      ensures r[i] == bs[i]
    {
      EncodeAt(bs, i);
      PairOfByte(bs[i]);
    }
    assert r == bs;
  }

  /** Byte `i` of the input occupies characters `2i` and `2i + 1` of the encoding. */
  lemma {:induction false} EncodeAt(bs: Bytes, i: int)
    requires 0 <= i < |bs|
    ensures Encode(bs)[2 * i] == ByteToHex(bs[i])[0]
    ensures Encode(bs)[2 * i + 1] == ByteToHex(bs[i])[1]
    decreases i
  {
    var t := Encode(bs[1..]);
    assert Encode(bs) == ByteToHex(bs[0]) + t;
    if i > 0 {
      EncodeAt(bs[1..], i - 1);
      assert Encode(bs)[2 * i] == t[2 * (i - 1)];
      assert Encode(bs)[2 * i + 1] == t[2 * (i - 1) + 1];
    }
  }

  /**
   * For even-length text made only of hex digits, each decoded byte is
   * high nibble * 16 + low nibble.
   */
  lemma DecodeValues(s: string, i: int)
    requires |s| % 2 == 0
    requires forall j | 0 <= j < |s| :: IsHexChar(s[j])
    requires 0 <= i < |s| / 2
    ensures Decode(s).Ok?
    ensures Decode(s).value[i] == Digit(s[2 * i]) * 16 + Digit(s[2 * i + 1])
  {
    assert IsHexChar(s[2 * i]) && IsHexChar(s[2 * i + 1]);
  }
}

=== FILE: kademlia_node.dfy ===
/**
 * The iterative operations of `dht.KademliaNode`, run sequentially against abstract RPC
 * answers: each remote call's outcome is looked up by the contact's node id in a finite
 * map, a missing entry standing for a call that failed or timed out. Contacts count as
 * equal when their node ids are, as in `Contact.equals`.
 */
module KademliaNodes {
  import opened Common
  import opened NodeIds
  import opened Contacts
  import opened NodeStates
  import RoutingTables
  import DataStores
  import PieceManagers
  import MetadataStores
  import Torrents
  import Closest
  import KBuckets
  import Rpc

  /** What `rpc.findNode` returns for each contact. */
  type FindNodeAnswers = map<Id, seq<Contact>>

  function Answer(answers: FindNodeAnswers, id: Id): seq<Contact> {
    if id in answers then answers[id] else []
  }

  predicate NoDup(ids: seq<Id>) {
    forall i, j | 0 <= i < j < |ids| :: ids[i] != ids[j]
  }

  /** Every id any answer mentions: a finite set, so a lookup can query only finitely often. */
  function AnswerIds(answers: FindNodeAnswers): set<Id> {
    set k, i | k in answers && 0 <= i < |answers[k]| :: answers[k][i].nodeId
  }

  lemma InAnswerIds(answers: FindNodeAnswers, q: Id, c: Contact)
    requires c in Answer(answers, q)
    ensures c.nodeId in AnswerIds(answers)
  {
    var i :| 0 <= i < |answers[q]| && answers[q][i] == c;
  }

  /**
   * The ids of `cs` a round queries: those not queried before, each once, in list order
   * (`if (!queried.contains(contact)) { … queried.add(contact); }`).
   */
  function Fresh(cs: seq<Contact>, seen: seq<Id>): (r: seq<Id>)
    ensures NoDup(r)
    ensures forall i | 0 <= i < |r| :: r[i] !in seen && KBuckets.HasId(cs, r[i])
    ensures forall i | 0 <= i < |cs| :: cs[i].nodeId in seen || cs[i].nodeId in r
    ensures |cs| > 0 && cs[0].nodeId !in seen ==> |r| > 0
  {
    if |cs| == 0 then []
    else if cs[0].nodeId in seen then
      var rest := Fresh(cs[1..], seen);
      assert forall i | 1 <= i < |cs| :: cs[i] == cs[1..][i - 1];
      assert forall i | 0 <= i < |rest| :: KBuckets.HasId(cs, rest[i]) by {
        forall i | 0 <= i < |rest| ensures KBuckets.HasId(cs, rest[i]) {
          var j :| 0 <= j < |cs[1..]| && cs[1..][j].nodeId == rest[i];
          assert cs[j + 1].nodeId == rest[i];
        }
      }
      rest
    else
      var rest := Fresh(cs[1..], seen + [cs[0].nodeId]);
      assert forall i | 1 <= i < |cs| :: cs[i] == cs[1..][i - 1];
      assert forall i | 0 <= i < |rest| :: KBuckets.HasId(cs, rest[i]) by {
        forall i | 0 <= i < |rest| ensures KBuckets.HasId(cs, rest[i]) {
          var j :| 0 <= j < |cs[1..]| && cs[1..][j].nodeId == rest[i];
          assert cs[j + 1].nodeId == rest[i];
        }
      }
      [cs[0].nodeId] + rest
  }

  /**
   * The contacts a round's answers list that were not queried (`nextToQuery`), in answer
   * order.
   */
  function Discovered(round: seq<Id>, answers: FindNodeAnswers, queried: seq<Id>): (r: seq<Contact>)
    ensures forall i | 0 <= i < |r| :: r[i].nodeId !in queried
    ensures forall i | 0 <= i < |r| :: exists k | 0 <= k < |round| :: r[i] in Answer(answers, round[k])
    ensures forall k, c | 0 <= k < |round| && c in Answer(answers, round[k]) :: c.nodeId in queried || c in r
  {
    if |round| == 0 then []
    else
      var here := Unqueried(Answer(answers, round[0]), queried);
      var rest := Discovered(round[1..], answers, queried);
      assert forall k | 1 <= k < |round| :: round[k] == round[1..][k - 1];
      assert forall i | 0 <= i < |rest| :: exists k | 0 <= k < |round| :: rest[i] in Answer(answers, round[k]) by {
        forall i | 0 <= i < |rest| ensures exists k | 0 <= k < |round| :: rest[i] in Answer(answers, round[k]) {
          var k :| 0 <= k < |round[1..]| && rest[i] in Answer(answers, round[1..][k]);
          assert round[k + 1] == round[1..][k];
        }
      }
      here + rest
  }

  /** The contacts of `cs` whose ids were not queried. */
  function Unqueried(cs: seq<Contact>, queried: seq<Id>): (r: seq<Contact>)
    ensures forall i | 0 <= i < |r| :: r[i].nodeId !in queried && r[i] in cs
    ensures forall c | c in cs :: c.nodeId in queried || c in r
  {
    if |cs| == 0 then []
    else (if cs[0].nodeId in queried then [] else [cs[0]]) + Unqueried(cs[1..], queried)
  }

  /** The routing-table side effect of a round: `findNode` offers every contact it returns. */
  function OfferAnswers(rt: RoutingTables.RoutingTable, round: seq<Id>, answers: FindNodeAnswers, now: int)
    : (r: RoutingTables.RoutingTable)
    requires RoutingTables.Valid(rt)
    ensures RoutingTables.Valid(r) && r.localId == rt.localId
    decreases |round|
  {
    if |round| == 0 then rt
    else OfferAnswers(Rpc.AddAll(rt, Answer(answers, round[0]), now), round[1..], answers, now)
  }

  /** A round's offers change no routing entry whose id none of its answers names. */
  lemma {:induction false} OfferAnswersKeepsOthers(
    rt: RoutingTables.RoutingTable, round: seq<Id>, answers: FindNodeAnswers, now: int, id: Id)
    requires RoutingTables.Valid(rt)
    requires forall k | 0 <= k < |round| :: !KBuckets.HasId(Answer(answers, round[k]), id)
    ensures RoutingTables.Lookup(OfferAnswers(rt, round, answers, now).allContacts, id) ==
      RoutingTables.Lookup(rt.allContacts, id)
    decreases |round|
  {
    if |round| > 0 {
      Rpc.AddAllKeepsOthers(rt, Answer(answers, round[0]), now, id);
      var next := Rpc.AddAll(rt, Answer(answers, round[0]), now);
      assert forall k | 0 <= k < |round[1..]| :: round[1..][k] == round[k + 1];
      OfferAnswersKeepsOthers(next, round[1..], answers, now, id);
    }
  }

  /** Strictly increasing under `key`: at most one contact per key value. */
  predicate StrictlySorted(s: seq<Contact>, key: Closest.Ranking) {
    forall i, j | 0 <= i < j < |s| :: key(s[i]) < key(s[j])
  }

  /** Some element of `s` ranks `k` under `key`. */
  predicate Ranks(s: seq<Contact>, k: nat, key: Closest.Ranking)
    decreases |s|
  {
    |s| > 0 && (key(s[0]) == k || Ranks(s[1..], k, key))
  }

  lemma {:induction false} RanksIff(s: seq<Contact>, k: nat, key: Closest.Ranking)
    ensures Ranks(s, k, key) <==> exists i | 0 <= i < |s| :: key(s[i]) == k
    decreases |s|
  {
    if |s| > 0 {
      RanksIff(s[1..], k, key);
      if exists i | 0 <= i < |s| :: key(s[i]) == k {
        var i :| 0 <= i < |s| && key(s[i]) == k;
        if i > 0 {
          assert key(s[1..][i - 1]) == k;
        }
      }
    }
  }

  /** A rank present in `s` stays present in any list holding every element of `s`. */
  lemma RanksMono(s: seq<Contact>, r: seq<Contact>, k: nat, key: Closest.Ranking)
    requires forall x | x in s :: x in r
    requires Ranks(s, k, key)
    ensures Ranks(r, k, key)
  {
    RanksIff(s, k, key);
    var i :| 0 <= i < |s| && key(s[i]) == k;
    assert s[i] in r;
    var j :| 0 <= j < |r| && r[j] == s[i];
    RanksIff(r, k, key);
  }

  /**
   * `TreeSet.add` under a comparator on `key`: a contact whose key is already present is
   * dropped; otherwise it is inserted in order.
   */
  function TreeAdd(s: seq<Contact>, c: Contact, key: Closest.Ranking): (r: seq<Contact>)
    requires StrictlySorted(s, key)
    ensures StrictlySorted(r, key)
    ensures forall x | x in r :: x in s || x == c
    ensures forall x | x in s :: x in r
    ensures Ranks(r, key(c), key)
    ensures |r| <= |s| + 1
  {
    if |s| == 0 then [c]
    else if key(c) == key(s[0]) then s
    else if key(c) < key(s[0]) then
      ConsStrict(c, s, key);
      [c] + s
    else
      var rest := TreeAdd(s[1..], c, key);
      HeadBelowTail(s, key);
      ConsStrict(s[0], rest, key);
      assert s == [s[0]] + s[1..];
      assert ([s[0]] + rest)[1..] == rest;
      [s[0]] + rest
  }

  /** In a strictly sorted list the head ranks below every element of the tail. */
  lemma HeadBelowTail(s: seq<Contact>, key: Closest.Ranking)
    requires |s| > 0 && StrictlySorted(s, key)
    ensures forall x | x in s[1..] :: key(s[0]) < key(x)
  {
    forall x | x in s[1..]
      ensures key(s[0]) < key(x)
    {
      var j :| 0 <= j < |s[1..]| && s[1..][j] == x;
      assert s[j + 1] == x;
    }
  }

  /** A head ranking below every element keeps a strictly sorted list strictly sorted. */
  lemma ConsStrict(h: Contact, t: seq<Contact>, key: Closest.Ranking)
    requires StrictlySorted(t, key)
    requires forall x | x in t :: key(h) < key(x)
    ensures StrictlySorted([h] + t, key)
  {
    var r := [h] + t;
    forall i, j | 0 <= i < j < |r|
      ensures key(r[i]) < key(r[j])
    {
      assert r[j] == t[j - 1];
      if i > 0 {
        assert r[i] == t[i - 1];
      } else {
        assert t[j - 1] in t;
      }
    }
  }

  /** `closest.addAll(contacts)`, in list order. */
  function TreeAddAll(s: seq<Contact>, cs: seq<Contact>, key: Closest.Ranking): (r: seq<Contact>)
    requires StrictlySorted(s, key)
    ensures StrictlySorted(r, key)
    ensures forall x | x in r :: x in s || x in cs
    ensures forall x | x in s :: x in r
    ensures forall x | x in cs :: Ranks(r, key(x), key)
    ensures |r| <= |s| + |cs|
    decreases |cs|
  {
    if |cs| == 0 then s
    else
      var next := TreeAdd(s, cs[0], key);
      var r := TreeAddAll(next, cs[1..], key);
      RanksMono(next, r, key(cs[0]), key);
      assert forall x | x in cs :: x == cs[0] || x in cs[1..];
      r
  }

  /**
   * `r` keeps one contact of `contacts` for every distance to `target` they occur at, in
   * ascending order of distance.
   */
  predicate OnePerDistance(r: seq<Contact>, contacts: seq<Contact>, target: Id) {
    OnePerKey(r, contacts, Closest.ByDistance(target))
  }

  predicate OnePerKey(r: seq<Contact>, contacts: seq<Contact>, key: Closest.Ranking) {
    && StrictlySorted(r, key)
    && (forall c | c in r :: c in contacts)
    && (forall c | c in contacts :: Ranks(r, key(c), key))
  }

  /**
   * `closest` filled from `contacts`, then cut to its first `K` elements: one contact per
   * distance, ascending; the first contact of each distance in list order survives.
   */
  function ClosestSet(contacts: seq<Contact>, target: Id): (r: seq<Contact>)
    ensures |r| <= K && |r| <= |contacts|
    ensures StrictlySorted(r, Closest.ByDistance(target))
    ensures forall c | c in r :: c in contacts
    ensures |contacts| <= K ==> OnePerDistance(r, contacts, target)
  {
    var key := Closest.ByDistance(target);
    var closest := TreeAddAll([], contacts, key);
    assert OnePerKey(closest, contacts, key);
    var n := Min(K, |closest|);
    TakeStrict(closest, n, key);
    assert |contacts| <= K ==> closest[..n] == closest;
    closest[..n]
  }

  /** A prefix of a strictly sorted list is strictly sorted and holds only its elements. */
  lemma TakeStrict(s: seq<Contact>, n: nat, key: Closest.Ranking)
    requires n <= |s| && StrictlySorted(s, key)
    ensures StrictlySorted(s[..n], key)
    ensures forall c | c in s[..n] :: c in s
  {
    assert forall i | 0 <= i < n :: s[..n][i] == s[i];
  }

  /**
   * `nodeLookup(target)`. The search starts from the `Alpha` closest known contacts;
   * `closest`, the TreeSet ordered by distance alone, is filled from them once and never
   * again, so the result is those seeds, one per distance, ascending, and no contact any
   * round discovers. The rounds query every reachable contact exactly once and end when
   * a round discovers nothing new; along the way every answer is offered to the routing
   * table.
   */
  method NodeLookup(rt: RoutingTables.RoutingTable, target: Id, answers: FindNodeAnswers, now: int)
    returns (result: seq<Contact>, queried: seq<Id>, rtOut: RoutingTables.RoutingTable)
    requires RoutingTables.Valid(rt)
    ensures RoutingTables.Valid(rtOut) && rtOut.localId == rt.localId
    ensures |result| <= K && |result| <= Alpha
    ensures OnePerDistance(result, RoutingTables.FindClosestContacts(rt, target, Alpha), target)
    ensures NoDup(queried)
    ensures forall c | c in RoutingTables.FindClosestContacts(rt, target, Alpha) :: c.nodeId in queried
    ensures forall k, c | 0 <= k < |queried| && c in Answer(answers, queried[k]) :: c.nodeId in queried
  {
    var seeds := RoutingTables.FindClosestContacts(rt, target, Alpha);
    assert |seeds| <= Alpha;
    result := ClosestSet(seeds, target);
    queried, rtOut := Search(rt, seeds, answers, now);
  }

  /**
   * The rounds of a lookup from `seeds`: each round queries the waiting contacts not
   * queried yet and waits for the unqueried contacts their answers list; the search ends
   * when a round discovers none.
   */
  method Search(rt: RoutingTables.RoutingTable, seeds: seq<Contact>, answers: FindNodeAnswers, now: int)
    returns (queried: seq<Id>, rtOut: RoutingTables.RoutingTable)
    requires RoutingTables.Valid(rt)
    ensures RoutingTables.Valid(rtOut) && rtOut.localId == rt.localId
    ensures NoDup(queried)
    ensures forall c | c in seeds :: c.nodeId in queried
    ensures forall k, c | 0 <= k < |queried| && c in Answer(answers, queried[k]) :: c.nodeId in queried
    ensures forall i | 0 <= i < |queried| :: queried[i] in Universe(seeds, answers)
  {
    var toQuery := seeds;
    queried := [];
    rtOut := rt;
    SeedsInUniverse(seeds, answers);
    while |toQuery| > 0
      invariant RoutingTables.Valid(rtOut) && rtOut.localId == rt.localId
      invariant Searching(seeds, answers, queried, toQuery)
      decreases |Unvisited(seeds, answers, queried)|
    {
      var round := Fresh(toQuery, queried);
      var next := Discovered(round, answers, queried + round);
      RoundKeepsSearching(seeds, answers, queried, toQuery);
      rtOut := OfferAnswers(rtOut, round, answers, now);
      queried := queried + round;
      toQuery := next;
    }
    SearchDone(seeds, answers, queried);
  }

  /** With nothing left waiting, every seed was queried and the queried ids are closed under answers. */
  lemma SearchDone(seeds: seq<Contact>, answers: FindNodeAnswers, queried: seq<Id>)
    requires Searching(seeds, answers, queried, [])
    ensures forall c | c in seeds :: c.nodeId in queried
    ensures forall k, c | 0 <= k < |queried| && c in Answer(answers, queried[k]) :: c.nodeId in queried
  {
    assert forall id :: !KBuckets.HasId([], id);
  }

  /** The ids a lookup from `seeds` can ever query. */
  function Universe(seeds: seq<Contact>, answers: FindNodeAnswers): set<Id> {
    KBuckets.Ids(seeds) + AnswerIds(answers)
  }

  function SetOf(ids: seq<Id>): (r: set<Id>)
    ensures forall x :: x in r <==> x in ids
  {
    set x | x in ids
  }

  function Unvisited(seeds: seq<Contact>, answers: FindNodeAnswers, queried: seq<Id>): set<Id> {
    Universe(seeds, answers) - SetOf(queried)
  }

  /**
   * The lookup's loop invariant: each id was queried once and comes from the seeds or an
   * answer; the ids waiting are unqueried; every seed and every id an answer of a queried
   * contact mentions has been queried or is waiting.
   */
  predicate Searching(seeds: seq<Contact>, answers: FindNodeAnswers, queried: seq<Id>, toQuery: seq<Contact>) {
    && NoDup(queried)
    && (forall i | 0 <= i < |queried| :: queried[i] in Universe(seeds, answers))
    && (forall i | 0 <= i < |toQuery| :: toQuery[i].nodeId in Universe(seeds, answers) && toQuery[i].nodeId !in queried)
    && (forall c | c in seeds :: c.nodeId in queried || KBuckets.HasId(toQuery, c.nodeId))
    && (forall k, c | 0 <= k < |queried| && c in Answer(answers, queried[k]) ::
          c.nodeId in queried || KBuckets.HasId(toQuery, c.nodeId))
  }

  lemma SeedsInUniverse(seeds: seq<Contact>, answers: FindNodeAnswers)
    ensures Searching(seeds, answers, [], seeds)
  {
    forall c | c in seeds ensures KBuckets.HasId(seeds, c.nodeId) {
      var i :| 0 <= i < |seeds| && seeds[i] == c;
    }
  }

  /** One round keeps the invariant and leaves fewer ids unvisited. */
  lemma RoundKeepsSearching(seeds: seq<Contact>, answers: FindNodeAnswers, queried: seq<Id>, toQuery: seq<Contact>)
    requires |toQuery| > 0
    requires Searching(seeds, answers, queried, toQuery)
    ensures var round := Fresh(toQuery, queried);
      && Searching(seeds, answers, queried + round, Discovered(round, answers, queried + round))
      && |Unvisited(seeds, answers, queried + round)| < |Unvisited(seeds, answers, queried)|
  {
    var round := Fresh(toQuery, queried);
    var all := queried + round;
    var next := Discovered(round, answers, all);
    var universe := Universe(seeds, answers);
    NoDupAppend(queried, round);
    RoundInUniverse(universe, queried, round, toQuery);
    NextInUniverse(seeds, answers, round, next, all);
    SeedsStillCovered(seeds, queried, round, toQuery);
    ClosureAfterRound(answers, queried, round, toQuery, next);
    assert |round| > 0;
    var j :| 0 <= j < |toQuery| && toQuery[j].nodeId == round[0];
    RoundMakesProgress(universe, queried, round);
  }

  lemma RoundInUniverse(universe: set<Id>, queried: seq<Id>, round: seq<Id>, toQuery: seq<Contact>)
    requires forall i | 0 <= i < |toQuery| :: toQuery[i].nodeId in universe
    requires forall i | 0 <= i < |round| :: KBuckets.HasId(toQuery, round[i])
    requires forall i | 0 <= i < |queried| :: queried[i] in universe
    ensures forall i | 0 <= i < |queried + round| :: (queried + round)[i] in universe
  {
    forall i | 0 <= i < |queried + round| ensures (queried + round)[i] in universe {
      if i >= |queried| {
        assert (queried + round)[i] == round[i - |queried|];
        var j :| 0 <= j < |toQuery| && toQuery[j].nodeId == round[i - |queried|];
      }
    }
  }

  lemma NextInUniverse(seeds: seq<Contact>, answers: FindNodeAnswers, round: seq<Id>, next: seq<Contact>, all: seq<Id>)
    requires next == Discovered(round, answers, all)
    ensures forall i | 0 <= i < |next| :: next[i].nodeId in Universe(seeds, answers) && next[i].nodeId !in all
  {
    forall i | 0 <= i < |next| ensures next[i].nodeId in Universe(seeds, answers) {
      var k :| 0 <= k < |round| && next[i] in Answer(answers, round[k]);
      InAnswerIds(answers, round[k], next[i]);
    }
  }

  lemma SeedsStillCovered(seeds: seq<Contact>, queried: seq<Id>, round: seq<Id>, toQuery: seq<Contact>)
    requires forall c | c in seeds :: c.nodeId in queried || KBuckets.HasId(toQuery, c.nodeId)
    requires forall i | 0 <= i < |toQuery| :: toQuery[i].nodeId in queried || toQuery[i].nodeId in round
    ensures forall c | c in seeds :: c.nodeId in queried + round
  {
    forall c | c in seeds ensures c.nodeId in queried + round {
      if KBuckets.HasId(toQuery, c.nodeId) {
        var j :| 0 <= j < |toQuery| && toQuery[j].nodeId == c.nodeId;
      }
    }
  }

  lemma NoDupAppend(a: seq<Id>, b: seq<Id>)
    requires NoDup(a) && NoDup(b)
    requires forall i | 0 <= i < |b| :: b[i] !in a
    ensures NoDup(a + b)
  {
    var s := a + b;
    forall i, j | 0 <= i < j < |s| ensures s[i] != s[j] {
      if j >= |a| && i < |a| {
        assert s[j] == b[j - |a|];
      }
    }
  }

  /** Querying an id of the universe not queried before shrinks what is left to visit. */
  lemma RoundMakesProgress(universe: set<Id>, queried: seq<Id>, round: seq<Id>)
    requires |round| > 0 && round[0] in universe && round[0] !in queried
    ensures |universe - SetOf(queried + round)| < |universe - SetOf(queried)|
  {
    var x := round[0];
    var a, b := SetOf(queried), SetOf(queried + round);
    assert (queried + round)[|queried|] == x;
    assert a <= b by {
      forall y | y in a ensures y in b {
        var i :| 0 <= i < |queried| && queried[i] == y;
        assert (queried + round)[i] == y;
      }
    }
    var left, was := universe - b, universe - a;
    var gone := was - left;
    assert x in gone;
    assert was == left + gone && left * gone == {};
    assert |gone| >= |{x}| by {
      assert {x} <= gone;
    }
  }

  /** After a round, every answer of a queried contact is queried or waits in the next round. */
  lemma ClosureAfterRound(answers: FindNodeAnswers, queried: seq<Id>, round: seq<Id>, toQuery: seq<Contact>,
                          next: seq<Contact>)
    requires round == Fresh(toQuery, queried)
    requires next == Discovered(round, answers, queried + round)
    requires forall k, c | 0 <= k < |queried| && c in Answer(answers, queried[k]) ::
      c.nodeId in queried || KBuckets.HasId(toQuery, c.nodeId)
    ensures forall k, c | 0 <= k < |queried + round| && c in Answer(answers, (queried + round)[k]) ::
      c.nodeId in queried + round || KBuckets.HasId(next, c.nodeId)
  {
    var all := queried + round;
    forall k, c | 0 <= k < |all| && c in Answer(answers, all[k])
      ensures c.nodeId in all || KBuckets.HasId(next, c.nodeId)
    {
      if k < |queried| {
        assert all[k] == queried[k];
        if KBuckets.HasId(toQuery, c.nodeId) {
          var i :| 0 <= i < |toQuery| && toQuery[i].nodeId == c.nodeId;
        }
      } else {
        assert all[k] == round[k - |queried|];
        if c in next {
          var i :| 0 <= i < |next| && next[i] == c;
        }
      }
    }
  }

  /** What `rpc.findValue` returns for each contact. */
  type FindValueAnswers = map<Id, Rpc.FindValueResult>

  function ValueAnswer(answers: FindValueAnswers, id: Id): Rpc.FindValueResult {
    if id in answers then answers[id] else Rpc.FindValueResult(None, [])
  }

  /** The contacts each answer offers for the next round; an answer holding a value offers none. */
  function NextHops(answers: FindValueAnswers): (r: FindNodeAnswers)
    ensures forall id :: ValueAnswer(answers, id).value.None? ==> Answer(r, id) == ValueAnswer(answers, id).contacts
  {
    map id | id in answers :: if answers[id].value.Some? then [] else answers[id].contacts
  }

  /** The first value among a round's answers, taken in query order (the `break` on a hit). */
  function FirstValue(round: seq<Id>, answers: FindValueAnswers): (r: Option<Bytes>)
    ensures r.None? <==> forall k | 0 <= k < |round| :: ValueAnswer(answers, round[k]).value.None?
    ensures r.Some? ==> exists k | 0 <= k < |round| ::
      && ValueAnswer(answers, round[k]).value == r
      && forall j | 0 <= j < k :: ValueAnswer(answers, round[j]).value.None?
  {
    if |round| == 0 then None
    else if ValueAnswer(answers, round[0]).value.Some? then ValueAnswer(answers, round[0]).value
    else
      var r := FirstValue(round[1..], answers);
      assert forall k | 1 <= k < |round| :: round[k] == round[1..][k - 1];
      if r.Some? then
        var k :| 0 <= k < |round[1..]| && ValueAnswer(answers, round[1..][k]).value == r &&
          forall j | 0 <= j < k :: ValueAnswer(answers, round[1..][j]).value.None?;
        assert ValueAnswer(answers, round[k + 1]).value == r;
        r
      else r
  }

  /** None of the queried contacts answered with a value. */
  predicate NoValue(answers: FindValueAnswers, queried: seq<Id>) {
    forall k | 0 <= k < |queried| :: ValueAnswer(answers, queried[k]).value.None?
  }

  /** Some queried contact answered with exactly `value`. */
  predicate AnsweredWith(answers: FindValueAnswers, queried: seq<Id>, value: Option<Bytes>) {
    exists k | 0 <= k < |queried| :: ValueAnswer(answers, queried[k]).value == value
  }

  /** `value` is the answer of the first queried contact that returned a value at all. */
  predicate FirstAnsweredWith(answers: FindValueAnswers, queried: seq<Id>, value: Option<Bytes>) {
    exists n | 0 <= n < |queried| ::
      NoValue(answers, queried[..n]) && ValueAnswer(answers, queried[n]).value == value
  }

  /** A round's first value extends `queried` as its first value overall, and none means none. */
  lemma RoundValue(answers: FindValueAnswers, queried: seq<Id>, round: seq<Id>)
    requires NoValue(answers, queried)
    ensures FirstValue(round, answers).None? ==> NoValue(answers, queried + round)
    ensures FirstValue(round, answers).Some? ==> AnsweredWith(answers, queried + round, FirstValue(round, answers))
    ensures FirstValue(round, answers).Some? ==>
      FirstAnsweredWith(answers, queried + round, FirstValue(round, answers))
  {
    var v := FirstValue(round, answers);
    if v.None? {
      AppendNoValue(answers, queried, round);
    } else {
      var k :| 0 <= k < |round| && ValueAnswer(answers, round[k]).value == v &&
        forall j | 0 <= j < k :: ValueAnswer(answers, round[j]).value.None?;
      AppendFirstValue(answers, queried, round, k);
    }
  }

  /** Appending a round with no value to contacts with no value gives contacts with no value. */
  lemma AppendNoValue(answers: FindValueAnswers, queried: seq<Id>, round: seq<Id>)
    requires NoValue(answers, queried) && NoValue(answers, round)
    ensures NoValue(answers, queried + round)
  {
    var all := queried + round;
    forall k | 0 <= k < |all| ensures ValueAnswer(answers, all[k]).value.None? {
      if k >= |queried| {
        assert all[k] == round[k - |queried|];
      }
    }
  }

  /** The first value of a round, at index `k`, is the first value after contacts that had none. */
  lemma AppendFirstValue(answers: FindValueAnswers, queried: seq<Id>, round: seq<Id>, k: nat)
    requires NoValue(answers, queried) && k < |round|
    requires NoValue(answers, round[..k])
    ensures var n := |queried| + k;
      NoValue(answers, (queried + round)[..n]) && (queried + round)[n] == round[k]
  {
    var all := queried + round;
    var n := |queried| + k;
    assert all[..n] == queried + round[..k];
    AppendNoValue(answers, queried, round[..k]);
  }

  /**
   * `findValue(key)`. A live local value is returned at once, without any RPC (the read
   * still erases an expired entry). Otherwise the search proceeds in rounds as in a node
   * lookup, stopping after the first round in which some contact returns a value; that
   * value is the first one of its round. When no contact has the value, the search ends
   * with every seed queried and every contact any answer names queried, and yields null.
   */
  method FindValue(ds: DataStores.DataStore, rt: RoutingTables.RoutingTable, key: Id, answers: FindValueAnswers,
                   now: int)
    returns (value: Option<Bytes>, dsOut: DataStores.DataStore, queried: seq<Id>, rtOut: RoutingTables.RoutingTable)
    requires RoutingTables.Valid(rt)
    ensures dsOut == DataStores.Get(ds, key, now).1
    ensures RoutingTables.Valid(rtOut) && rtOut.localId == rt.localId
    ensures DataStores.Get(ds, key, now).0.Some? ==>
      value == DataStores.Get(ds, key, now).0 && queried == [] && rtOut == rt
    ensures NoDup(queried)
    ensures DataStores.Get(ds, key, now).0.None? && value.Some? ==> AnsweredWith(answers, queried, value)
    ensures DataStores.Get(ds, key, now).0.None? && value.Some? ==> FirstAnsweredWith(answers, queried, value)
    ensures value.None? ==> NoValue(answers, queried)
    ensures value.None? ==> forall c | c in RoutingTables.FindClosestContacts(rt, key, Alpha) :: c.nodeId in queried
    ensures value.None? ==> forall k, c | 0 <= k < |queried| && c in ValueAnswer(answers, queried[k]).contacts ::
      c.nodeId in queried
  {
    var local := DataStores.Get(ds, key, now);
    dsOut := local.1;
    queried := [];
    rtOut := rt;
    if local.0.Some? {
      value := local.0;
      return;
    }
    value := None;
    var seeds := RoutingTables.FindClosestContacts(rt, key, Alpha);
    var hops := NextHops(answers);
    var toQuery := seeds;
    SeedsInUniverse(seeds, hops);
    while |toQuery| > 0 && value.None?
      invariant RoutingTables.Valid(rtOut) && rtOut.localId == rt.localId
      invariant NoDup(queried)
      invariant value.None? ==> Searching(seeds, hops, queried, toQuery) && NoValue(answers, queried)
      invariant value.Some? ==> AnsweredWith(answers, queried, value)
      invariant value.Some? ==> FirstAnsweredWith(answers, queried, value)
      decreases |Unvisited(seeds, hops, queried)|
    {
      var round := Fresh(toQuery, queried);
      var next := Discovered(round, hops, queried + round);
      RoundKeepsSearching(seeds, hops, queried, toQuery);
      RoundValue(answers, queried, round);
      rtOut := OfferAnswers(rtOut, round, hops, now);
      value := FirstValue(round, answers);
      queried := queried + round;
      toQuery := next;
    }
    if value.None? {
      SearchDone(seeds, hops, queried);
      ValueFreeClosure(answers, queried);
    }
  }

  /** Without values, the answers' contacts are exactly the next hops. */
  lemma ValueFreeClosure(answers: FindValueAnswers, queried: seq<Id>)
    requires NoValue(answers, queried)
    requires forall k, c | 0 <= k < |queried| && c in Answer(NextHops(answers), queried[k]) :: c.nodeId in queried
    ensures forall k, c | 0 <= k < |queried| && c in ValueAnswer(answers, queried[k]).contacts :: c.nodeId in queried
  {
  }

  /** What `rpc.store` answers for each contact; a missing entry is a failed call. */
  type StoreAcks = map<Id, bool>

  predicate Acked(acks: StoreAcks, id: Id) {
    id in acks && acks[id]
  }

  /** The number of contacts whose store call succeeded. */
  function CountAcked(targets: seq<Contact>, acks: StoreAcks): (r: nat)
    ensures r <= |targets|
    ensures r == |targets| <==> forall i | 0 <= i < |targets| :: Acked(acks, targets[i].nodeId)
    ensures r == 0 <==> forall i | 0 <= i < |targets| :: !Acked(acks, targets[i].nodeId)
  {
    if |targets| == 0 then 0
    else
      var rest := CountAcked(targets[1..], acks);
      assert forall i | 1 <= i < |targets| :: targets[i] == targets[1..][i - 1];
      (if Acked(acks, targets[0].nodeId) then 1 else 0) + rest
  }

  /**
   * `store(key, value)`: a node lookup for the key, then one store call on each contact it
   * returns; the count of successes is what the source reports.
   */
  method Store(rt: RoutingTables.RoutingTable, key: Id, answers: FindNodeAnswers, acks: StoreAcks, now: int)
    returns (targets: seq<Contact>, successes: nat, rtOut: RoutingTables.RoutingTable)
    requires RoutingTables.Valid(rt)
    ensures RoutingTables.Valid(rtOut) && rtOut.localId == rt.localId
    ensures |targets| <= Alpha
    ensures OnePerDistance(targets, RoutingTables.FindClosestContacts(rt, key, Alpha), key)
    ensures successes == CountAcked(targets, acks) && successes <= |targets|
    ensures successes == |targets| <==> forall i | 0 <= i < |targets| :: Acked(acks, targets[i].nodeId)
    ensures successes == 0 <==> forall i | 0 <= i < |targets| :: !Acked(acks, targets[i].nodeId)
  {
    var queried;
    targets, queried, rtOut := NodeLookup(rt, key, answers, now);
    successes := CountAcked(targets, acks);
  }

  /** No contact a valid routing table returns is the local node. */
  lemma ClosestAreRemote(rt: RoutingTables.RoutingTable, target: Id, count: nat)
    requires RoutingTables.Valid(rt)
    ensures forall c | c in RoutingTables.FindClosestContacts(rt, target, count) :: c.nodeId != rt.localId
  {
    var r := RoutingTables.FindClosestContacts(rt, target, count);
    forall c | c in r ensures c.nodeId != rt.localId {
      assert c in multiset(r);
      assert c in multiset(rt.allContacts);
      var i :| 0 <= i < |rt.allContacts| && rt.allContacts[i] == c;
    }
  }

  /**
   * The loop of `storePiece`: the local node saves the piece, every other node has
   * `rpc.sendStorePiece` called on it. Yields the piece manager, the contacts called on and
   * the contacts a STORE_PIECE actually went to: `sendStorePiece` reads the length of the
   * data before building the message, so with null data it throws (and swallows the
   * exception) before anything is sent.
   */
  function SendPieces(pm: PieceManagers.PieceManager, localId: Id, pieceKey: string, pieceData: Option<Bytes>,
                      nodes: seq<Contact>): (r: (PieceManagers.PieceManager, seq<Contact>, seq<Contact>))
    ensures forall c | c in r.1 :: c in nodes && c.nodeId != localId
    ensures forall c | c in nodes && c.nodeId != localId :: c in r.1
    ensures (forall c | c in nodes :: c.nodeId != localId) ==> r.0 == pm && r.1 == nodes
    ensures pieceData.Some? ==> r.2 == r.1
    ensures pieceData.None? ==> r.2 == []
    decreases |nodes|
  {
    if |nodes| == 0 then (pm, [], [])
    else
      var c := nodes[0];
      var pm' := if c.nodeId == localId then PieceManagers.SavePieceData(pm, pieceKey, pieceData).0 else pm;
      var rest := SendPieces(pm', localId, pieceKey, pieceData, nodes[1..]);
      assert forall x | x in nodes :: x == c || x in nodes[1..];
      assert nodes == [c] + nodes[1..];
      if c.nodeId == localId then rest
      else (rest.0, [c] + rest.1, if pieceData.Some? then [c] + rest.2 else rest.2)
  }

  /**
   * `storePiece(pieceKey, pieceData)`: the piece goes to the 3 contacts closest to the
   * hash of its key. The branch that stores locally when the local node is among them
   * is never taken, because a routing table never holds the local node: the local piece
   * files are never written and `sendStorePiece` is called on every one of the 3, which
   * sends the piece unless it is null. The calls' answers are ignored.
   */
  function StorePiece(st: NodeState, pieceKey: string, pieceData: Option<Bytes>, sha1: Sha1, utf8: Charset)
    : (r: (PieceManagers.PieceManager, seq<Contact>, seq<Contact>))
    requires NodeStates.Valid(st)
    ensures r.0 == st.pieces
    ensures |r.1| == Min(3, |st.routing.allContacts|)
    ensures r.1 == RoutingTables.FindClosestContacts(st.routing, FromHash(pieceKey, sha1, utf8), 3)
    ensures forall c | c in r.1 :: c.nodeId != st.localId
    ensures pieceData.Some? ==> r.2 == r.1
    ensures pieceData.None? ==> r.2 == []
  {
    var targetId := FromHash(pieceKey, sha1, utf8);
    var nodes := RoutingTables.FindClosestContacts(st.routing, targetId, 3);
    ClosestAreRemote(st.routing, targetId, 3);
    SendPieces(st.pieces, st.localId, pieceKey, pieceData, nodes)
  }

  /** What `rpc.sendGetPiece` returns for each contact. */
  type PieceReplies = map<Id, Option<Bytes>>

  function Reply(replies: PieceReplies, id: Id): Option<Bytes> {
    if id in replies then replies[id] else None
  }

  /**
   * The loop of `retrievePiece`: asks the non-local nodes in turn and stops at the first
   * one returning data. Yields the data and the contacts asked, in order.
   */
  function AskInTurn(nodes: seq<Contact>, localId: Id, replies: PieceReplies): (r: (Option<Bytes>, seq<Contact>))
    ensures |r.1| <= |nodes|
    ensures forall c | c in r.1 :: c in nodes && c.nodeId != localId
    decreases |nodes|
  {
    if |nodes| == 0 then (None, [])
    else
      var c := nodes[0];
      var rest := AskInTurn(nodes[1..], localId, replies);
      if c.nodeId == localId then rest
      else if Reply(replies, c.nodeId).Some? then (Reply(replies, c.nodeId), [c])
      else (rest.0, [c] + rest.1)
  }

  /** The last contact on `asked` returned `data`. */
  predicate LastHad(replies: PieceReplies, asked: seq<Contact>, data: Option<Bytes>) {
    |asked| > 0 && Reply(replies, asked[|asked| - 1].nodeId) == data
  }

  /** Every contact on `asked` but the last one returned no data. */
  predicate NoneBeforeLast(replies: PieceReplies, asked: seq<Contact>) {
    forall i | 0 <= i < |asked| - 1 :: Reply(replies, asked[i].nodeId).None?
  }

  /**
   * The asking stops at the first data: every contact asked before the last one had none,
   * and the last one returned the data.
   */
  lemma {:induction false} AskInTurnStopsAtData(nodes: seq<Contact>, localId: Id, replies: PieceReplies)
    ensures AskInTurn(nodes, localId, replies).0.Some? ==>
      LastHad(replies, AskInTurn(nodes, localId, replies).1, AskInTurn(nodes, localId, replies).0)
    ensures NoneBeforeLast(replies, AskInTurn(nodes, localId, replies).1)
    decreases |nodes|
  {
    if |nodes| > 0 {
      AskInTurnStopsAtData(nodes[1..], localId, replies);
      var c := nodes[0];
      var rest := AskInTurn(nodes[1..], localId, replies);
      if c.nodeId == localId {
        assert AskInTurn(nodes, localId, replies) == rest;
      } else if Reply(replies, c.nodeId).Some? {
        assert AskInTurn(nodes, localId, replies) == (Reply(replies, c.nodeId), [c]);
      } else {
        var asked := [c] + rest.1;
        assert AskInTurn(nodes, localId, replies) == (rest.0, asked);
        ConsNoneBeforeLast(replies, c, rest.1);
      }
    }
  }

  /** Prepending a contact that had no data keeps every contact before the last without data. */
  lemma ConsNoneBeforeLast(replies: PieceReplies, c: Contact, asked: seq<Contact>)
    requires Reply(replies, c.nodeId).None? && NoneBeforeLast(replies, asked)
    ensures NoneBeforeLast(replies, [c] + asked)
    ensures |asked| > 0 ==> ([c] + asked)[|asked|] == asked[|asked| - 1]
  {
    var all := [c] + asked;
    forall i | 0 <= i < |all| - 1 ensures Reply(replies, all[i].nodeId).None? {
      if i > 0 {
        assert all[i] == asked[i - 1];
      }
    }
  }

  /** The nodes asked are a prefix of the non-local nodes, asked in their list order. */
  lemma {:induction false} AskInTurnAsksInOrder(nodes: seq<Contact>, localId: Id, replies: PieceReplies)
    ensures AskInTurn(nodes, localId, replies).1 <= Remote(nodes, localId)
    decreases |nodes|
  {
    if |nodes| > 0 {
      AskInTurnAsksInOrder(nodes[1..], localId, replies);
      var c := nodes[0];
      if c.nodeId == localId {
        assert Remote(nodes, localId) == Remote(nodes[1..], localId);
      } else {
        assert Remote(nodes, localId) == [c] + Remote(nodes[1..], localId);
      }
    }
  }

  /** Without data, every non-local node was asked and had none. */
  lemma {:induction false} AskInTurnAsksAll(nodes: seq<Contact>, localId: Id, replies: PieceReplies)
    ensures var r := AskInTurn(nodes, localId, replies);
      r.0.None? ==> forall c | c in nodes && c.nodeId != localId :: c in r.1 && Reply(replies, c.nodeId).None?
    decreases |nodes|
  {
    if |nodes| > 0 {
      AskInTurnAsksAll(nodes[1..], localId, replies);
      assert forall x | x in nodes :: x == nodes[0] || x in nodes[1..];
    }
  }

  /**
   * `retrievePiece(pieceKey)`. A piece present locally is returned without asking anyone.
   * Otherwise the up to 5 contacts closest to the hash of the key are asked in turn; the
   * first data returned is cached locally under the key and returned, and the contacts
   * after it are not asked. When none has it, nothing is written and the result is null.
   */
  function RetrievePiece(st: NodeState, pieceKey: string, replies: PieceReplies, sha1: Sha1, utf8: Charset)
    : (r: (Option<Bytes>, PieceManagers.PieceManager, seq<Contact>))
    requires NodeStates.Valid(st)
    ensures PieceManagers.LoadPieceData(st.pieces, pieceKey).Some? ==>
      r == (PieceManagers.LoadPieceData(st.pieces, pieceKey), st.pieces, [])
    ensures r.0.Some? ==> PieceManagers.LoadPieceData(r.1, pieceKey) == r.0
    ensures |r.2| <= 5
    ensures r.2 <= RoutingTables.FindClosestContacts(st.routing, FromHash(pieceKey, sha1, utf8), 5)
    ensures forall c | c in r.2 ::
      c in RoutingTables.FindClosestContacts(st.routing, FromHash(pieceKey, sha1, utf8), 5)
    ensures PieceManagers.LoadPieceData(st.pieces, pieceKey).None? && r.0.Some? ==> LastHad(replies, r.2, r.0)
    ensures NoneBeforeLast(replies, r.2)
    ensures r.0.None? ==> r.1 == st.pieces
    ensures r.0.None? ==> forall c | c in RoutingTables.FindClosestContacts(st.routing, FromHash(pieceKey, sha1, utf8), 5) ::
      c in r.2 && Reply(replies, c.nodeId).None?
  {
    var local := PieceManagers.LoadPieceData(st.pieces, pieceKey);
    if local.Some? then (local, st.pieces, [])
    else
      var targetId := FromHash(pieceKey, sha1, utf8);
      var nodes := RoutingTables.FindClosestContacts(st.routing, targetId, 5);
      ClosestAreRemote(st.routing, targetId, 5);
      var asked := AskInTurn(nodes, st.localId, replies);
      AskInTurnStopsAtData(nodes, st.localId, replies);
      AskInTurnAsksAll(nodes, st.localId, replies);
      AskInTurnAsksInOrder(nodes, st.localId, replies);
      if asked.0.Some? then
        PieceManagers.LoadAfterSave(st.pieces, pieceKey, pieceKey, asked.0.value);
        (asked.0, PieceManagers.SavePieceData(st.pieces, pieceKey, asked.0).0, asked.1)
      else
        (None, st.pieces, asked.1)
  }

  /**
   * `storeMetadataToDHT(torrent)`. The local store comes first and outside the `try`, so a
   * torrent without an info hash fails the whole call; otherwise the metadata is stored
   * locally and sent to each of the `K` contacts closest to the hash of its info hash,
   * none of them the local node.
   */
  function StoreMetadataToDht(st: NodeState, t: Torrents.TorrentFile, sha1: Sha1, utf8: Charset)
    : (r: Result<(MetadataStores.MetadataStore, seq<Contact>)>)
    requires NodeStates.Valid(st)
    ensures r.Ok? <==> t.infoHash.Some?
    ensures r.Err? ==> r.fault == NullPointer
    ensures r.Ok? ==> MetadataStores.GetMetadata(r.value.0, t.infoHash.value) == Some(t)
    ensures r.Ok? ==> forall h | h != t.infoHash.value ::
      MetadataStores.GetMetadata(r.value.0, h) == MetadataStores.GetMetadata(st.metadata, h)
    ensures r.Ok? ==> |r.value.1| == Min(K, |st.routing.allContacts|)
    ensures r.Ok? ==>
      r.value.1 == RoutingTables.FindClosestContacts(st.routing, FromHash(t.infoHash.value, sha1, utf8), K)
  {
    match MetadataStores.StoreMetadata(st.metadata, t)
    case Err(f) => Err(f)
    case Ok(ms) =>
      var key := FromHash(t.infoHash.value, sha1, utf8);
      var nodes := RoutingTables.FindClosestContacts(st.routing, key, K);
      ClosestAreRemote(st.routing, key, K);
      Ok((ms, Remote(nodes, st.localId)))
  }

  /** The contacts of `nodes` other than the local node, in order (the `continue` on local). */
  function Remote(nodes: seq<Contact>, localId: Id): (r: seq<Contact>)
    ensures forall c | c in r :: c in nodes && c.nodeId != localId
    ensures (forall c | c in nodes :: c.nodeId != localId) ==> r == nodes
  {
    if |nodes| == 0 then []
    else
      assert nodes == [nodes[0]] + nodes[1..];
      (if nodes[0].nodeId == localId then [] else [nodes[0]]) + Remote(nodes[1..], localId)
  }
}

=== FILE: kbucket.dfy ===
/**
 * `dht.KBucket`: a most-recently-seen-first list of at most `K` live contacts and a
 * replacement cache of at most `K` more.
 */
module KBuckets {
  import opened Common
  import opened NodeIds
  import opened Contacts
  import Closest

  const K: nat := 20

  /** `contacts` and `replacementCache` are deques whose head is index 0. */
  datatype KBucket = KBucket(depth: int, contacts: seq<Contact>, cache: seq<Contact>)

  /** The capacity invariant every reachable bucket keeps. */
  predicate Valid(b: KBucket) {
    |b.contacts| <= K && |b.cache| <= K
  }

  function NewBucket(depth: int): (b: KBucket)
    ensures Valid(b) && b.depth == depth && |b.contacts| == 0 && |b.cache| == 0
  {
    KBucket(depth, [], [])
  }

  /** The node ids on a list of contacts. */
  function Ids(s: seq<Contact>): (r: set<Id>)
    ensures forall i | 0 <= i < |s| :: s[i].nodeId in r
    ensures forall id | id in r :: exists i | 0 <= i < |s| :: s[i].nodeId == id
  {
    if |s| == 0 then {} else {s[0].nodeId} + Ids(s[1..])
  }

  predicate HasId(s: seq<Contact>, id: Id) {
    exists i | 0 <= i < |s| :: s[i].nodeId == id
  }

  /**
   * `Deque.remove(o)`: drops the first element `o.equals`, i.e. the first contact
   * with node id `id`.
   */
  function RemoveFirst(s: seq<Contact>, id: Id): (r: seq<Contact>)
    ensures HasId(s, id) ==> |r| == |s| - 1
    ensures !HasId(s, id) ==> r == s
    ensures Ids(r) <= Ids(s)
    ensures Ids(s) - {id} <= Ids(r)
  {
    if |s| == 0 then s
    else if s[0].nodeId == id then s[1..]
    else
      assert HasId(s, id) ==> HasId(s[1..], id) by {
        if HasId(s, id) {
          var i :| 0 <= i < |s| && s[i].nodeId == id;
          assert s[1..][i - 1] == s[i];
        }
      }
      assert HasId(s[1..], id) ==> HasId(s, id) by {
        if HasId(s[1..], id) {
          var i :| 0 <= i < |s[1..]| && s[1..][i].nodeId == id;
          assert s[i + 1] == s[1..][i];
        }
      }
      [s[0]] + RemoveFirst(s[1..], id)
  }

  /**
   * `addContact`. A known contact (same node id) moves to the head, replaced by the new
   * value; an unknown one goes to the head while there is room; otherwise it is pushed on
   * the replacement cache, whose oldest entry falls off beyond `K`, and the call answers
   * false.
   */
  function AddContact(b: KBucket, c: Contact): (r: (KBucket, bool))
    ensures r.0.depth == b.depth
    ensures Valid(b) ==> Valid(r.0)
    ensures r.1 <==> HasId(b.contacts, c.nodeId) || |b.contacts| < K
    ensures r.1 ==> |r.0.contacts| > 0 && r.0.contacts[0] == c && r.0.cache == b.cache
    ensures r.1 ==> Ids(r.0.contacts) == Ids(b.contacts) + {c.nodeId}
    ensures HasId(b.contacts, c.nodeId) ==> |r.0.contacts| == |b.contacts|
    ensures !r.1 ==> r.0.contacts == b.contacts
    ensures !r.1 ==> |r.0.cache| > 0 && r.0.cache[0] == c
    ensures !r.1 && |b.cache| <= K ==> |r.0.cache| == Min(|b.cache| + 1, K)
    ensures r.1 ==> r.0.contacts[1..] == RemoveFirst(b.contacts, c.nodeId)
    ensures !r.1 ==> r.0.cache <= [c] + b.cache
    ensures !r.1 ==> |r.0.cache| == (if |b.cache| < K then |b.cache| + 1 else |b.cache|)
  {
    if HasId(b.contacts, c.nodeId) then
      var rest := RemoveFirst(b.contacts, c.nodeId);
      (b.(contacts := [c] + rest), true)
    else if |b.contacts| < K then
      (b.(contacts := [c] + b.contacts), true)
    else
      var cache := [c] + b.cache;
      (b.(cache := if |cache| > K then cache[..|cache| - 1] else cache), false)
  }

  /**
   * `removeContact`: drops the contact with `c`'s node id; when one was dropped and the
   * replacement cache is not empty, the cache's head joins the tail of the live list.
   */
  function RemoveContact(b: KBucket, c: Contact): (r: (KBucket, bool))
    ensures r.0.depth == b.depth
    ensures Valid(b) ==> Valid(r.0)
    ensures r.1 <==> HasId(b.contacts, c.nodeId)
    ensures !r.1 ==> r.0 == b
    ensures r.1 && |b.cache| > 0 ==>
      |r.0.contacts| == |b.contacts| && r.0.contacts[|r.0.contacts| - 1] == b.cache[0] &&
      r.0.cache == b.cache[1..]
    ensures r.1 && |b.cache| == 0 ==> |r.0.contacts| == |b.contacts| - 1
    ensures r.1 ==> Ids(b.contacts) - {c.nodeId} <= Ids(r.0.contacts)
    ensures r.1 ==>
      |r.0.contacts| >= |b.contacts| - 1 &&
      r.0.contacts[..|b.contacts| - 1] == RemoveFirst(b.contacts, c.nodeId)
  {
    if !HasId(b.contacts, c.nodeId) then (b, false)
    else
      var rest := RemoveFirst(b.contacts, c.nodeId);
      if |b.cache| > 0 then
        var live := rest + [b.cache[0]];
        assert live[..|rest|] == rest;
        assert Ids(rest) <= Ids(live) by {
          forall id | id in Ids(rest) ensures id in Ids(live) {
            var i :| 0 <= i < |rest| && rest[i].nodeId == id;
            assert live[i] == rest[i];
          }
        }
        (b.(contacts := live, cache := b.cache[1..]), true)
      else (b.(contacts := rest), true)
  }

  /** `getClosestContacts(target, count)` over the live list. */
  function ClosestContacts(b: KBucket, target: Id, count: nat): (r: seq<Contact>)
    ensures |r| == Min(count, |b.contacts|)
    ensures Closest.SortedBy(r, Closest.ByDistance(target))
    ensures multiset(r) <= multiset(b.contacts)
    ensures forall x, i | x in multiset(b.contacts) - multiset(r) && 0 <= i < |r| ::
      Closest.Dist(r[i], target) <= Closest.Dist(x, target)
  {
    Closest.ClosestContacts(b.contacts, target, count)
  }

  /** `isFull`. */
  predicate IsFull(b: KBucket) {
    |b.contacts| >= K
  }

  /** A bucket is full exactly when it turns an unknown contact away to the cache. */
  lemma FullIffRefuses(b: KBucket, c: Contact)
    requires !HasId(b.contacts, c.nodeId)
    ensures IsFull(b) <==> !AddContact(b, c).1
    ensures IsFull(b) ==> AddContact(b, c).0.contacts == b.contacts
  {
  }

  /** `getLeastRecentlySeenContact`: the tail of the live list, or null. */
  function LeastRecentlySeen(b: KBucket): (r: Option<Contact>)
    ensures r.None? <==> |b.contacts| == 0
    ensures r.Some? ==> r.value in b.contacts
    ensures r.Some? ==> r.value == b.contacts[|b.contacts| - 1]
  {
    if |b.contacts| == 0 then None else Some(b.contacts[|b.contacts| - 1])
  }

  /** `size`: the number of live contacts, never above `K` in a valid bucket. */
  function Size(b: KBucket): (r: nat)
    ensures Valid(b) ==> r <= K
    ensures r == 0 <==> LeastRecentlySeen(b).None?
  {
    |b.contacts|
  }

  /** One call on a bucket. */
  datatype BucketOp = Add(contact: Contact) | Remove(contact: Contact)

  function Apply(b: KBucket, op: BucketOp): KBucket {
    match op
    case Add(c) => AddContact(b, c).0
    case Remove(c) => RemoveContact(b, c).0
  }

  function ApplyAll(b: KBucket, ops: seq<BucketOp>): KBucket
    decreases |ops|
  {
    if |ops| == 0 then b else ApplyAll(Apply(b, ops[0]), ops[1..])
  }

  /**
   * Whatever sequence of additions and removals a fresh bucket receives, its live list
   * never exceeds `K` contacts and it is never full without having been offered `K` of them.
   */
  lemma {:induction false} CapacityInvariant(depth: int, ops: seq<BucketOp>)
    ensures Valid(ApplyAll(NewBucket(depth), ops))
    ensures Size(ApplyAll(NewBucket(depth), ops)) <= |ops|
  {
    ApplyPreserves(NewBucket(depth), ops);
  }

  lemma {:induction false} ApplyPreserves(b: KBucket, ops: seq<BucketOp>)
    requires Valid(b)
    ensures Valid(ApplyAll(b, ops))
    ensures Size(ApplyAll(b, ops)) <= Size(b) + |ops|
    decreases |ops|
  {
    if |ops| > 0 {
      ApplyPreserves(Apply(b, ops[0]), ops[1..]);
    }
  }

  /** An unknown contact offered to a full bucket is never admitted to the live list. */
  lemma FullBucketRejects(b: KBucket, c: Contact)
    requires IsFull(b) && !HasId(b.contacts, c.nodeId)
    ensures !AddContact(b, c).1
    ensures AddContact(b, c).0.contacts == b.contacts
    ensures c in AddContact(b, c).0.cache
  {
  }
}

=== FILE: message.dfy ===
/**
 * `dht.Message` and its concrete classes, as one datatype. Every message carries a
 * `messageId` (a random UUID at construction, here a parameter) and the sender's node id;
 * the class is the `Body` constructor, and `TypeOf` is the tag each class's constructor
 * fixes. A Java `null` field is `None`. The serialized wire form is not modelled.
 */
module Messages {
  import opened Common
  import opened NodeIds
  import opened Contacts
  import Torrents

  /** `Message.MessageType`, in declaration order. */
  datatype MessageType =
    | Ping | Pong
    | Store | StoreResponse
    | FindNode | FindNodeResponse
    | FindValue | FindValueResponse
    | StorePiece | StorePieceResponse
    | FindPiece | FindPiecesResponse
    | StoreMetadata | StoreMetadataResponse
    | GetPiece | GetPiecesResponse

  /** One constructor per concrete message class, holding that class's own fields. */
  datatype Body =
    | PingBody(httpPort: int)
    | PongBody(requestId: string)
    | StoreBody(storeKey: Option<Id>, value: Option<Bytes>, httpPort: int)
    | StoreResponseBody(requestId: string, success: bool)
    | FindNodeBody(targetId: Id)
    | FindNodeResponseBody(requestId: string, contacts: seq<Contact>)
    | FindValueBody(key: Id)
    | FindValueResponseBody(requestId: string, value: Option<Bytes>, closest: Option<seq<Contact>>)
    | StorePieceBody(pieceKey: string, pieceData: Option<Bytes>, httpPort: int)
    | StorePieceResponseBody(requestId: string, success: bool)
    | GetPieceBody(pieceKey: string, httpPort: int)
    | GetPieceResponseBody(requestId: string, pieceKey: string, pieceData: Option<Bytes>)
    | StoreMetadataBody(metadata: Option<Torrents.TorrentFile>, httpPort: int)
    | StoreMetadataResponseBody(requestId: string, success: bool)

  datatype Message = Message(messageId: string, senderId: Id, body: Body)

  /**
   * `getType()`: the tag each class passes to `super`. No class uses `FIND_PIECE` or
   * `FIND_PIECES_RESPONSE`.
   */
  function TypeOf(m: Message): (r: MessageType)
    ensures r != FindPiece && r != FindPiecesResponse
  {
    match m.body
    case PingBody(_) => Ping
    case PongBody(_) => Pong
    case StoreBody(_, _, _) => Store
    case StoreResponseBody(_, _) => StoreResponse
    case FindNodeBody(_) => FindNode
    case FindNodeResponseBody(_, _) => FindNodeResponse
    case FindValueBody(_) => FindValue
    case FindValueResponseBody(_, _, _) => FindValueResponse
    case StorePieceBody(_, _, _) => StorePiece
    case StorePieceResponseBody(_, _) => StorePieceResponse
    case GetPieceBody(_, _) => GetPiece
    case GetPieceResponseBody(_, _, _) => GetPiecesResponse
    case StoreMetadataBody(_, _) => StoreMetadata
    case StoreMetadataResponseBody(_, _) => StoreMetadataResponse
  }

  /** The tag determines the class: two messages with the same tag have the same body shape. */
  lemma TagDeterminesClass(a: Message, b: Message)
    requires TypeOf(a) == TypeOf(b)
    ensures a.body.PingBody? == b.body.PingBody? && a.body.PongBody? == b.body.PongBody?
    ensures a.body.StoreBody? == b.body.StoreBody? && a.body.StoreResponseBody? == b.body.StoreResponseBody?
    ensures a.body.FindNodeBody? == b.body.FindNodeBody? && a.body.FindNodeResponseBody? == b.body.FindNodeResponseBody?
    ensures a.body.FindValueBody? == b.body.FindValueBody? && a.body.FindValueResponseBody? == b.body.FindValueResponseBody?
    ensures a.body.StorePieceBody? == b.body.StorePieceBody? && a.body.StorePieceResponseBody? == b.body.StorePieceResponseBody?
    ensures a.body.GetPieceBody? == b.body.GetPieceBody? && a.body.GetPieceResponseBody? == b.body.GetPieceResponseBody?
    ensures a.body.StoreMetadataBody? == b.body.StoreMetadataBody?
    ensures a.body.StoreMetadataResponseBody? == b.body.StoreMetadataResponseBody?
  {
  }

  /**
   * Membership in `HttpAware`: only `PingMessage` and `StoreMessage` implement it.
   * `StorePieceMessage`, `GetPieceMessage` and `StoreMetadataMessage` have an `httpPort`
   * field and getter but do not implement the interface.
   */
  function HttpAwarePort(m: Message): (r: Option<int>)
    ensures r.Some? <==> TypeOf(m) == Ping || TypeOf(m) == Store
    ensures r.Some? ==> r.value == m.body.httpPort
  {
    match m.body
    case PingBody(p) => Some(p)
    case StoreBody(_, _, p) => Some(p)
    case _ => None
  }

  /** `FindValueResponseMessage.hasValue`: the value is not null. */
  predicate HasValue(m: Message)
    requires m.body.FindValueResponseBody?
  {
    m.body.value.Some?
  }

  /** `GetPieceResponseMessage.hasData`: the data is neither null nor empty. */
  predicate HasData(m: Message)
    requires m.body.GetPieceResponseBody?
  {
    m.body.pieceData.Some? && |m.body.pieceData.value| > 0
  }

  /** An empty piece is reported as no data, exactly like a missing one. */
  lemma EmptyPieceHasNoData(id: string, sender: Id, requestId: string, key: string)
    ensures !HasData(NewGetPieceResponse(id, sender, requestId, key, Some([])))
    ensures !HasData(NewGetPieceResponse(id, sender, requestId, key, None))
    ensures forall d: Bytes | |d| > 0 :: HasData(NewGetPieceResponse(id, sender, requestId, key, Some(d)))
  {
  }

  // The class constructors. Each fixes the tag and stores its arguments unchanged.

  function NewPing(id: string, sender: Id, httpPort: int): (m: Message)
    ensures TypeOf(m) == Ping && m.messageId == id && m.senderId == sender
    ensures HttpAwarePort(m) == Some(httpPort)
  {
    Message(id, sender, PingBody(httpPort))
  }

  function NewPong(id: string, sender: Id, requestId: string): (m: Message)
    ensures TypeOf(m) == Pong && m.messageId == id && m.senderId == sender
    ensures m.body.requestId == requestId
  {
    Message(id, sender, PongBody(requestId))
  }

  function NewStore(id: string, sender: Id, key: Option<Id>, value: Option<Bytes>, httpPort: int): (m: Message)
    ensures TypeOf(m) == Store && m.messageId == id && m.senderId == sender
    ensures m.body.storeKey == key && m.body.value == value && HttpAwarePort(m) == Some(httpPort)
  {
    Message(id, sender, StoreBody(key, value, httpPort))
  }

  function NewStoreResponse(id: string, sender: Id, requestId: string, success: bool): (m: Message)
    ensures TypeOf(m) == StoreResponse && m.messageId == id && m.senderId == sender
    ensures m.body.requestId == requestId && m.body.success == success
  {
    Message(id, sender, StoreResponseBody(requestId, success))
  }

  function NewFindNode(id: string, sender: Id, target: Id): (m: Message)
    ensures TypeOf(m) == FindNode && m.messageId == id && m.senderId == sender
    ensures m.body.targetId == target
  {
    Message(id, sender, FindNodeBody(target))
  }

  function NewFindNodeResponse(id: string, sender: Id, requestId: string, contacts: seq<Contact>): (m: Message)
    ensures TypeOf(m) == FindNodeResponse && m.messageId == id && m.senderId == sender
    ensures m.body.requestId == requestId && m.body.contacts == contacts
  {
    Message(id, sender, FindNodeResponseBody(requestId, contacts))
  }

  function NewFindValue(id: string, sender: Id, key: Id): (m: Message)
    ensures TypeOf(m) == FindValue && m.messageId == id && m.senderId == sender
    ensures m.body.key == key
  {
    Message(id, sender, FindValueBody(key))
  }

  function NewFindValueResponse(id: string, sender: Id, requestId: string, value: Option<Bytes>,
                                closest: Option<seq<Contact>>): (m: Message)
    ensures TypeOf(m) == FindValueResponse && m.messageId == id && m.senderId == sender
    ensures m.body.requestId == requestId && m.body.value == value && m.body.closest == closest
    ensures HasValue(m) <==> value.Some?
  {
    Message(id, sender, FindValueResponseBody(requestId, value, closest))
  }

  function NewStorePiece(id: string, sender: Id, pieceKey: string, data: Option<Bytes>, httpPort: int): (m: Message)
    ensures TypeOf(m) == StorePiece && m.messageId == id && m.senderId == sender
    ensures m.body.pieceKey == pieceKey && m.body.pieceData == data && m.body.httpPort == httpPort
    ensures HttpAwarePort(m) == None
  {
    Message(id, sender, StorePieceBody(pieceKey, data, httpPort))
  }

  function NewStorePieceResponse(id: string, sender: Id, requestId: string, success: bool): (m: Message)
    ensures TypeOf(m) == StorePieceResponse && m.messageId == id && m.senderId == sender
    ensures m.body.requestId == requestId && m.body.success == success
  {
    Message(id, sender, StorePieceResponseBody(requestId, success))
  }

  function NewGetPiece(id: string, sender: Id, pieceKey: string, httpPort: int): (m: Message)
    ensures TypeOf(m) == GetPiece && m.messageId == id && m.senderId == sender
    ensures m.body.pieceKey == pieceKey && m.body.httpPort == httpPort
    ensures HttpAwarePort(m) == None
  {
    Message(id, sender, GetPieceBody(pieceKey, httpPort))
  }

  function NewGetPieceResponse(id: string, sender: Id, requestId: string, pieceKey: string,
                               data: Option<Bytes>): (m: Message)
    ensures TypeOf(m) == GetPiecesResponse && m.messageId == id && m.senderId == sender
    ensures m.body.requestId == requestId && m.body.pieceKey == pieceKey && m.body.pieceData == data
  {
    Message(id, sender, GetPieceResponseBody(requestId, pieceKey, data))
  }

  function NewStoreMetadata(id: string, sender: Id, metadata: Option<Torrents.TorrentFile>, httpPort: int): (m: Message)
    ensures TypeOf(m) == StoreMetadata && m.messageId == id && m.senderId == sender
    ensures m.body.metadata == metadata && m.body.httpPort == httpPort
    ensures HttpAwarePort(m) == None
  {
    Message(id, sender, StoreMetadataBody(metadata, httpPort))
  }

  function NewStoreMetadataResponse(id: string, sender: Id, requestId: string, success: bool): (m: Message)
    ensures TypeOf(m) == StoreMetadataResponse && m.messageId == id && m.senderId == sender
    ensures m.body.requestId == requestId && m.body.success == success
  {
    Message(id, sender, StoreMetadataResponseBody(requestId, success))
  }
}

=== FILE: metadata_store.dfy ===
/**
 * `bittorrent.MetadataStore`: torrent metadata by info hash. Only the in-memory map is
 * modelled; the `.meta` files it mirrors to disk are not.
 */
module MetadataStores {
  import opened Common
  import Torrents

  type MetadataStore = map<string, Torrents.TorrentFile>

  /** `getMetadata(infoHash)`: the stored torrent, or null. */
  function GetMetadata(ms: MetadataStore, infoHash: string): (r: Option<Torrents.TorrentFile>)
    ensures r.Some? <==> HasMetadata(ms, infoHash)
    ensures r.Some? ==> r.value == ms[infoHash]
  {
    if infoHash in ms then Some(ms[infoHash]) else None
  }

  /** `hasMetadata(infoHash)`. */
  predicate HasMetadata(ms: MetadataStore, infoHash: string) {
    infoHash in ms
  }

  /**
   * `storeMetadata(torrent)`: keyed by the torrent's info hash; a `ConcurrentHashMap`
   * refuses the null key of a torrent whose hash was never set.
   */
  function StoreMetadata(ms: MetadataStore, t: Torrents.TorrentFile): (r: Result<MetadataStore>)
    ensures r.Ok? <==> t.infoHash.Some?
    ensures r.Ok? ==> GetMetadata(r.value, t.infoHash.value) == Some(t)
    ensures r.Ok? ==> forall h | h != t.infoHash.value :: GetMetadata(r.value, h) == GetMetadata(ms, h)
  {
    match t.infoHash
    case None => Err(NullPointer)
    case Some(h) => Ok(ms[h := t])
  }

  /** `removeMetadata(infoHash)`. */
  function RemoveMetadata(ms: MetadataStore, infoHash: string): (r: MetadataStore)
    ensures !HasMetadata(r, infoHash)
    ensures forall h | h != infoHash :: GetMetadata(r, h) == GetMetadata(ms, h)
  {
    ms - {infoHash}
  }

  /** Two stores under the same info hash: the second one is what is read back. */
  lemma LastWriteWins(ms: MetadataStore, first: Torrents.TorrentFile, second: Torrents.TorrentFile)
    requires first.infoHash.Some? && first.infoHash == second.infoHash
    ensures StoreMetadata(ms, first).Ok?
    ensures StoreMetadata(StoreMetadata(ms, first).value, second).Ok?
    ensures GetMetadata(StoreMetadata(StoreMetadata(ms, first).value, second).value, first.infoHash.value)
         == Some(second)
  {
  }

  /** Removing after storing forgets the torrent again, whatever was there before. */
  lemma StoreThenRemove(ms: MetadataStore, t: Torrents.TorrentFile)
    requires t.infoHash.Some?
    ensures !HasMetadata(RemoveMetadata(StoreMetadata(ms, t).value, t.infoHash.value), t.infoHash.value)
    ensures forall h | h != t.infoHash.value ::
      GetMetadata(RemoveMetadata(StoreMetadata(ms, t).value, t.infoHash.value), h) == GetMetadata(ms, h)
  {
  }
}

=== FILE: node_id.dfy ===
/**
 * `core.NodeID`: a 160-bit Kademlia identifier with the XOR metric of section 2.1 of the
 * Kademlia paper, MSB-first bit access and an unsigned lexicographic order.
 */
module NodeIds {
  import opened Common
  import Hex

  const IdLength: nat := 20
  const IdBits: nat := 160

  /**
   * The identifier bytes. The String constructor can build a 10-byte id, so the
   * datatype itself does not fix the length.
   */
  datatype NodeId = NodeId(bytes: Bytes)

  /** Identifiers of the full 20 bytes: every arithmetic operation of `NodeID` needs one. */
  type Id = id: NodeId | |id.bytes| == IdLength witness NodeId(seq(20, i => 0))

  // ---------------------------------------------------------------------------------
  // Construction
  // ---------------------------------------------------------------------------------

  /** `new NodeID(byte[])`: rejects every length but 20; the stored copy is immutable. */
  function FromBytes(b: Bytes): (r: Result<Id>)
    ensures r.Ok? <==> |b| == IdLength
    ensures r.Ok? ==> r.value.bytes == b
    ensures r.Err? ==> r.fault == IllegalArgument
  {
    if |b| != IdLength then Err(IllegalArgument) else Ok(NodeId(b))
  }

  /**
   * `new NodeID(String)`: accepts exactly 20 characters and hex-decodes them, which
   * yields 10 bytes, not 20.
   */
  function FromString(s: string): (r: Result<NodeId>)
    ensures r.Ok? <==> |s| == IdLength
    ensures r.Ok? ==> |r.value.bytes| == IdLength / 2
    ensures r.Ok? ==> Hex.Decode(s) == Ok(r.value.bytes)
  {
    if |s| != IdLength then Err(IllegalArgument)
    else
      Ok(NodeId(Hex.DecodeEven(s)))
  }

  /**
   * `NodeID.fromHash(data)`: SHA-1 of the UTF-8 bytes, rendered as hex and decoded back,
   * then checked by the byte-array constructor.
   */
  function FromHash(data: string, sha1: Sha1, utf8: Charset): (r: Id)
    ensures r.bytes == sha1(utf8(data))
  {
    var digest := sha1(utf8(data));
    Hex.DecodeEncode(digest);
    var decoded := Hex.Decode(Hex.Encode(digest));
    var id := FromBytes(decoded.value);
    id.value
  }

  /** `toString`: two lower-case hex digits per byte. */
  function ToHex(id: NodeId): (r: string)
    ensures |r| == 2 * |id.bytes|
    ensures forall i | 0 <= i < |r| :: r[i] in Hex.Alphabet
  {
    Hex.Encode(id.bytes)
  }

  /**
   * The String constructor as evidently intended: 40 hex characters, two per byte, so that
   * it inverts `toString`.
   */
  function FromHexString(s: string): (r: Result<Id>)
    ensures r.Ok? <==> |s| == 2 * IdLength
    ensures r.Ok? ==> Hex.Decode(s) == Ok(r.value.bytes)
  {
    if |s| != 2 * IdLength then Err(IllegalArgument)
    else Ok(NodeId(Hex.DecodeEven(s)))
  }

  /** The corrected constructor reads back every identifier's `toString`. */
  lemma FromHexStringInvertsToHex(id: Id)
    ensures FromHexString(ToHex(id)) == Ok(id)
  {
    Hex.DecodeEncode(id.bytes);
  }

  /**
   * As written, the String constructor accepts a 20-character string and yields a 10-byte
   * identifier, which every 20-byte loop (`xor`, `compareTo`) then indexes out of bounds;
   * and it refuses the 40-character `toString` of every identifier.
   */
  lemma FromStringYieldsShortId(s: string, id: Id)
    requires |s| == IdLength
    ensures FromString(s).Ok? && |FromString(s).value.bytes| == 10
    ensures FromString(ToHex(id)).Err?
  {
  }

  // ---------------------------------------------------------------------------------
  // Bits and XOR
  // ---------------------------------------------------------------------------------

  function Pow2(k: nat): (r: nat)
    ensures r >= 1
  {
    if k == 0 then 1 else 2 * Pow2(k - 1)
  }

  /** `(x >> j) & 1` for a non-negative `x`. */
  function BitOf(x: nat, j: nat): (r: nat)
    ensures r < 2
  {
    if j == 0 then x % 2 else BitOf(x / 2, j - 1)
  }

  /** Bitwise exclusive or of the low `k` bits of `a` and `b`. */
  function XorBits(a: nat, b: nat, k: nat): (r: nat)
    ensures r < Pow2(k)
  {
    if k == 0 then 0 else 2 * XorBits(a / 2, b / 2, k - 1) + (a % 2 + b % 2) % 2
  }

  /** `(byte) (x ^ y)`: the cast keeps the low eight bits of the xor. */
  function XorByte(x: Byte, y: Byte): Byte {
    XorBits(x, y, 8)
  }

  /** `xor`: the bytewise exclusive or of two identifiers. */
  function Xor(a: Id, b: Id): Id {
    NodeId(seq(IdLength, i requires 0 <= i < IdLength => XorByte(a.bytes[i], b.bytes[i])))
  }

  /**
   * Bit `i` of a byte string, MSB first: bit `7 - i % 8` of byte `i / 8`. The source shifts
   * the sign-extended byte, but bits 0..7 of the result are those of the byte itself.
   */
  function Bit(bs: Bytes, i: nat): nat
    requires i < 8 * |bs|
  {
    BitOf(bs[i / 8], 7 - i % 8)
  }

  /** `getBit(index)`: index 0 is the most significant bit of the first byte. */
  function GetBit(id: NodeId, index: int): (r: int)
    requires 0 <= index < 8 * |id.bytes|
    ensures r == 0 || r == 1
  {
    Bit(id.bytes, index)
  }

  /** `getBit` is the source's `(bytes[index / 8] >> (7 - index % 8)) & 1`. */
  lemma GetBitIsShift(id: NodeId, index: int)
    requires 0 <= index < 8 * |id.bytes|
    ensures GetBit(id, index) == id.bytes[index / 8] / Pow2(7 - index % 8) % 2
  {
    BitOfIsDivision(id.bytes[index / 8], 7 - index % 8);
  }

  lemma {:induction false} BitOfIsDivision(x: nat, j: nat)
    ensures BitOf(x, j) == x / Pow2(j) % 2
    decreases j
  {
    if j > 0 {
      BitOfIsDivision(x / 2, j - 1);
      DivDiv(x, 2, Pow2(j - 1));
    }
  }

  /** Halving and then dividing by `b` is dividing by `2b`. */
  lemma DivDiv(x: nat, a: nat, b: nat)
    requires a == 2 && b > 0
    ensures x / a / b == x / (a * b)
  {
    var q := x / 2 / b;
    var r := x / 2 % b;
    assert x / 2 == b * q + r;
    assert x == 2 * (b * q + r) + x % 2;
    assert x == (2 * b) * q + (2 * r + x % 2) by {
      MulAssoc(2, b, q);
    }
    DivUnique(x, 2 * b, q, 2 * r + x % 2);
  }

  lemma MulAssoc(a: int, b: int, c: int)
    ensures a * (b * c) == (a * b) * c
  {
  }

  lemma {:induction false} MulMonotone(a: nat, b: nat, c: nat)
    requires a <= b
    ensures a * c <= b * c
    decreases c
  {
    if c > 0 {
      MulMonotone(a, b, c - 1);
      assert a * c == a * (c - 1) + a;
      assert b * c == b * (c - 1) + b;
    }
  }

  lemma DivUnique(x: nat, d: nat, q: nat, r: nat)
    requires d > 0 && 0 <= r < d && x == d * q + r
    ensures x / d == q
  {
    var q' := x / d;
    var r' := x % d;
    assert x == d * q' + r';
    assert d * (q + 1) == d * q + d;
    assert d * (q' + 1) == d * q' + d;
    if q' > q {
      MulMonotone(q + 1, q', d);
      assert false;
    } else if q' < q {
      MulMonotone(q' + 1, q, d);
      assert false;
    }
  }

  lemma {:induction false} XorBitsSymmetric(a: nat, b: nat, k: nat)
    ensures XorBits(a, b, k) == XorBits(b, a, k)
    decreases k
  {
    if k > 0 {
      XorBitsSymmetric(a / 2, b / 2, k - 1);
    }
  }

  lemma {:induction false} XorBitsSelf(a: nat, k: nat)
    ensures XorBits(a, a, k) == 0
    decreases k
  {
    if k > 0 {
      XorBitsSelf(a / 2, k - 1);
    }
  }

  /** Bit `j` of the xor is set exactly where the operands' bits differ. */
  lemma {:induction false} XorBitsBit(a: nat, b: nat, k: nat, j: nat)
    requires j < k
    ensures BitOf(XorBits(a, b, k), j) == 1 <==> BitOf(a, j) != BitOf(b, j)
    decreases j
  {
    var q := XorBits(a / 2, b / 2, k - 1);
    var r := (a % 2 + b % 2) % 2;
    assert XorBits(a, b, k) == 2 * q + r;
    if j > 0 {
      assert (2 * q + r) / 2 == q;
      XorBitsBit(a / 2, b / 2, k - 1, j - 1);
    }
  }

  /** `xor` is symmetric. */
  lemma XorSymmetric(a: Id, b: Id)
    ensures Xor(a, b) == Xor(b, a)
  {
    forall i | 0 <= i < IdLength
      ensures Xor(a, b).bytes[i] == Xor(b, a).bytes[i]
    {
      XorBitsSymmetric(a.bytes[i], b.bytes[i], 8);
    }
  }

  /** `a.xor(a)` is the all-zero identifier. */
  lemma XorSelf(a: Id)
    ensures Xor(a, a).bytes == seq(IdLength, i => 0)
  {
    forall i | 0 <= i < IdLength
      ensures Xor(a, a).bytes[i] == 0
    {
      XorBitsSelf(a.bytes[i], 8);
    }
  }

  /** Bit `i` of `a.xor(b)` is 1 exactly where bit `i` of `a` and of `b` differ. */
  lemma XorBit(a: Id, b: Id, i: nat)
    requires i < IdBits
    ensures Bit(Xor(a, b).bytes, i) == 1 <==> Bit(a.bytes, i) != Bit(b.bytes, i)
  {
    XorBitsBit(a.bytes[i / 8], b.bytes[i / 8], 8, 7 - i % 8);
  }

  // ---------------------------------------------------------------------------------
  // Distance
  // ---------------------------------------------------------------------------------

  /** `new BigInteger(1, bytes)`: the bytes as an unsigned big-endian number. */
  function Unsigned(bs: Bytes): (r: nat)
    ensures r < Pow2(8 * |bs|)
  {
    if |bs| == 0 then 0
    else
      var rest := Unsigned(bs[1..]);
      LeadingByteBound(bs[0], rest, |bs| - 1);
      bs[0] * Pow2(8 * (|bs| - 1)) + rest
  }

  /** A byte in front of `n` bytes: the number stays below `2^(8(n+1))`. */
  lemma LeadingByteBound(b: Byte, rest: nat, n: nat)
    requires rest < Pow2(8 * n)
    ensures b * Pow2(8 * (n + 1) - 8) + rest < Pow2(8 * (n + 1))
  {
    var p := Pow2(8 * n);
    assert 8 * (n + 1) - 8 == 8 * n;
    Pow2Add(8, 8 * n);
    assert Pow2(8) == 256;
    MulMonotone(b, 255, p);
    assert 8 + 8 * n == 8 * (n + 1);
  }

  /** `BigInteger.bitLength()` of a non-negative number. */
  function BitLength(n: nat): nat {
    if n == 0 then 0 else 1 + BitLength(n / 2)
  }

  /** `getDistance`: the bit length of the unsigned XOR of the two identifiers. */
  function Distance(a: Id, b: Id): nat {
    BitLength(Unsigned(Xor(a, b).bytes))
  }

  lemma {:induction false} Pow2Add(a: nat, b: nat)
    ensures Pow2(a) * Pow2(b) == Pow2(a + b)
    decreases a
  {
    if a > 0 {
      Pow2Add(a - 1, b);
    }
  }

  lemma Pow2Monotonic(a: nat, b: nat)
    requires a <= b
    ensures Pow2(a) <= Pow2(b)
  {
    Pow2Add(a, b - a);
  }

  /** A number in `[2^m, 2^(m+1))` has bit length `m + 1`. */
  lemma {:induction false} BitLengthOfRange(n: nat, m: nat)
    requires Pow2(m) <= n < Pow2(m + 1)
    ensures BitLength(n) == m + 1
    decreases m
  {
    if m > 0 {
      BitLengthOfRange(n / 2, m - 1);
    }
  }

  /** Every number below `2^k` has bit length at most `k`. */
  lemma {:induction false} BitLengthBound(n: nat, k: nat)
    requires n < Pow2(k)
    ensures BitLength(n) <= k
    decreases k
  {
    if n > 0 {
      BitLengthBound(n / 2, k - 1);
    }
  }

  /** A positive number lies in `[2^(L-1), 2^L)` for its bit length `L`. */
  lemma {:induction false} BitLengthBracket(n: nat)
    requires n > 0
    ensures BitLength(n) >= 1
    ensures Pow2(BitLength(n) - 1) <= n < Pow2(BitLength(n))
    decreases n
  {
    if n > 1 {
      BitLengthBracket(n / 2);
    }
  }

  lemma BitLengthZero(n: nat)
    ensures BitLength(n) == 0 <==> n == 0
  {
  }

  /** Number of leading zero bits of a byte string, MSB first. */
  function LeadingZeros(bs: Bytes): (r: nat)
    ensures r <= 8 * |bs|
  {
    if |bs| == 0 then 0
    else if bs[0] == 0 then 8 + LeadingZeros(bs[1..])
    else
      BitLengthBound(bs[0], 8);
      8 - BitLength(bs[0])
  }

  /** The bit length of a big-endian number is its width minus its leading zero bits. */
  lemma {:induction false} BitLengthOfUnsigned(bs: Bytes)
    ensures BitLength(Unsigned(bs)) == 8 * |bs| - LeadingZeros(bs)
    decreases |bs|
  {
    if |bs| > 0 {
      if bs[0] == 0 {
        BitLengthOfUnsigned(bs[1..]);
        ZeroLeadingByte(bs);
      } else {
        NonzeroLeadingByte(bs);
      }
    }
  }

  /** A zero first byte adds eight leading zeros and nothing to the number. */
  lemma ZeroLeadingByte(bs: Bytes)
    requires |bs| > 0 && bs[0] == 0
    requires BitLength(Unsigned(bs[1..])) == 8 * |bs[1..]| - LeadingZeros(bs[1..])
    ensures BitLength(Unsigned(bs)) == 8 * |bs| - LeadingZeros(bs)
  {
    UnsignedCons(bs);
    assert LeadingZeros(bs) == 8 + LeadingZeros(bs[1..]);
  }

  /** A nonzero first byte sets the bit length from its own top one bit. */
  lemma NonzeroLeadingByte(bs: Bytes)
    requires |bs| > 0 && bs[0] != 0
    ensures BitLength(Unsigned(bs)) == 8 * |bs| - LeadingZeros(bs)
  {
    var rest := bs[1..];
    var m := 8 * |rest|;
    UnsignedCons(bs);
    BitLengthOfScaled(bs[0], m, Unsigned(rest));
    BitLengthBound(bs[0], 8);
    assert LeadingZeros(bs) == 8 - BitLength(bs[0]);
    assert 8 * |bs| == m + 8;
  }

  /** The first byte is the top digit, base 256, of the number. */
  lemma UnsignedCons(bs: Bytes)
    requires |bs| > 0
    ensures Unsigned(bs) == bs[0] * Pow2(8 * |bs[1..]|) + Unsigned(bs[1..])
    ensures Unsigned(bs[1..]) < Pow2(8 * |bs[1..]|)
  {
    assert |bs| - 1 == |bs[1..]|;
  }

  /** A positive leading part `x` shifted left by `m` bits adds `m` to the bit length. */
  lemma BitLengthOfScaled(x: nat, m: nat, r: nat)
    requires x > 0 && r < Pow2(m)
    ensures BitLength(x * Pow2(m) + r) == BitLength(x) + m
  {
    var len := BitLength(x);
    var p := Pow2(m);
    BitLengthBracket(x);
    Pow2Add(len - 1, m);
    Pow2Add(len, m);
    ScaledRange(x, Pow2(len - 1), Pow2(len), p, r);
    assert len - 1 + m + 1 == len + m;
    BitLengthOfRange(x * p + r, len - 1 + m);
  }

  /** Scaling `x` in `[lo, hi)` by `p` and adding `r < p` stays in `[lo * p, hi * p)`. */
  lemma ScaledRange(x: nat, lo: nat, hi: nat, p: nat, r: nat)
    requires lo <= x < hi && r < p
    ensures lo * p <= x * p + r < hi * p
  {
    MulMonotone(lo, x, p);
    MulMonotone(x + 1, hi, p);
    assert (x + 1) * p == x * p + p;
  }

  /** All bits at or above position `k` of a number below `2^k` are zero. */
  lemma {:induction false} HighBitsZero(x: nat, k: nat, j: nat)
    requires x < Pow2(k) && j >= k
    ensures BitOf(x, j) == 0
    decreases j
  {
    if j > 0 {
      HighBitsZero(x / 2, if k == 0 then 0 else k - 1, j - 1);
    }
  }

  /** Bit `k` of a number in `[2^k, 2^(k+1))` is one. */
  lemma {:induction false} TopBitOne(x: nat, k: nat)
    requires Pow2(k) <= x < Pow2(k + 1)
    ensures BitOf(x, k) == 1
    decreases k
  {
    if k > 0 {
      TopBitOne(x / 2, k - 1);
    }
  }

  /** Bit `i >= 8` of a byte string is bit `i - 8` of its tail. */
  lemma BitOfTail(bs: Bytes, i: nat)
    requires 8 <= i < 8 * |bs|
    ensures Bit(bs, i) == Bit(bs[1..], i - 8)
  {
    assert i / 8 == (i - 8) / 8 + 1;
    assert i % 8 == (i - 8) % 8;
  }

  /** `LeadingZeros` is the index of the first one bit, or the full width when none is set. */
  lemma {:induction false} LeadingZerosIsFirstOne(bs: Bytes)
    ensures forall i | 0 <= i < LeadingZeros(bs) :: Bit(bs, i) == 0
    ensures LeadingZeros(bs) < 8 * |bs| ==> Bit(bs, LeadingZeros(bs)) == 1
    decreases |bs|
  {
    if |bs| > 0 {
      if bs[0] == 0 {
        LeadingZerosIsFirstOne(bs[1..]);
        LeadingZeroByte(bs);
      } else {
        LeadingNonzeroByte(bs);
      }
    }
  }

  /** A zero first byte: its eight bits are zero and the rest is the tail's. */
  lemma LeadingZeroByte(bs: Bytes)
    requires |bs| > 0 && bs[0] == 0
    requires forall i | 0 <= i < LeadingZeros(bs[1..]) :: Bit(bs[1..], i) == 0
    requires LeadingZeros(bs[1..]) < 8 * |bs[1..]| ==> Bit(bs[1..], LeadingZeros(bs[1..])) == 1
    ensures forall i | 0 <= i < LeadingZeros(bs) :: Bit(bs, i) == 0
    ensures LeadingZeros(bs) < 8 * |bs| ==> Bit(bs, LeadingZeros(bs)) == 1
  {
    var lz := LeadingZeros(bs);
    assert lz == 8 + LeadingZeros(bs[1..]);
    forall i | 0 <= i < lz
      ensures Bit(bs, i) == 0
    {
      if i < 8 {
        HighBitsZero(0, 0, 7 - i % 8);
      } else {
        BitOfTail(bs, i);
      }
    }
    if lz < 8 * |bs| {
      BitOfTail(bs, lz);
    }
  }

  /** A nonzero first byte: the leading zeros end inside it, at its top one bit. */
  lemma LeadingNonzeroByte(bs: Bytes)
    requires |bs| > 0 && bs[0] != 0
    ensures forall i | 0 <= i < LeadingZeros(bs) :: Bit(bs, i) == 0
    ensures LeadingZeros(bs) < 8 * |bs| ==> Bit(bs, LeadingZeros(bs)) == 1
  {
    var len := BitLength(bs[0]);
    TopBits(bs[0]);
    var lz := LeadingZeros(bs);
    assert lz == 8 - len;
    forall i | 0 <= i < lz
      ensures Bit(bs, i) == 0
    {
      assert i / 8 == 0 && i % 8 == i;
      assert BitOf(bs[0], 7 - i) == 0;
    }
    assert lz / 8 == 0 && 7 - lz % 8 == len - 1;
  }

  /** The bits of a nonzero byte above its bit length are zero, and the top one is set. */
  lemma TopBits(x: Byte)
    requires x != 0
    ensures 1 <= BitLength(x) <= 8
    ensures forall j | BitLength(x) <= j < 8 :: BitOf(x, j) == 0
    ensures BitOf(x, BitLength(x) - 1) == 1
  {
    var len := BitLength(x);
    BitLengthBracket(x);
    BitLengthBound(x, 8);
    forall j | len <= j < 8
      ensures BitOf(x, j) == 0
    {
      HighBitsZero(x, len, j);
    }
    TopBitOne(x, len - 1);
  }

  /** Reference definition: the length of the common MSB-first bit prefix, scanning from `i`. */
  function CommonPrefixFrom(a: Id, b: Id, i: nat): (r: nat)
    requires i <= IdBits
    decreases IdBits - i
  {
    if i == IdBits then IdBits
    else if GetBit(a, i) != GetBit(b, i) then i
    else CommonPrefixFrom(a, b, i + 1)
  }

  function CommonPrefix(a: Id, b: Id): nat {
    CommonPrefixFrom(a, b, 0)
  }

  /** The common prefix of two identifiers ends where the leading zeros of their xor end. */
  lemma CommonPrefixIsLeadingZeros(a: Id, b: Id)
    ensures CommonPrefix(a, b) == LeadingZeros(Xor(a, b).bytes)
  {
    var x := Xor(a, b).bytes;
    LeadingZerosIsFirstOne(x);
    PrefixScan(a, b, x, LeadingZeros(x), 0);
  }

  /** The prefix scan from `i` stops at the first one bit `lz` of the xor `x`. */
  lemma {:induction false} PrefixScan(a: Id, b: Id, x: Bytes, lz: nat, i: nat)
    requires x == Xor(a, b).bytes && lz <= IdBits && i <= lz
    requires forall j | 0 <= j < lz :: Bit(x, j) == 0
    requires lz < IdBits ==> Bit(x, lz) == 1
    ensures CommonPrefixFrom(a, b, i) == lz
    decreases IdBits - i
  {
    if i < IdBits {
      XorBit(a, b, i);
      if i < lz {
        PrefixScan(a, b, x, lz, i + 1);
      }
    }
  }

  /** `getDistance(a, b)` is 160 minus the length of the common MSB-first bit prefix. */
  lemma DistanceIsPrefixComplement(a: Id, b: Id)
    ensures Distance(a, b) == IdBits - CommonPrefix(a, b)
  {
    BitLengthOfUnsigned(Xor(a, b).bytes);
    CommonPrefixIsLeadingZeros(a, b);
  }

  /** The distance never exceeds 160. */
  lemma DistanceAtMost160(a: Id, b: Id)
    ensures Distance(a, b) <= IdBits
  {
    BitLengthBound(Unsigned(Xor(a, b).bytes), IdBits);
  }

  lemma DistanceSymmetric(a: Id, b: Id)
    ensures Distance(a, b) == Distance(b, a)
  {
    XorSymmetric(a, b);
  }

  lemma {:induction false} UnsignedZero(bs: Bytes)
    ensures Unsigned(bs) == 0 <==> forall i | 0 <= i < |bs| :: bs[i] == 0
    decreases |bs|
  {
    if |bs| > 0 {
      UnsignedZero(bs[1..]);
      var p := Pow2(8 * (|bs| - 1));
      assert Unsigned(bs) == bs[0] * p + Unsigned(bs[1..]);
      if bs[0] != 0 {
        assert bs[0] * p >= p;
      } else {
        assert forall i | 1 <= i < |bs| :: bs[i] == bs[1..][i - 1];
      }
    }
  }

  lemma XorZeroIffEqual(a: Id, b: Id)
    ensures (forall i | 0 <= i < IdLength :: Xor(a, b).bytes[i] == 0) <==> a == b
  {
    if a == b {
      XorSelf(a);
    } else {
      var i :| 0 <= i < IdLength && a.bytes[i] != b.bytes[i];
      var j: nat :| j < 8 && BitOf(a.bytes[i], j) != BitOf(b.bytes[i], j) by {
        BitsDetermineByte(a.bytes[i], b.bytes[i]);
      }
      XorBitsBit(a.bytes[i], b.bytes[i], 8, j);
      assert BitOf(Xor(a, b).bytes[i], j) == 1;
    }
  }

  /** Two bytes with the same eight bits are equal. */
  lemma BitsDetermineByte(x: Byte, y: Byte)
    requires x != y
    ensures exists j: nat :: j < 8 && BitOf(x, j) != BitOf(y, j)
  {
    if forall j: nat | j < 8 :: BitOf(x, j) == BitOf(y, j) {
      BitsAgree(x, y, 8);
      assert false;
    }
  }

  lemma {:induction false} BitsAgree(x: nat, y: nat, k: nat)
    requires x < Pow2(k) && y < Pow2(k)
    requires forall j: nat | j < k :: BitOf(x, j) == BitOf(y, j)
    ensures x == y
    decreases k
  {
    if k > 0 {
      assert BitOf(x, 0) == BitOf(y, 0);
      forall j: nat | j < k - 1
        ensures BitOf(x / 2, j) == BitOf(y / 2, j)
      {
        assert BitOf(x, j + 1) == BitOf(y, j + 1);
      }
      BitsAgree(x / 2, y / 2, k - 1);
    }
  }

  /** `getDistance(a, b) == 0` exactly when the identifiers are equal. */
  lemma DistanceZeroIff(a: Id, b: Id)
    ensures Distance(a, b) == 0 <==> a == b
  {
    BitLengthZero(Unsigned(Xor(a, b).bytes));
    UnsignedZero(Xor(a, b).bytes);
    XorZeroIffEqual(a, b);
  }

  // ---------------------------------------------------------------------------------
  // Order
  // ---------------------------------------------------------------------------------

  /** The `compareTo` loop: the first differing byte decides, compared unsigned. */
  function LexCompare(a: Bytes, b: Bytes): int
    requires |a| == |b|
  {
    if |a| == 0 then 0
    else if a[0] != b[0] then a[0] - b[0]
    else LexCompare(a[1..], b[1..])
  }

  /** `compareTo`. */
  function Compare(a: Id, b: Id): int {
    LexCompare(a.bytes, b.bytes)
  }

  lemma {:induction false} LexCompareZero(a: Bytes, b: Bytes)
    requires |a| == |b|
    ensures LexCompare(a, b) == 0 <==> a == b
    decreases |a|
  {
    if |a| > 0 && a[0] == b[0] {
      LexCompareZero(a[1..], b[1..]);
      assert a == [a[0]] + a[1..];
      assert b == [b[0]] + b[1..];
    }
  }

  lemma {:induction false} LexCompareAntisymmetric(a: Bytes, b: Bytes)
    requires |a| == |b|
    ensures LexCompare(a, b) == -LexCompare(b, a)
    decreases |a|
  {
    if |a| > 0 && a[0] == b[0] {
      LexCompareAntisymmetric(a[1..], b[1..]);
    }
  }

  lemma {:induction false} LexCompareIsUnsignedOrder(a: Bytes, b: Bytes)
    requires |a| == |b|
    ensures LexCompare(a, b) < 0 <==> Unsigned(a) < Unsigned(b)
    decreases |a|
  {
    if |a| > 0 {
      var p := Pow2(8 * (|a| - 1));
      assert Unsigned(a) == a[0] * p + Unsigned(a[1..]);
      assert Unsigned(b) == b[0] * p + Unsigned(b[1..]);
      if a[0] < b[0] {
        ScaledRange(a[0], a[0], b[0], p, Unsigned(a[1..]));
        MulMonotone(b[0], b[0], p);
      } else if a[0] > b[0] {
        ScaledRange(b[0], b[0], a[0], p, Unsigned(b[1..]));
      } else {
        LexCompareIsUnsignedOrder(a[1..], b[1..]);
      }
    }
  }

  /** `compareTo` returns 0 exactly when `equals` holds. */
  lemma CompareZeroIffEqual(a: Id, b: Id)
    ensures Compare(a, b) == 0 <==> a == b
  {
    LexCompareZero(a.bytes, b.bytes);
  }

  /** `compareTo` is antisymmetric: swapping the operands negates the result. */
  lemma CompareAntisymmetric(a: Id, b: Id)
    ensures Compare(a, b) == -Compare(b, a)
  {
    LexCompareAntisymmetric(a.bytes, b.bytes);
  }

  /** `compareTo` orders identifiers as unsigned 160-bit big-endian numbers. */
  lemma CompareIsUnsignedOrder(a: Id, b: Id)
    ensures Compare(a, b) < 0 <==> Unsigned(a.bytes) < Unsigned(b.bytes)
    ensures Compare(a, b) > 0 <==> Unsigned(a.bytes) > Unsigned(b.bytes)
  {
    LexCompareIsUnsignedOrder(a.bytes, b.bytes);
    LexCompareIsUnsignedOrder(b.bytes, a.bytes);
    LexCompareAntisymmetric(a.bytes, b.bytes);
  }
}

=== FILE: node_state.dfy ===
/**
 * The state a `dht.KademliaNode` shares with its server and RPC layer: its id, routing
 * table, value store, piece and metadata stores, and the RPC layer's pending table.
 */
module NodeStates {
  import opened NodeIds
  import RoutingTables
  import DataStores
  import PieceManagers
  import MetadataStores
  import Rpc

  /** `KademliaNode.ALPHA`: the number of contacts a lookup starts from. */
  const Alpha: nat := 3

  /** `KademliaNode.K`: the size of a FIND_NODE answer and of a lookup result. */
  const K: nat := 20

  datatype NodeState = NodeState(
    localId: Id,
    routing: RoutingTables.RoutingTable,
    data: DataStores.DataStore,
    pieces: PieceManagers.PieceManager,
    metadata: MetadataStores.MetadataStore,
    pending: Rpc.Pending)

  predicate Valid(st: NodeState) {
    RoutingTables.Valid(st.routing) && st.routing.localId == st.localId && DataStores.Valid(st.data)
  }
}

=== FILE: piece_manager.dfy ===
/**
 * `bittorrent.PieceManager`: an in-memory list of pieces per torrent, and piece files in a
 * storage directory whose names are the piece keys with `:` replaced by `_`. The directory
 * is the map `files`; a Java `null` piece is `None`.
 */
module PieceManagers {
  import opened Common

  type PieceList = seq<Option<Bytes>>

  datatype PieceManager = PieceManager(pieces: map<string, PieceList>, files: map<string, Bytes>)

  function Empty(): (pm: PieceManager)
    ensures pm.pieces == map[] && pm.files == map[]
  {
    PieceManager(map[], map[])
  }

  /** The list stored for a torrent, or the empty list `computeIfAbsent` would create. */
  function ListOf(pm: PieceManager, infoHash: string): PieceList {
    if infoHash in pm.pieces then pm.pieces[infoHash] else []
  }

  /**
   * `getPiece(infoHash, index)`: null for an unknown torrent or an index at or past the end;
   * a negative index on a known torrent makes `List.get` throw.
   */
  function GetPiece(pm: PieceManager, infoHash: string, index: int): (r: Result<Option<Bytes>>)
    ensures r.Err? <==> infoHash in pm.pieces && index < 0
    ensures infoHash !in pm.pieces ==> r == Ok(None)
    ensures infoHash in pm.pieces && index >= |pm.pieces[infoHash]| ==> r == Ok(None)
    ensures infoHash in pm.pieces && 0 <= index < |pm.pieces[infoHash]| ==> r == Ok(pm.pieces[infoHash][index])
  {
    if infoHash !in pm.pieces then Ok(None)
    else
      var list := pm.pieces[infoHash];
      if index >= |list| then Ok(None)
      else if index < 0 then Err(IndexOutOfBounds)
      else Ok(list[index])
  }

  /** `list.add(null)` until the list has more than `index` entries. */
  function Pad(list: PieceList, index: int): (r: PieceList)
    ensures |r| == Max(|list|, index + 1)
    ensures r[..|list|] == list
    ensures forall j | |list| <= j < |r| :: r[j] == None
  {
    if index < |list| then list
    else list + seq(index + 1 - |list|, _ => None)
  }

  /**
   * `savePiece(infoHash, index, data)`. The torrent's list is created first, then padded
   * with nulls and its entry `index` set; for a negative index `List.set` throws, after the
   * (possibly new, empty) list has been registered.
   */
  function SavePiece(pm: PieceManager, infoHash: string, index: int, data: Option<Bytes>): (r: (PieceManager, Result<()>))
    ensures r.1.Ok? <==> index >= 0
    ensures infoHash in r.0.pieces
    ensures r.0.files == pm.files
    ensures r.0.pieces - {infoHash} == pm.pieces - {infoHash}
    ensures index < 0 ==> r.0.pieces[infoHash] == ListOf(pm, infoHash)
    ensures index >= 0 ==> |r.0.pieces[infoHash]| == Max(|ListOf(pm, infoHash)|, index + 1)
    ensures index >= 0 ==> r.0.pieces[infoHash][index] == data
    ensures index >= 0 ==> forall j | 0 <= j < |r.0.pieces[infoHash]| && j != index ::
      r.0.pieces[infoHash][j] == (if j < |ListOf(pm, infoHash)| then ListOf(pm, infoHash)[j] else None)
  {
    var list := ListOf(pm, infoHash);
    if index < 0 then (pm.(pieces := pm.pieces[infoHash := list]), Err(IndexOutOfBounds))
    else
      var padded := Pad(list, index);
      assert forall j | 0 <= j < |list| :: padded[j] == padded[..|list|][j];
      (pm.(pieces := pm.pieces[infoHash := padded[index := data]]), Ok(()))
  }

  /** `getTotalPieces(infoHash)`: 0 for an unknown torrent, else its list's length. */
  function GetTotalPieces(pm: PieceManager, infoHash: string): (r: nat)
    ensures infoHash !in pm.pieces ==> r == 0
    ensures infoHash in pm.pieces ==> r == |pm.pieces[infoHash]|
  {
    |ListOf(pm, infoHash)|
  }

  /** Reading back a piece just saved returns it, and the piece count grows to cover it. */
  lemma SaveThenGet(pm: PieceManager, infoHash: string, index: nat, data: Option<Bytes>)
    ensures GetPiece(SavePiece(pm, infoHash, index, data).0, infoHash, index) == Ok(data)
    ensures GetTotalPieces(SavePiece(pm, infoHash, index, data).0, infoHash)
         == Max(GetTotalPieces(pm, infoHash), index + 1)
  {
  }

  /** Saving a piece changes no other index of the torrent and nothing of any other torrent. */
  lemma SaveLeavesOthers(pm: PieceManager, infoHash: string, index: nat, data: Option<Bytes>,
                         other: string, j: int)
    requires other != infoHash || (j != index && infoHash in pm.pieces)
    ensures GetPiece(SavePiece(pm, infoHash, index, data).0, other, j) == GetPiece(pm, other, j)
  {
    var after := SavePiece(pm, infoHash, index, data).0;
    if other != infoHash {
      assert other in after.pieces <==> other in pm.pieces;
      if other in pm.pieces {
        assert after.pieces[other] == (after.pieces - {infoHash})[other];
      }
    }
  }

  /** `pieceKey.replace(":", "_")`: the file name a piece key is stored under. */
  function SafeKey(key: string): (r: string)
    ensures |r| == |key|
    ensures forall i | 0 <= i < |r| :: r[i] != ':'
    ensures forall i | 0 <= i < |r| :: key[i] != ':' ==> r[i] == key[i]
  {
    seq(|key|, i requires 0 <= i < |key| => if key[i] == ':' then '_' else key[i])
  }

  /**
   * `savePieceData(pieceKey, data)`: writes the bytes to the key's file. A null `data`
   * throws inside `write`, after the file has been created empty.
   */
  function SavePieceData(pm: PieceManager, pieceKey: string, data: Option<Bytes>): (r: (PieceManager, Result<()>))
    ensures r.1.Ok? <==> data.Some?
    ensures r.0.pieces == pm.pieces
    ensures SafeKey(pieceKey) in r.0.files
    ensures r.0.files[SafeKey(pieceKey)] == (if data.Some? then data.value else [])
    ensures r.0.files - {SafeKey(pieceKey)} == pm.files - {SafeKey(pieceKey)}
  {
    var name := SafeKey(pieceKey);
    match data
    case None => (pm.(files := pm.files[name := []]), Err(NullPointer))
    case Some(bytes) => (pm.(files := pm.files[name := bytes]), Ok(()))
  }

  /** `loadPieceData(pieceKey)`: the file's bytes, or null when there is no such file. */
  function LoadPieceData(pm: PieceManager, pieceKey: string): (r: Option<Bytes>)
    ensures r.Some? <==> SafeKey(pieceKey) in pm.files
  {
    if SafeKey(pieceKey) in pm.files then Some(pm.files[SafeKey(pieceKey)]) else None
  }

  /**
   * Two keys map to the same file name exactly when they have the same length and agree
   * at every position, `:` and `_` counting as equal.
   */
  lemma SafeKeyCollides(a: string, b: string)
    ensures SafeKey(a) == SafeKey(b) <==>
      |a| == |b| && forall i | 0 <= i < |a| :: a[i] == b[i] || (a[i] in ":_" && b[i] in ":_")
  {
    if |a| == |b| && forall i | 0 <= i < |a| :: a[i] == b[i] || (a[i] in ":_" && b[i] in ":_") {
      forall i | 0 <= i < |a| ensures SafeKey(a)[i] == SafeKey(b)[i] {
      }
    }
    if SafeKey(a) == SafeKey(b) {
      forall i | 0 <= i < |a| ensures a[i] == b[i] || (a[i] in ":_" && b[i] in ":_") {
        assert SafeKey(a)[i] == SafeKey(b)[i];
      }
    }
  }

  /**
   * Loading under any key that maps to the same file returns what was saved; in particular
   * the data saved under `"a:b"` is read back under `"a_b"`.
   */
  lemma LoadAfterSave(pm: PieceManager, saved: string, loaded: string, data: Bytes)
    requires SafeKey(saved) == SafeKey(loaded)
    ensures LoadPieceData(SavePieceData(pm, saved, Some(data)).0, loaded) == Some(data)
  {
  }

  lemma ColonAndUnderscoreCollide(pm: PieceManager, data: Bytes)
    ensures LoadPieceData(SavePieceData(pm, "a:b", Some(data)).0, "a_b") == Some(data)
  {
    SafeKeyCollides("a:b", "a_b");
  }

  /** Saving under one file name leaves every other file as it was. */
  lemma SaveDataLeavesOthers(pm: PieceManager, saved: string, loaded: string, data: Option<Bytes>)
    requires SafeKey(saved) != SafeKey(loaded)
    ensures LoadPieceData(SavePieceData(pm, saved, data).0, loaded) == LoadPieceData(pm, loaded)
  {
    var after := SavePieceData(pm, saved, data).0;
    assert SafeKey(loaded) in after.files <==> SafeKey(loaded) in pm.files;
    if SafeKey(loaded) in pm.files {
      assert after.files[SafeKey(loaded)] == (after.files - {SafeKey(saved)})[SafeKey(loaded)];
    }
  }
}

=== FILE: routing_table.dfy ===
/**
 * `dht.RoutingTable`: an ordered list of k-buckets grown by splitting the last bucket, and
 * an index of every admitted contact keyed by node id.
 */
module RoutingTables {
  import opened Common
  import opened NodeIds
  import opened Contacts
  import opened KBuckets
  import Closest

  const IdLengthBits: nat := 160

  /**
   * `allContacts` is a hash map keyed by node id; it is kept as a list without repeated
   * ids, whose order stands in for the map's unspecified iteration order.
   */
  datatype RoutingTable = RoutingTable(localId: Id, buckets: seq<KBucket>, allContacts: seq<Contact>)

  predicate UniqueIds(s: seq<Contact>) {
    forall i, j | 0 <= i < j < |s| :: s[i].nodeId != s[j].nodeId
  }

  /**
   * The invariant of every reachable table: between 1 and 161 buckets, the last one at
   * depth `count - 1`, every bucket within capacity, the index free of repeated ids and
   * never holding the local node.
   */
  predicate Valid(rt: RoutingTable) {
    BucketsValid(rt.buckets) && IndexValid(rt.localId, rt.allContacts)
  }

  predicate BucketsValid(bs: seq<KBucket>) {
    && 1 <= |bs| <= IdLengthBits + 1
    && bs[|bs| - 1].depth == |bs| - 1
    && (forall i | 0 <= i < |bs| :: KBuckets.Valid(bs[i]))
  }

  predicate IndexValid(localId: Id, all: seq<Contact>) {
    UniqueIds(all) && !HasId(all, localId)
  }

  /** Putting a bucket of the same depth and within capacity in place of another. */
  lemma SetBucket(bs: seq<KBucket>, index: nat, b: KBucket)
    requires BucketsValid(bs) && index < |bs|
    requires KBuckets.Valid(b) && b.depth == bs[index].depth
    ensures BucketsValid(bs[index := b])
  {
  }

  /** Replacing the last bucket by two buckets one level deeper. */
  lemma SplitLast(bs: seq<KBucket>, b0: KBucket, b1: KBucket)
    requires BucketsValid(bs) && |bs| <= IdLengthBits
    requires KBuckets.Valid(b0) && KBuckets.Valid(b1) && b1.depth == |bs|
    ensures BucketsValid(bs[|bs| - 1 := b0] + [b1])
  {
    var r := bs[|bs| - 1 := b0] + [b1];
    forall i | 0 <= i < |r| ensures KBuckets.Valid(r[i]) {
      if i < |bs| - 1 {
        assert r[i] == bs[i];
      }
    }
  }

  /** The constructor: a single bucket of depth 0 covering the whole id space. */
  function NewTable(localId: Id): (rt: RoutingTable)
    ensures Valid(rt)
    ensures rt.localId == localId && |rt.buckets| == 1 && |rt.allContacts| == 0
  {
    RoutingTable(localId, [NewBucket(0)], [])
  }

  /** `allContacts.get(id)`. */
  function Lookup(s: seq<Contact>, id: Id): (r: Option<Contact>)
    ensures r.Some? <==> HasId(s, id)
    ensures r.Some? ==> r.value.nodeId == id && r.value in s
  {
    if |s| == 0 then None
    else if s[0].nodeId == id then Some(s[0])
    else
      assert HasId(s, id) ==> HasId(s[1..], id) by {
        if HasId(s, id) {
          var i :| 0 <= i < |s| && s[i].nodeId == id;
          assert s[1..][i - 1] == s[i];
        }
      }
      Lookup(s[1..], id)
  }

  /** `getContact`: the indexed contact with that id, never the local node. */
  function GetContact(rt: RoutingTable, id: Id): (r: Option<Contact>)
    ensures r.Some? <==> id in Ids(rt.allContacts)
    ensures r.Some? ==> r.value.nodeId == id && r.value in rt.allContacts
    ensures Valid(rt) && r.Some? ==> id != rt.localId
  {
    Lookup(rt.allContacts, id)
  }

  /** Replaces the entry for `c.nodeId` by `c` (the in-place update of the stored contact). */
  function Replace(s: seq<Contact>, c: Contact): (r: seq<Contact>)
    ensures |r| == |s|
    ensures forall i | 0 <= i < |s| :: r[i].nodeId == s[i].nodeId
    ensures forall i | 0 <= i < |s| :: r[i] == if s[i].nodeId == c.nodeId then c else s[i]
  {
    if |s| == 0 then [] else [if s[0].nodeId == c.nodeId then c else s[0]] + Replace(s[1..], c)
  }

  /** `allContacts.remove(id)`. */
  function Without(s: seq<Contact>, id: Id): (r: seq<Contact>)
    ensures |r| <= |s|
    ensures forall i | 0 <= i < |r| :: r[i].nodeId != id
  {
    if |s| == 0 then []
    else if s[0].nodeId == id then Without(s[1..], id)
    else [s[0]] + Without(s[1..], id)
  }

  /** Removal keeps only entries of the original list, and all of them but the removed id. */
  lemma {:induction false} WithoutMembers(s: seq<Contact>, id: Id)
    ensures forall x | x in Without(s, id) :: x in s
    ensures forall i | 0 <= i < |s| && s[i].nodeId != id :: s[i] in Without(s, id)
  {
    if |s| > 0 {
      WithoutMembers(s[1..], id);
      forall i | 0 <= i < |s| && s[i].nodeId != id ensures s[i] in Without(s, id) {
        if i > 0 {
          assert s[i] == s[1..][i - 1];
        }
      }
    }
  }

  lemma {:induction false} WithoutUnique(s: seq<Contact>, id: Id)
    requires UniqueIds(s)
    ensures UniqueIds(Without(s, id))
  {
    if |s| > 0 {
      WithoutUnique(s[1..], id);
      WithoutMembers(s[1..], id);
      var rest := Without(s[1..], id);
      if s[0].nodeId != id {
        forall k | 0 <= k < |rest| ensures rest[k].nodeId != s[0].nodeId {
          assert rest[k] in s[1..];
          var j :| 0 <= j < |s[1..]| && s[1..][j] == rest[k];
          assert s[j + 1] == rest[k];
        }
        var r := [s[0]] + rest;
        forall i, j | 0 <= i < j < |r| ensures r[i].nodeId != r[j].nodeId {
          if i > 0 {
            assert r[i] == rest[i - 1] && r[j] == rest[j - 1];
          } else {
            assert r[j] == rest[j - 1];
          }
        }
      }
    }
  }

  /**
   * `getBucketIndex`: contacts at XOR distance `d` belong in bucket `d - 1` (distance 0 in
   * bucket 0), capped at the last bucket. Equivalently, the bucket is 159 minus the number of
   * leading bits the id shares with the local id.
   */
  function BucketIndex(rt: RoutingTable, id: Id): (r: nat)
    requires |rt.buckets| >= 1
    ensures r < |rt.buckets| && r < IdLengthBits
    ensures r == Min(Max(0, IdLengthBits - 1 - CommonPrefix(rt.localId, id)), |rt.buckets| - 1)
  {
    DistanceAtMost160(rt.localId, id);
    DistanceIsPrefixComplement(rt.localId, id);
    Min(Max(0, Distance(rt.localId, id) - 1), |rt.buckets| - 1)
  }

  /** The node ids on `cs` whose bit `bit` equals `v`. */
  function IdsWithBit(cs: seq<Contact>, bit: nat, v: int): (r: set<Id>)
    requires bit < IdLengthBits
    ensures forall id | id in r :: GetBit(id, bit) == v
    ensures forall i | 0 <= i < |cs| && GetBit(cs[i].nodeId, bit) == v :: cs[i].nodeId in r
    ensures r <= Ids(cs)
  {
    if |cs| == 0 then {}
    else
      (if GetBit(cs[0].nodeId, bit) == v then {cs[0].nodeId} else {}) + IdsWithBit(cs[1..], bit, v)
  }

  /**
   * The redistribution loop of `splitBucket`: each contact, head first, is offered to
   * `bucket0` or `bucket1` by its own bit `bit`. Each bucket ends up as if offered only the
   * contacts of its own bit value.
   */
  function Redistribute(cs: seq<Contact>, bit: nat, b0: KBucket, b1: KBucket): (r: (KBucket, KBucket))
    requires bit < IdLengthBits
    requires |b0.contacts| + |cs| <= K && |b1.contacts| + |cs| <= K
    requires b0.cache == [] && b1.cache == []
    ensures r == (OfferWithBit(cs, bit, 0, b0), OfferWithBit(cs, bit, 1, b1))
  {
    if |cs| == 0 then (b0, b1)
    else
      var c := cs[0];
      if GetBit(c.nodeId, bit) == 0 then
        Redistribute(cs[1..], bit, KBuckets.AddContact(b0, c).0, b1)
      else
        Redistribute(cs[1..], bit, b0, KBuckets.AddContact(b1, c).0)
  }

  /**
   * Reference definition of one half of a split: `b` offered, in order, the contacts of
   * `cs` whose bit `bit` is `v`. With room for all of them, it takes every one.
   */
  function OfferWithBit(cs: seq<Contact>, bit: nat, v: int, b: KBucket): (r: KBucket)
    requires bit < IdLengthBits
    requires |b.contacts| + |cs| <= K && b.cache == []
    ensures r.depth == b.depth && r.cache == []
    ensures |r.contacts| <= |b.contacts| + |cs|
    ensures Ids(r.contacts) == Ids(b.contacts) + IdsWithBit(cs, bit, v)
  {
    if |cs| == 0 then b
    else
      var c := cs[0];
      IdsWithBitCons(cs, bit);
      if GetBit(c.nodeId, bit) == v then
        var b' := KBuckets.AddContact(b, c).0;
        var r := OfferWithBit(cs[1..], bit, v, b');
        UnionShift(Ids(r.contacts), Ids(b.contacts), Ids(b'.contacts), IdsWithBit(cs, bit, v),
          IdsWithBit(cs[1..], bit, v), c.nodeId);
        r
      else
        OfferWithBit(cs[1..], bit, v, b)
  }

  /** Moving one element from the offered ids to the bucket's ids keeps the union. */
  lemma UnionShift<T>(r: set<T>, before: set<T>, after: set<T>, all: set<T>, rest: set<T>, x: T)
    requires r == after + rest && after == before + {x} && all == {x} + rest
    ensures r == before + all
  {
  }

  /**
   * The two halves of a split bucket of depth `index`: both one level deeper and within
   * capacity, together holding the bucket's ids, split by bit `index`.
   */
  lemma SplitHalves(b: KBucket, index: nat)
    requires KBuckets.Valid(b) && b.depth == index && index < IdLengthBits
    ensures var h := Redistribute(b.contacts, index, NewBucket(index + 1), NewBucket(index + 1));
      && KBuckets.Valid(h.0) && KBuckets.Valid(h.1)
      && h.0.depth == index + 1 && h.1.depth == index + 1
      && Ids(h.0.contacts) + Ids(h.1.contacts) == Ids(b.contacts)
      && (forall id | id in Ids(h.0.contacts) :: GetBit(id, index) == 0)
      && (forall id | id in Ids(h.1.contacts) :: GetBit(id, index) == 1)
  {
    var h := Redistribute(b.contacts, index, NewBucket(index + 1), NewBucket(index + 1));
    assert IdsWithBit(b.contacts, index, 0) + IdsWithBit(b.contacts, index, 1) == Ids(b.contacts);
  }

  /** The head of `cs` joins exactly the one of the two id sets its bit selects. */
  lemma IdsWithBitCons(cs: seq<Contact>, bit: nat)
    requires bit < IdLengthBits && |cs| > 0
    ensures GetBit(cs[0].nodeId, bit) == 0 ==>
      IdsWithBit(cs, bit, 0) == {cs[0].nodeId} + IdsWithBit(cs[1..], bit, 0) &&
      IdsWithBit(cs, bit, 1) == IdsWithBit(cs[1..], bit, 1)
    ensures GetBit(cs[0].nodeId, bit) == 1 ==>
      IdsWithBit(cs, bit, 1) == {cs[0].nodeId} + IdsWithBit(cs[1..], bit, 1) &&
      IdsWithBit(cs, bit, 0) == IdsWithBit(cs[1..], bit, 0)
  {
  }

  /**
   * `splitBucket(index)`: only the last bucket splits, and only while its new depth stays
   * within 160. Its live contacts are shared between two buckets one level deeper by bit
   * `newDepth - 1` of their own id; the second bucket is appended, and the replacement
   * cache is dropped.
   */
  function SplitBucket(rt: RoutingTable, index: int): (r: RoutingTable)
    requires Valid(rt)
    requires 0 <= index < |rt.buckets|
    ensures Valid(r)
    ensures r.localId == rt.localId && r.allContacts == rt.allContacts
    ensures index != |rt.buckets| - 1 || |rt.buckets| > IdLengthBits ==> r == rt
    ensures index == |rt.buckets| - 1 && |rt.buckets| <= IdLengthBits ==>
      && |r.buckets| == |rt.buckets| + 1
      && r.buckets[..index] == rt.buckets[..index]
      && Ids(r.buckets[index].contacts) + Ids(r.buckets[index + 1].contacts)
         == Ids(rt.buckets[index].contacts)
      && (forall id | id in Ids(r.buckets[index].contacts) :: GetBit(id, index) == 0)
      && (forall id | id in Ids(r.buckets[index + 1].contacts) :: GetBit(id, index) == 1)
  {
    if index != |rt.buckets| - 1 then rt
    else
      var oldBucket := rt.buckets[index];
      var newDepth := oldBucket.depth + 1;
      if newDepth > IdLengthBits then rt
      else
        var halves := Redistribute(oldBucket.contacts, newDepth - 1, NewBucket(newDepth), NewBucket(newDepth));
        SplitHalves(oldBucket, index);
        var r := rt.(buckets := rt.buckets[index := halves.0] + [halves.1]);
        SplitLast(rt.buckets, halves.0, halves.1);
        assert newDepth - 1 == index;
        assert r.buckets[..index] == rt.buckets[..index];
        r
  }

  /** What an already indexed contact learns from a fresh sighting at clock time `now`. */
  function Refresh(existing: Contact, seen: Contact, now: int): (r: Contact)
    ensures r.nodeId == existing.nodeId && r.lastSeen == now
    ensures r.httpPort == if seen.httpPort != -1 then seen.httpPort else existing.httpPort
  {
    existing.(httpPort := if seen.httpPort != -1 then seen.httpPort else existing.httpPort, lastSeen := now)
  }

  /**
   * `addContact(contact)` at clock time `now`. The local id is refused. The contact is
   * offered to its bucket; an indexed contact is refreshed and the bucket's answer returned;
   * a new contact the bucket took is indexed; a new contact the full LAST bucket refused
   * splits that bucket and is offered again; any other refusal answers false. At most 160
   * splits can happen, because the last bucket's depth is always `count - 1` and a
   * contact's bucket index never exceeds 159.
   */
  function AddContact(rt: RoutingTable, c: Contact, now: int): (r: (RoutingTable, bool))
    requires Valid(rt)
    ensures Valid(r.0)
    ensures r.0.localId == rt.localId
    ensures |rt.buckets| <= |r.0.buckets|
    ensures c.nodeId == rt.localId ==> r == (rt, false)
    ensures forall id | id != c.nodeId :: Lookup(r.0.allContacts, id) == Lookup(rt.allContacts, id)
    ensures HasId(rt.allContacts, c.nodeId) ==>
      Lookup(r.0.allContacts, c.nodeId) == Some(Refresh(Lookup(rt.allContacts, c.nodeId).value, c, now))
    ensures !HasId(rt.allContacts, c.nodeId) ==>
      (r.1 <==> HasId(r.0.allContacts, c.nodeId))
    ensures !HasId(rt.allContacts, c.nodeId) && r.1 ==> Lookup(r.0.allContacts, c.nodeId) == Some(c)
    ensures !HasId(rt.allContacts, c.nodeId) && !r.1 ==> r.0.allContacts == rt.allContacts
    ensures var b := rt.buckets[BucketIndex(rt, c.nodeId)];
      c.nodeId != rt.localId && !HasId(rt.allContacts, c.nodeId) &&
      (|b.contacts| < K || HasId(b.contacts, c.nodeId)) ==>
        r.1 && Lookup(r.0.allContacts, c.nodeId) == Some(c)
    ensures var index := BucketIndex(rt, c.nodeId); var b := rt.buckets[index];
      c.nodeId != rt.localId && !HasId(rt.allContacts, c.nodeId) &&
      |b.contacts| >= K && !HasId(b.contacts, c.nodeId) && index != |rt.buckets| - 1 ==>
        !r.1 && |r.0.buckets| == |rt.buckets|
    ensures var index := BucketIndex(rt, c.nodeId); var b := rt.buckets[index];
      c.nodeId != rt.localId && !HasId(rt.allContacts, c.nodeId) &&
      |b.contacts| >= K && !HasId(b.contacts, c.nodeId) && index == |rt.buckets| - 1 ==>
        |r.0.buckets| > |rt.buckets|
    decreases IdLengthBits + 1 - |rt.buckets|
  {
    if c.nodeId == rt.localId then (rt, false)
    else
      var index := BucketIndex(rt, c.nodeId);
      var offered := KBuckets.AddContact(rt.buckets[index], c);
      var buckets := rt.buckets[index := offered.0];
      assert BucketsValid(buckets) by {
        SetBucket(rt.buckets, index, offered.0);
      }
      match Lookup(rt.allContacts, c.nodeId)
      case Some(existing) =>
        var refreshed := Refresh(existing, c, now);
        var all := Replace(rt.allContacts, refreshed);
        assert IndexValid(rt.localId, all) && Lookup(all, c.nodeId) == Some(refreshed)
          && forall id | id != c.nodeId :: Lookup(all, id) == Lookup(rt.allContacts, id) by {
          ReplaceLookup(rt.allContacts, refreshed);
          assert Lookup(all, rt.localId) == Lookup(rt.allContacts, rt.localId);
        }
        (RoutingTable(rt.localId, buckets, all), offered.1)
      case None =>
        if offered.1 then
          var all := rt.allContacts + [c];
          assert IndexValid(rt.localId, all) && Lookup(all, c.nodeId) == Some(c)
            && forall id | id != c.nodeId :: Lookup(all, id) == Lookup(rt.allContacts, id) by {
            AppendLookup(rt.allContacts, c);
            assert Lookup(all, rt.localId) == Lookup(rt.allContacts, rt.localId);
          }
          (RoutingTable(rt.localId, buckets, all), true)
        else if index == |rt.buckets| - 1 then
          var rt1 := RoutingTable(rt.localId, buckets, rt.allContacts);
          AddContact(SplitBucket(rt1, index), c, now)
        else
          (RoutingTable(rt.localId, buckets, rt.allContacts), false)
  }

  lemma ReplaceLookup(s: seq<Contact>, c: Contact)
    requires UniqueIds(s) && HasId(s, c.nodeId)
    ensures UniqueIds(Replace(s, c))
    ensures Lookup(Replace(s, c), c.nodeId) == Some(c)
    ensures forall id | id != c.nodeId :: Lookup(Replace(s, c), id) == Lookup(s, id)
  {
    var r := Replace(s, c);
    ReplaceUnique(s, c);
    var k :| 0 <= k < |s| && s[k].nodeId == c.nodeId;
    assert r[k] == c;
    LookupUnique(r, k);
    forall id | id != c.nodeId ensures Lookup(r, id) == Lookup(s, id) {
      ReplaceLookupOther(s, c, id);
    }
  }

  lemma ReplaceUnique(s: seq<Contact>, c: Contact)
    requires UniqueIds(s)
    ensures UniqueIds(Replace(s, c))
  {
    var r := Replace(s, c);
    forall i, j | 0 <= i < j < |r| ensures r[i].nodeId != r[j].nodeId {
      assert r[i].nodeId == s[i].nodeId && r[j].nodeId == s[j].nodeId;
    }
  }

  lemma ReplaceLookupOther(s: seq<Contact>, c: Contact, id: Id)
    requires UniqueIds(s) && id != c.nodeId
    ensures Lookup(Replace(s, c), id) == Lookup(s, id)
  {
    var r := Replace(s, c);
    ReplaceUnique(s, c);
    if HasId(s, id) {
      var j :| 0 <= j < |s| && s[j].nodeId == id;
      assert r[j] == s[j];
      LookupUnique(s, j);
      LookupUnique(r, j);
    } else {
      assert forall k | 0 <= k < |r| :: r[k].nodeId == s[k].nodeId;
    }
  }

  lemma {:induction false} AppendLookup(s: seq<Contact>, c: Contact)
    requires UniqueIds(s) && !HasId(s, c.nodeId)
    ensures UniqueIds(s + [c])
    ensures Lookup(s + [c], c.nodeId) == Some(c)
    ensures forall id | id != c.nodeId :: Lookup(s + [c], id) == Lookup(s, id)
  {
    var r := s + [c];
    LookupUnique(r, |s|);
    forall id | id != c.nodeId ensures Lookup(r, id) == Lookup(s, id) {
      if HasId(s, id) {
        var j :| 0 <= j < |s| && s[j].nodeId == id;
        LookupUnique(s, j);
        LookupUnique(r, j);
      }
    }
  }

  /** In a list without repeated ids, looking up an entry's id finds that entry. */
  lemma {:induction false} LookupUnique(s: seq<Contact>, k: nat)
    requires UniqueIds(s) && k < |s|
    ensures Lookup(s, s[k].nodeId) == Some(s[k])
  {
    if k > 0 {
      assert s[1..][k - 1] == s[k];
      LookupUnique(s[1..], k - 1);
    }
  }

  /**
   * `removeContact(id)`: an indexed contact is dropped from the index and from the bucket
   * its id currently maps to; the call answers whether the index held it.
   */
  function RemoveContact(rt: RoutingTable, id: Id): (r: (RoutingTable, bool))
    requires Valid(rt)
    ensures Valid(r.0)
    ensures r.0.localId == rt.localId && |r.0.buckets| == |rt.buckets|
    ensures r.1 <==> HasId(rt.allContacts, id)
    ensures !HasId(r.0.allContacts, id)
    ensures forall other | other != id :: Lookup(r.0.allContacts, other) == Lookup(rt.allContacts, other)
  {
    match Lookup(rt.allContacts, id)
    case None => (rt, false)
    case Some(contact) =>
      var index := BucketIndex(rt, id);
      var all := Without(rt.allContacts, id);
      WithoutIndexValid(rt.localId, rt.allContacts, id);
      WithoutLookup(rt.allContacts, id);
      var bucket := KBuckets.RemoveContact(rt.buckets[index], contact).0;
      SetBucket(rt.buckets, index, bucket);
      var rt1 := rt.(allContacts := all, buckets := rt.buckets[index := bucket]);
      (rt1, true)
  }

  lemma WithoutIndexValid(localId: Id, s: seq<Contact>, id: Id)
    requires IndexValid(localId, s)
    ensures IndexValid(localId, Without(s, id))
  {
    WithoutUnique(s, id);
    WithoutMembers(s, id);
  }

  lemma WithoutLookup(s: seq<Contact>, id: Id)
    requires UniqueIds(s)
    ensures forall other | other != id :: Lookup(Without(s, id), other) == Lookup(s, other)
  {
    var r := Without(s, id);
    WithoutUnique(s, id);
    WithoutMembers(s, id);
    forall other | other != id ensures Lookup(r, other) == Lookup(s, other) {
      if HasId(s, other) {
        var j :| 0 <= j < |s| && s[j].nodeId == other;
        LookupUnique(s, j);
        assert s[j] in r;
        var k :| 0 <= k < |r| && r[k] == s[j];
        LookupUnique(r, k);
      }
    }
  }

  /** `findClosestContacts(target, count)` over every indexed contact. */
  function FindClosestContacts(rt: RoutingTable, target: Id, count: nat): (r: seq<Contact>)
    ensures |r| == Min(count, |rt.allContacts|)
    ensures Closest.SortedBy(r, Closest.ByDistance(target))
    ensures multiset(r) <= multiset(rt.allContacts)
    ensures forall x, i | x in multiset(rt.allContacts) - multiset(r) && 0 <= i < |r| ::
      Closest.Dist(r[i], target) <= Closest.Dist(x, target)
  {
    Closest.ClosestContacts(rt.allContacts, target, count)
  }

  /** `getTotalContacts`: the number of distinct node ids indexed. */
  function TotalContacts(rt: RoutingTable): (r: nat)
    requires Valid(rt)
    ensures r == |Ids(rt.allContacts)|
  {
    UniqueIdsCount(rt.allContacts);
    |rt.allContacts|
  }

  lemma {:induction false} UniqueIdsCount(s: seq<Contact>)
    requires UniqueIds(s)
    ensures |Ids(s)| == |s|
  {
    if |s| > 0 {
      UniqueIdsCount(s[1..]);
      assert s[0].nodeId !in Ids(s[1..]);
    }
  }

  /** One call on the table. */
  datatype TableOp = AddOp(contact: Contact, now: int) | RemoveOp(id: Id)

  function Apply(rt: RoutingTable, op: TableOp): (r: RoutingTable)
    requires Valid(rt)
    ensures Valid(r)
  {
    match op
    case AddOp(c, now) => AddContact(rt, c, now).0
    case RemoveOp(id) => RemoveContact(rt, id).0
  }

  function ApplyAll(rt: RoutingTable, ops: seq<TableOp>): (r: RoutingTable)
    requires Valid(rt)
    ensures Valid(r)
    decreases |ops|
  {
    if |ops| == 0 then rt else ApplyAll(Apply(rt, ops[0]), ops[1..])
  }

  /**
   * From the constructor, whatever the calls: the local node is never indexed, no bucket
   * holds more than `K` live contacts, and there are never more than 161 buckets.
   */
  lemma TableInvariant(localId: Id, ops: seq<TableOp>)
    ensures !HasId(ApplyAll(NewTable(localId), ops).allContacts, localId)
    ensures |ApplyAll(NewTable(localId), ops).buckets| <= IdLengthBits + 1
    ensures forall i | 0 <= i < |ApplyAll(NewTable(localId), ops).buckets| ::
      |ApplyAll(NewTable(localId), ops).buckets[i].contacts| <= K
  {
    var r := ApplyAll(NewTable(localId), ops);
    assert ApplyAll(NewTable(localId), ops).localId == localId by {
      LocalIdStable(NewTable(localId), ops);
    }
  }

  lemma {:induction false} LocalIdStable(rt: RoutingTable, ops: seq<TableOp>)
    requires Valid(rt)
    ensures ApplyAll(rt, ops).localId == rt.localId
    decreases |ops|
  {
    if |ops| > 0 {
      LocalIdStable(Apply(rt, ops[0]), ops[1..]);
    }
  }
}

=== FILE: rpc.dfy ===
/**
 * `dht.KademliaRPC`: the table of requests awaiting a response, keyed by the request's
 * `messageId`, and the calls that send a request and interpret whatever came back. Sockets,
 * threads and futures are not modelled: the network's behaviour during one call is the
 * parameter `Network`, and a completed future is the message it was completed with.
 */
module Rpc {
  import opened Common
  import opened NodeIds
  import opened Contacts
  import opened Messages
  import RoutingTables
  import KBuckets

  /** Encodings longer than this go over TCP instead of UDP. */
  const UdpLimit: nat := 60000

  /** The ids of the requests whose futures are still registered. */
  type Pending = set<string>

  /** The seven response tags, whose classes carry a request id. */
  predicate Correlated(t: MessageType) {
    || t.Pong? || t.StoreResponse? || t.FindNodeResponse? || t.FindValueResponse?
    || t.StorePieceResponse? || t.GetPiecesResponse? || t.StoreMetadataResponse?
  }

  /**
   * `getRequestId`: the correlation id of the seven response classes, null for every
   * other class.
   */
  function RequestIdOf(m: Message): (r: Option<string>)
    ensures r.Some? <==> Correlated(TypeOf(m))
    ensures r.Some? ==> r.value == m.body.requestId
  {
    match m.body
    case PongBody(id) => Some(id)
    case StoreResponseBody(id, _) => Some(id)
    case FindNodeResponseBody(id, _) => Some(id)
    case FindValueResponseBody(id, _, _) => Some(id)
    case StorePieceResponseBody(id, _) => Some(id)
    case GetPieceResponseBody(id, _, _) => Some(id)
    case StoreMetadataResponseBody(id, _) => Some(id)
    case _ => None
  }

  /**
   * `handleResponse(message)`: removes the entry under the message's request id and, when
   * there was one, completes its future with the message (the second component).
   */
  function HandleResponse(pending: Pending, m: Message): (r: (Pending, Option<Message>))
    ensures RequestIdOf(m).None? ==> r == (pending, None)
    ensures RequestIdOf(m).Some? ==> r.0 == pending - {RequestIdOf(m).value}
    ensures RequestIdOf(m).Some? ==> (r.1 == Some(m) <==> RequestIdOf(m).value in pending)
    ensures r.1.None? || r.1 == Some(m)
  {
    var id := RequestIdOf(m);
    if id.None? then (pending, None)
    else (pending - {id.value}, if id.value in pending then Some(m) else None)
  }

  /** A duplicate response finds no entry: it completes nothing and changes nothing. */
  lemma DuplicateResponseIgnored(pending: Pending, m: Message)
    ensures HandleResponse(HandleResponse(pending, m).0, m) == (HandleResponse(pending, m).0, None)
  {
    if RequestIdOf(m).Some? {
      var id := RequestIdOf(m).value;
      assert pending - {id} - {id} == pending - {id};
    }
  }

  /** What the network does during one `sendRequest`. */
  datatype Network = Network(
    tcpReply: Result<Message>,   // the TCP exchange: the decoded reply, or the exception it threw
    udpSendOk: bool,             // whether `socket.send` succeeded
    arrivals: seq<Message>)      // responses handed to `handleResponse` before the deadline, in order

  /**
   * Waiting on the future of request `mid`: arrivals are handled in order until one
   * completes it; when none does, the deadline removes the entry and the call times out.
   */
  function Await(pending: Pending, arrivals: seq<Message>, mid: string): (r: (Pending, Result<Message>))
    requires mid in pending
    ensures mid !in r.0
    ensures r.0 <= pending
    ensures r.1.Ok? <==> exists i | 0 <= i < |arrivals| :: RequestIdOf(arrivals[i]) == Some(mid)
    ensures r.1.Err? ==> r.1 == Err(Timeout)
    ensures r.1.Ok? ==> exists i | 0 <= i < |arrivals| ::
      arrivals[i] == r.1.value && RequestIdOf(arrivals[i]) == Some(mid) &&
      forall j | 0 <= j < i :: RequestIdOf(arrivals[j]) != Some(mid)
    decreases |arrivals|
  {
    if |arrivals| == 0 then (pending - {mid}, Err(Timeout))
    else
      var handled := HandleResponse(pending, arrivals[0]);
      if RequestIdOf(arrivals[0]) == Some(mid) then (handled.0, Ok(arrivals[0]))
      else
        var rest := Await(handled.0, arrivals[1..], mid);
        assert forall i | 1 <= i < |arrivals| :: arrivals[i] == arrivals[1..][i - 1];
        if rest.1.Ok? then
          var k :| 0 <= k < |arrivals[1..]| && arrivals[1..][k] == rest.1.value &&
            RequestIdOf(arrivals[1..][k]) == Some(mid) &&
            forall j | 0 <= j < k :: RequestIdOf(arrivals[1..][j]) != Some(mid);
          assert arrivals[k + 1] == rest.1.value;
          rest
        else
          rest
  }

  /**
   * `sendRequest(request, contact, timeout)` for a request whose encoding is
   * `encodedSize` bytes. The entry is registered before anything is sent. The TCP path and
   * a failed UDP send leave it registered; a UDP request ends with its entry removed,
   * either by the matching response or by the timeout.
   */
  function SendRequest(pending: Pending, request: Message, encodedSize: nat, net: Network): (r: (Pending, Result<Message>))
    ensures encodedSize > UdpLimit ==> r == (pending + {request.messageId}, net.tcpReply)
    ensures encodedSize <= UdpLimit && !net.udpSendOk ==>
      r == (pending + {request.messageId}, Err(TransportFailure))
    ensures encodedSize <= UdpLimit && net.udpSendOk ==>
      request.messageId !in r.0 && r.0 <= pending + {request.messageId} &&
      (r.1.Ok? <==> exists i | 0 <= i < |net.arrivals| :: RequestIdOf(net.arrivals[i]) == Some(request.messageId)) &&
      (r.1.Ok? ==> RequestIdOf(r.1.value) == Some(request.messageId)) &&
      (r.1.Err? ==> r.1 == Err(Timeout))
  {
    var registered := pending + {request.messageId};
    if encodedSize > UdpLimit then (registered, net.tcpReply)
    else if !net.udpSendOk then (registered, Err(TransportFailure))
    else Await(registered, net.arrivals, request.messageId)
  }

  /** A request over UDP that nobody answers times out and leaves no entry behind. */
  lemma UnansweredRequestTimesOut(pending: Pending, request: Message, encodedSize: nat, net: Network)
    requires encodedSize <= UdpLimit && net.udpSendOk
    requires forall i | 0 <= i < |net.arrivals| :: RequestIdOf(net.arrivals[i]) != Some(request.messageId)
    ensures SendRequest(pending, request, encodedSize, net).1 == Err(Timeout)
    ensures request.messageId !in SendRequest(pending, request, encodedSize, net).0
  {
  }

  /**
   * `ping(contact)` given the outcome of its `sendRequest`: a PONG refreshes the contact and
   * returns it; an exception counts a failure; any other reply returns null and changes
   * nothing. The first component is the contact as the call leaves it.
   */
  function Ping(c: Contact, reply: Result<Message>, now: int): (r: (Contact, Option<Contact>))
    ensures reply.Ok? && TypeOf(reply.value) == Pong ==>
      r.1 == Some(r.0) && r.0.lastSeen == now && r.0.failedRequests == 0
    ensures reply.Ok? && TypeOf(reply.value) != Pong ==> r == (c, None)
    ensures reply.Err? ==> r.1.None? && r.0 == IncrementFailedRequests(c)
    ensures r.0.nodeId == c.nodeId && r.0.ip == c.ip && r.0.port == c.port
  {
    match reply
    case Err(_) => (IncrementFailedRequests(c), None)
    case Ok(m) =>
      if m.body.PongBody? then
        var seen := UpdateLastSeen(c, now);
        (seen, Some(seen))
      else (c, None)
  }

  /** `store`: true exactly for a STORE_RESPONSE reporting success. */
  predicate StoreSucceeded(reply: Result<Message>) {
    reply.Ok? && reply.value.body.StoreResponseBody? && reply.value.body.success
  }

  /** `sendStorePiece`: true exactly for a STORE_PIECE_RESPONSE reporting success. */
  predicate StorePieceSucceeded(reply: Result<Message>) {
    reply.Ok? && reply.value.body.StorePieceResponseBody? && reply.value.body.success
  }

  /** `sendStoreMetadata`: true exactly for a STORE_METADATA_RESPONSE reporting success. */
  predicate StoreMetadataSucceeded(reply: Result<Message>) {
    reply.Ok? && reply.value.body.StoreMetadataResponseBody? && reply.value.body.success
  }

  /** A reply of another class, even one carrying `success = true`, never counts as stored. */
  lemma SuccessNeedsMatchingClass(reply: Result<Message>)
    ensures StoreSucceeded(reply) <==>
      reply.Ok? && TypeOf(reply.value) == StoreResponse && reply.value.body.success
    ensures StorePieceSucceeded(reply) <==>
      reply.Ok? && TypeOf(reply.value) == StorePieceResponse && reply.value.body.success
    ensures StoreMetadataSucceeded(reply) <==>
      reply.Ok? && TypeOf(reply.value) == StoreMetadataResponse && reply.value.body.success
    ensures !(StoreSucceeded(reply) && StorePieceSucceeded(reply))
  {
  }

  /** `sendGetPiece`: the bytes of a GET_PIECES_RESPONSE that has data, else null. */
  function GetPieceData(reply: Result<Message>): (r: Option<Bytes>)
    ensures r.Some? <==> reply.Ok? && reply.value.body.GetPieceResponseBody? && HasData(reply.value)
    ensures r.Some? ==> Some(r.value) == reply.value.body.pieceData && |r.value| > 0
  {
    if reply.Ok? && reply.value.body.GetPieceResponseBody? && HasData(reply.value)
    then reply.value.body.pieceData
    else None
  }

  /** `contacts.forEach(routingTable::addContact)`, in list order. */
  function AddAll(rt: RoutingTables.RoutingTable, cs: seq<Contact>, now: int): (r: RoutingTables.RoutingTable)
    requires RoutingTables.Valid(rt)
    ensures RoutingTables.Valid(r)
    ensures r.localId == rt.localId
    decreases |cs|
  {
    if |cs| == 0 then rt
    else AddAll(Offer(rt, cs[0], now), cs[1..], now)
  }

  /** `routingTable.addContact(c)` with its answer dropped. */
  function Offer(rt: RoutingTables.RoutingTable, c: Contact, now: int): (r: RoutingTables.RoutingTable)
    requires RoutingTables.Valid(rt)
    ensures RoutingTables.Valid(r) && r.localId == rt.localId
    ensures forall id | id != c.nodeId ::
      RoutingTables.Lookup(r.allContacts, id) == RoutingTables.Lookup(rt.allContacts, id)
    ensures KBuckets.HasId(rt.allContacts, c.nodeId) ==>
      RoutingTables.Lookup(r.allContacts, c.nodeId) ==
        Some(RoutingTables.Refresh(RoutingTables.Lookup(rt.allContacts, c.nodeId).value, c, now))
  {
    RoutingTables.AddContact(rt, c, now).0
  }

  /** Offering a list of contacts changes no entry whose id is not on the list. */
  lemma {:induction false} AddAllKeepsOthers(rt: RoutingTables.RoutingTable, cs: seq<Contact>, now: int, id: Id)
    requires RoutingTables.Valid(rt)
    requires !KBuckets.HasId(cs, id)
    ensures RoutingTables.Lookup(AddAll(rt, cs, now).allContacts, id) == RoutingTables.Lookup(rt.allContacts, id)
    decreases |cs|
  {
    if |cs| > 0 {
      assert cs[0].nodeId != id;
      AddAllKeepsOthers(Offer(rt, cs[0], now), cs[1..], now, id);
    }
  }

  /**
   * `findNode(contact, target)`: the contacts of a FIND_NODE_RESPONSE, each offered to the
   * routing table; anything else yields the empty list.
   */
  function FindNode(rt: RoutingTables.RoutingTable, reply: Result<Message>, now: int): (r: (seq<Contact>, RoutingTables.RoutingTable))
    requires RoutingTables.Valid(rt)
    ensures RoutingTables.Valid(r.1) && r.1.localId == rt.localId
    ensures reply.Ok? && reply.value.body.FindNodeResponseBody? ==> r.0 == reply.value.body.contacts
    ensures !(reply.Ok? && reply.value.body.FindNodeResponseBody?) ==> r == ([], rt)
  {
    if reply.Ok? && reply.value.body.FindNodeResponseBody? then
      var cs := reply.value.body.contacts;
      (cs, AddAll(rt, cs, now))
    else ([], rt)
  }

  /** `KademliaNode.FindValueResult`: a value, or the contacts to ask next. */
  datatype FindValueResult = FindValueResult(value: Option<Bytes>, contacts: seq<Contact>)

  /**
   * `findValue(contact, key)`: a FIND_VALUE_RESPONSE with a value yields that value; one
   * without yields its contacts, each offered to the routing table (a null list throws,
   * which the call turns into the empty result); anything else yields the empty result.
   */
  function FindValue(rt: RoutingTables.RoutingTable, reply: Result<Message>, now: int): (r: (FindValueResult, RoutingTables.RoutingTable))
    requires RoutingTables.Valid(rt)
    ensures RoutingTables.Valid(r.1) && r.1.localId == rt.localId
    ensures r.0.value.Some? <==> reply.Ok? && reply.value.body.FindValueResponseBody? && HasValue(reply.value)
    ensures r.0.value.Some? ==> r.0.value == reply.value.body.value && r.1 == rt
    ensures (r.0.value.None? && reply.Ok? && reply.value.body.FindValueResponseBody? &&
             reply.value.body.closest.Some?) ==> r.0.contacts == reply.value.body.closest.value
    ensures (r.0.value.None? && !(reply.Ok? && reply.value.body.FindValueResponseBody? &&
             reply.value.body.closest.Some?)) ==> r == (FindValueResult(None, []), rt)
  {
    if reply.Ok? && reply.value.body.FindValueResponseBody? then
      var m := reply.value;
      if HasValue(m) then (FindValueResult(m.body.value, []), rt)
      else match m.body.closest
        case None => (FindValueResult(None, []), rt)
        case Some(cs) => (FindValueResult(None, cs), AddAll(rt, cs, now))
    else (FindValueResult(None, []), rt)
  }
}

=== FILE: server.dfy ===
/**
 * `dht.KademliaServer`: what the node does with one decoded message. A response goes to
 * the RPC layer; a request first puts its sender into the routing table and is then
 * answered. Replies are returned instead of sent; their `messageId` (a random UUID) is the
 * parameter `freshId`.
 */
module Server {
  import opened Common
  import opened NodeIds
  import opened Contacts
  import opened Messages
  import opened NodeStates
  import RoutingTables
  import DataStores
  import PieceManagers
  import MetadataStores
  import Closest
  import KBuckets
  import Rpc

  /** A UDP port, as a received packet reports it. */
  type Port = p: int | 0 <= p <= MaxPort

  /** A received datagram, decoded. */
  datatype Packet = Packet(message: Message, ip: Bytes, port: Port)

  /**
   * `isResponse`: the six tags the server forwards to the RPC layer. `STORE_PIECE_RESPONSE`
   * is not among them.
   */
  function IsResponse(m: Message): (r: bool)
    ensures r <==> Rpc.RequestIdOf(m).Some? && TypeOf(m) != StorePieceResponse
  {
    var t := TypeOf(m);
    t.Pong? || t.StoreResponse? || t.FindNodeResponse? || t.FindValueResponse? || t.GetPiecesResponse?
      || t.StoreMetadataResponse?
  }

  /** The seven request tags `handleMessage` answers. */
  predicate Answered(t: MessageType) {
    t.Ping? || t.Store? || t.FindNode? || t.FindValue? || t.StorePiece? || t.GetPiece? || t.StoreMetadata?
  }

  /** The request tags are exactly the seven request bodies. */
  lemma AnsweredBodies(m: Message)
    ensures Answered(TypeOf(m)) <==>
      || m.body.PingBody? || m.body.StoreBody? || m.body.FindNodeBody? || m.body.FindValueBody?
      || m.body.StorePieceBody? || m.body.GetPieceBody? || m.body.StoreMetadataBody?
  {
  }

  /** Every class the RPC layer correlates except STORE_PIECE_RESPONSE is forwarded. */
  lemma ResponsesForwarded(m: Message)
    ensures IsResponse(m) ==> Rpc.RequestIdOf(m).Some?
    ensures Rpc.RequestIdOf(m).Some? && !IsResponse(m) <==> TypeOf(m) == StorePieceResponse
  {
  }

  /**
   * The HTTP port recorded for a request's sender: the message's own for `HttpAware`
   * messages, otherwise derived from the UDP source port.
   */
  function SenderHttpPort(m: Message, udpPort: Port): (r: int)
    ensures HttpAwarePort(m).Some? ==> r == HttpAwarePort(m).value
    ensures HttpAwarePort(m).None? ==> 8082 <= r < 8082 + 2206
  {
    match HttpAwarePort(m)
    case Some(p) => p
    case None => udpPort % 2206 + 8082
  }

  /** `list` is an answer to "the `count` contacts of `pool` closest to `target`". */
  predicate ClosestOf(list: seq<Contact>, pool: seq<Contact>, target: Id, count: nat) {
    && |list| == Min(count, |pool|)
    && multiset(list) <= multiset(pool)
    && forall x, i | x in multiset(pool) - multiset(list) && 0 <= i < |list| ::
         Closest.Dist(list[i], target) <= Closest.Dist(x, target)
  }

  /** `routingTable.addContact(sender)`. */
  function AddSender(st: NodeState, sender: Contact, now: int): (r: NodeState)
    requires Valid(st)
    ensures Valid(r)
    ensures r == st.(routing := r.routing)
    ensures forall id | id != sender.nodeId ::
      RoutingTables.GetContact(r.routing, id) == RoutingTables.GetContact(st.routing, id)
    ensures RoutingTables.GetContact(st.routing, sender.nodeId).Some? ==>
      RoutingTables.GetContact(r.routing, sender.nodeId) ==
        Some(RoutingTables.Refresh(RoutingTables.GetContact(st.routing, sender.nodeId).value, sender, now))
  {
    st.(routing := Rpc.Offer(st.routing, sender, now))
  }

  /** PING: a PONG whose request id is the ping's message id. */
  function HandlePing(st: NodeState, m: Message, freshId: string): (r: Message)
    ensures TypeOf(r) == Pong && r.body.requestId == m.messageId && r.senderId == st.localId
    ensures Rpc.RequestIdOf(r) == Some(m.messageId)
  {
    NewPong(freshId, st.localId, m.messageId)
  }

  /** STORE: the pair is stored only when neither key nor value is null. */
  function HandleStore(st: NodeState, m: Message, now: int, freshId: string): (r: (NodeState, Message))
    requires m.body.StoreBody?
    requires Valid(st)
    ensures Valid(r.0) && r.0 == st.(data := r.0.data)
    ensures TypeOf(r.1) == StoreResponse && r.1.body.requestId == m.messageId && r.1.senderId == st.localId
    ensures Rpc.RequestIdOf(r.1) == Some(m.messageId)
    ensures r.1.body.success <==> m.body.storeKey.Some? && m.body.value.Some?
    ensures !r.1.body.success ==> r.0 == st
    ensures r.1.body.success ==>
      DataStores.Get(r.0.data, m.body.storeKey.value, now).0 == m.body.value
  {
    match (m.body.storeKey, m.body.value)
    case (Some(key), Some(value)) =>
      DataStores.PutThenGet(st.data, key, value, now, now);
      (st.(data := DataStores.Put(st.data, key, value, now)), NewStoreResponse(freshId, st.localId, m.messageId, true))
    case _ => (st, NewStoreResponse(freshId, st.localId, m.messageId, false))
  }

  /** FIND_NODE: the K contacts closest to the target. */
  function HandleFindNode(st: NodeState, m: Message, freshId: string): (r: Message)
    requires m.body.FindNodeBody?
    ensures TypeOf(r) == FindNodeResponse && r.body.requestId == m.messageId && r.senderId == st.localId
    ensures Rpc.RequestIdOf(r) == Some(m.messageId)
    ensures ClosestOf(r.body.contacts, st.routing.allContacts, m.body.targetId, K)
  {
    NewFindNodeResponse(freshId, st.localId, m.messageId,
      RoutingTables.FindClosestContacts(st.routing, m.body.targetId, K))
  }

  /**
   * FIND_VALUE: the live stored value with null contacts, or a null value with the K
   * closest contacts. Reading the store erases an expired entry.
   */
  function HandleFindValue(st: NodeState, m: Message, now: int, freshId: string): (r: (NodeState, Message))
    requires m.body.FindValueBody?
    requires Valid(st)
    ensures Valid(r.0) && r.0 == st.(data := r.0.data)
    ensures TypeOf(r.1) == FindValueResponse && r.1.body.requestId == m.messageId && r.1.senderId == st.localId
    ensures Rpc.RequestIdOf(r.1) == Some(m.messageId)
    ensures r.1.body.value == DataStores.Get(st.data, m.body.key, now).0
    ensures r.1.body.value.Some? ==> r.1.body.closest.None?
    ensures r.1.body.value.None? ==>
      r.1.body.closest.Some? && ClosestOf(r.1.body.closest.value, st.routing.allContacts, m.body.key, K)
  {
    var got := DataStores.Get(st.data, m.body.key, now);
    var closest := if got.0.None? then Some(RoutingTables.FindClosestContacts(st.routing, m.body.key, K)) else None;
    (st.(data := got.1), NewFindValueResponse(freshId, st.localId, m.messageId, got.0, closest))
  }

  /**
   * `handleStorePiece`: a null piece throws before anything is saved and is answered with
   * failure; otherwise the piece is saved, success is answered and the sender is offered
   * to the routing table a second time.
   */
  function HandleStorePiece(st: NodeState, m: Message, sender: Contact, now: int, freshId: string): (r: (NodeState, Message))
    requires m.body.StorePieceBody?
    requires Valid(st)
    ensures Valid(r.0) && r.0.localId == st.localId && r.0.data == st.data && r.0.metadata == st.metadata
    ensures r.0.pending == st.pending
    ensures TypeOf(r.1) == StorePieceResponse && r.1.body.requestId == m.messageId && r.1.senderId == st.localId
    ensures Rpc.RequestIdOf(r.1) == Some(m.messageId)
    ensures r.1.body.success <==> m.body.pieceData.Some?
    ensures !r.1.body.success ==> r.0 == st
    ensures r.1.body.success ==> PieceManagers.LoadPieceData(r.0.pieces, m.body.pieceKey) == m.body.pieceData
  {
    match m.body.pieceData
    case None => (st, NewStorePieceResponse(freshId, st.localId, m.messageId, false))
    case Some(data) =>
      var saved := st.(pieces := PieceManagers.SavePieceData(st.pieces, m.body.pieceKey, Some(data)).0);
      (AddSender(saved, sender, now), NewStorePieceResponse(freshId, st.localId, m.messageId, true))
  }

  /** `handleGetPiece`: the locally stored bytes, or null data; the sender is offered again. */
  function HandleGetPiece(st: NodeState, m: Message, sender: Contact, now: int, freshId: string): (r: (NodeState, Message))
    requires m.body.GetPieceBody?
    requires Valid(st)
    ensures Valid(r.0) && r.0 == st.(routing := r.0.routing)
    ensures TypeOf(r.1) == GetPiecesResponse && r.1.body.requestId == m.messageId && r.1.senderId == st.localId
    ensures Rpc.RequestIdOf(r.1) == Some(m.messageId)
    ensures r.1.body.pieceKey == m.body.pieceKey
    ensures r.1.body.pieceData == PieceManagers.LoadPieceData(st.pieces, m.body.pieceKey)
  {
    var data := PieceManagers.LoadPieceData(st.pieces, m.body.pieceKey);
    (AddSender(st, sender, now), NewGetPieceResponse(freshId, st.localId, m.messageId, m.body.pieceKey, data))
  }

  /**
   * `handleStoreMetadata`: a null torrent, or one without an info hash, throws and is
   * answered with failure; otherwise it is stored, success is answered and the sender is
   * offered again.
   */
  function HandleStoreMetadata(st: NodeState, m: Message, sender: Contact, now: int, freshId: string): (r: (NodeState, Message))
    requires m.body.StoreMetadataBody?
    requires Valid(st)
    ensures Valid(r.0) && r.0.localId == st.localId && r.0.data == st.data && r.0.pieces == st.pieces
    ensures r.0.pending == st.pending
    ensures TypeOf(r.1) == StoreMetadataResponse && r.1.body.requestId == m.messageId && r.1.senderId == st.localId
    ensures Rpc.RequestIdOf(r.1) == Some(m.messageId)
    ensures r.1.body.success <==> m.body.metadata.Some? && m.body.metadata.value.infoHash.Some?
    ensures !r.1.body.success ==> r.0 == st
    ensures r.1.body.success ==>
      MetadataStores.GetMetadata(r.0.metadata, m.body.metadata.value.infoHash.value) == m.body.metadata
  {
    match m.body.metadata
    case None => (st, NewStoreMetadataResponse(freshId, st.localId, m.messageId, false))
    case Some(t) =>
      match MetadataStores.StoreMetadata(st.metadata, t)
      case Err(_) => (st, NewStoreMetadataResponse(freshId, st.localId, m.messageId, false))
      case Ok(ms) =>
        (AddSender(st.(metadata := ms), sender, now), NewStoreMetadataResponse(freshId, st.localId, m.messageId, true))
  }

  /**
   * The request `switch` of `handleMessage`, after the sender has been added. Only the
   * seven request tags are answered; the others (among them STORE_PIECE_RESPONSE) get no
   * reply. Every reply answers the request it was built for: its request id is the
   * request's message id and its sender is the local node. The routing table is left as
   * it was or the sender is offered to it once more.
   */
  function Dispatch(st: NodeState, m: Message, sender: Contact, now: int, freshId: string): (r: (NodeState, Option<Message>))
    requires Valid(st)
    ensures Valid(r.0) && r.0.localId == st.localId && r.0.pending == st.pending
    ensures r.1.Some? <==> Answered(TypeOf(m))
    ensures r.1.Some? ==> Rpc.RequestIdOf(r.1.value) == Some(m.messageId) && r.1.value.senderId == st.localId
    ensures r.0.routing == st.routing || r.0.routing == Rpc.Offer(st.routing, sender, now)
  {
    if Answered(TypeOf(m)) then
      var h := Answer(st, m, sender, now, freshId);
      (h.0, Some(h.1))
    else (st, None)
  }

  /** The reply to one of the seven request tags, with the state after handling it. */
  function Answer(st: NodeState, m: Message, sender: Contact, now: int, freshId: string): (r: (NodeState, Message))
    requires Valid(st) && Answered(TypeOf(m))
    ensures Valid(r.0) && r.0.localId == st.localId && r.0.pending == st.pending
    ensures Rpc.RequestIdOf(r.1) == Some(m.messageId) && r.1.senderId == st.localId
    ensures r.0.routing == st.routing || r.0.routing == Rpc.Offer(st.routing, sender, now)
  {
    AnsweredBodies(m);
    match m.body
    case PingBody(_) => (st, HandlePing(st, m, freshId))
    case StoreBody(_, _, _) => HandleStore(st, m, now, freshId)
    case FindNodeBody(_) => (st, HandleFindNode(st, m, freshId))
    case FindValueBody(_) => HandleFindValue(st, m, now, freshId)
    case StorePieceBody(_, _, _) => HandleStorePiece(st, m, sender, now, freshId)
    case GetPieceBody(_, _) => HandleGetPiece(st, m, sender, now, freshId)
    case StoreMetadataBody(_, _) => HandleStoreMetadata(st, m, sender, now, freshId)
  }

  /** The contact `handleMessage` builds for a request's sender. */
  function SenderOf(pkt: Packet, now: int): (c: Contact)
    ensures NewContact(pkt.message.senderId, pkt.ip, pkt.port, SenderHttpPort(pkt.message, pkt.port), now) == Ok(c)
  {
    Contact(pkt.message.senderId, pkt.ip, pkt.port, now, 0, SenderHttpPort(pkt.message, pkt.port))
  }

  /**
   * `handleMessage(packet)` at clock time `now`: the node's next state and the reply sent
   * back to the packet's source, if any.
   */
  function HandleMessage(st: NodeState, pkt: Packet, now: int, freshId: string): (r: (NodeState, Option<Message>))
    requires Valid(st)
    ensures Valid(r.0) && r.0.localId == st.localId
    ensures IsResponse(pkt.message) ==>
      r == (st.(pending := Rpc.HandleResponse(st.pending, pkt.message).0), None)
    ensures !IsResponse(pkt.message) ==> r.0.pending == st.pending
  {
    var m := pkt.message;
    if IsResponse(m) then (st.(pending := Rpc.HandleResponse(st.pending, m).0), None)
    else
      var sender := SenderOf(pkt, now);
      Dispatch(AddSender(st, sender, now), m, sender, now, freshId)
  }

  /**
   * A request's sender is offered to the routing table before the request is handled: a
   * sender whose id was already indexed is refreshed with the packet's time, whatever the
   * request.
   */
  lemma RequestRefreshesKnownSender(st: NodeState, pkt: Packet, now: int, freshId: string)
    requires Valid(st)
    requires !IsResponse(pkt.message)
    requires KBuckets.HasId(st.routing.allContacts, pkt.message.senderId)
    ensures RoutingTables.Lookup(HandleMessage(st, pkt, now, freshId).0.routing.allContacts, pkt.message.senderId).Some?
    ensures RoutingTables.Lookup(HandleMessage(st, pkt, now, freshId).0.routing.allContacts, pkt.message.senderId).value.lastSeen == now
  {
    var id := pkt.message.senderId;
    var sender := SenderOf(pkt, now);
    var added := AddSender(st, sender, now);
    assert added.routing == Rpc.Offer(st.routing, sender, now);
    var once := RoutingTables.Lookup(added.routing.allContacts, id);
    assert once.Some? && once.value.lastSeen == now;
    var r := Dispatch(added, pkt.message, sender, now, freshId);
    assert HandleMessage(st, pkt, now, freshId) == r;
    if r.0.routing != added.routing {
      assert KBuckets.HasId(added.routing.allContacts, id);
    }
  }

  /**
   * A STORE_PIECE_RESPONSE arriving over UDP is treated as a request: its sender is added
   * to the routing table, it gets no reply, and the pending table is left as it was, so
   * the STORE_PIECE it answers is never completed by it.
   */
  lemma StorePieceResponseNotForwarded(st: NodeState, pkt: Packet, now: int, freshId: string)
    requires Valid(st)
    requires TypeOf(pkt.message) == StorePieceResponse
    ensures HandleMessage(st, pkt, now, freshId).0.pending == st.pending
    ensures HandleMessage(st, pkt, now, freshId).1.None?
  {
    var sender := SenderOf(pkt, now);
    var added := AddSender(st, sender, now);
    assert !IsResponse(pkt.message) && !Answered(TypeOf(pkt.message));
    assert HandleMessage(st, pkt, now, freshId) == Dispatch(added, pkt.message, sender, now, freshId);
  }

  /** The responses of an incoming UDP stream that reach the RPC layer, in order. */
  function Forwarded(incoming: seq<Message>): (r: seq<Message>)
    ensures forall i | 0 <= i < |r| :: IsResponse(r[i])
    ensures forall i | 0 <= i < |incoming| :: IsResponse(incoming[i]) ==> incoming[i] in r
  {
    if |incoming| == 0 then []
    else (if IsResponse(incoming[0]) then [incoming[0]] else []) + Forwarded(incoming[1..])
  }

  /**
   * A STORE_PIECE small enough for UDP is never confirmed over UDP: when every message
   * answering it is a STORE_PIECE_RESPONSE, none is forwarded, and the request times out
   * although the receiving node stored the piece and answered with success.
   */
  lemma {:induction false} SmallStorePieceTimesOut(pending: Rpc.Pending, request: Message, encodedSize: nat,
                                                   incoming: seq<Message>, tcpReply: Result<Message>)
    requires encodedSize <= Rpc.UdpLimit
    requires forall i | 0 <= i < |incoming| :: Rpc.RequestIdOf(incoming[i]) == Some(request.messageId) ==>
      TypeOf(incoming[i]) == StorePieceResponse
    ensures Rpc.SendRequest(pending, request, encodedSize, Rpc.Network(tcpReply, true, Forwarded(incoming))).1
         == Err(Timeout)
  {
    var fw := Forwarded(incoming);
    forall i | 0 <= i < |fw| ensures Rpc.RequestIdOf(fw[i]) != Some(request.messageId) {
      ResponsesForwarded(fw[i]);
      ForwardedFrom(incoming, i);
    }
  }

  lemma {:induction false} ForwardedFrom(incoming: seq<Message>, i: nat)
    requires i < |Forwarded(incoming)|
    ensures Forwarded(incoming)[i] in incoming
  {
    if |incoming| > 0 {
      var head := if IsResponse(incoming[0]) then [incoming[0]] else [];
      if i >= |head| {
        ForwardedFrom(incoming[1..], i - |head|);
      }
    }
  }

  /**
   * `processTCPMessage` for a message read from a TCP connection, after
   * `handleTCPConnection` has offered the sender (recorded with the server's own port) to
   * the routing table. The second component lists replies sent over UDP by the shared
   * handlers, the third the reply written back on the connection.
   */
  function ProcessTcpMessage(st: NodeState, m: Message, sender: Contact, now: int, freshId: string)
    : (r: (NodeState, seq<Message>, Option<Message>))
    requires Valid(st)
    ensures Valid(r.0) && r.0.localId == st.localId
    ensures r.2.Some? ==> Rpc.RequestIdOf(r.2.value) == Some(m.messageId) && r.2.value.senderId == st.localId
  {
    match m.body
    case StorePieceBody(_, _, _) =>
      var h := HandleStorePiece(st, m, sender, now, freshId);
      (h.0, [h.1], Some(NewStorePieceResponse(freshId, st.localId, m.messageId, true)))
    case GetPieceBody(key, _) =>
      var data := PieceManagers.LoadPieceData(st.pieces, key);
      (st, [], Some(NewGetPieceResponse(freshId, st.localId, m.messageId, key, data)))
    case StoreMetadataBody(_, _) =>
      var h := HandleStoreMetadata(st, m, sender, now, freshId);
      (h.0, [h.1], Some(NewStoreMetadataResponse(freshId, st.localId, m.messageId, true)))
    case GetPieceResponseBody(_, _, _) => (st.(pending := Rpc.HandleResponse(st.pending, m).0), [], None)
    case _ => (st, [], None)
  }

  /**
   * The reply on the connection for each tag: STORE_PIECE and STORE_METADATA are always
   * confirmed with success, whatever the shared handler answered over UDP; GET_PIECE is
   * answered with the stored bytes or null data; a GET_PIECES_RESPONSE is passed to the
   * RPC layer; every other tag is dropped.
   */
  lemma TcpReplies(st: NodeState, m: Message, sender: Contact, now: int, freshId: string)
    requires Valid(st)
    ensures var r := ProcessTcpMessage(st, m, sender, now, freshId);
      TypeOf(m) == StorePiece ==>
        r.2.Some? && TypeOf(r.2.value) == StorePieceResponse && r.2.value.body.success &&
        |r.1| == 1 && r.1[0].body.success == m.body.pieceData.Some?
    ensures var r := ProcessTcpMessage(st, m, sender, now, freshId);
      TypeOf(m) == GetPiece ==>
        r.2.Some? && r.2.value.body.GetPieceResponseBody? &&
        r.2.value.body.pieceData == PieceManagers.LoadPieceData(st.pieces, m.body.pieceKey) && r.0 == st
    ensures var r := ProcessTcpMessage(st, m, sender, now, freshId);
      TypeOf(m) == StoreMetadata ==>
        r.2.Some? && TypeOf(r.2.value) == StoreMetadataResponse && r.2.value.body.success && |r.1| == 1
    ensures TypeOf(m) == GetPiecesResponse ==>
      ProcessTcpMessage(st, m, sender, now, freshId) == (st.(pending := Rpc.HandleResponse(st.pending, m).0), [], None)
    ensures !(TypeOf(m).StorePiece? || TypeOf(m).GetPiece? || TypeOf(m).StoreMetadata? || TypeOf(m).GetPiecesResponse?)
      ==> ProcessTcpMessage(st, m, sender, now, freshId) == (st, [], None)
  {
    match m.body {
      case StorePieceBody(_, _, _) =>
      case GetPieceBody(_, _) =>
      case StoreMetadataBody(_, _) =>
      case GetPieceResponseBody(_, _, _) =>
      case _ =>
    }
  }

  /**
   * `handleTCPConnection`: the sender is recorded with the server's own port (not the
   * peer's) and an HTTP port equal to it for `HttpAware` messages, else 0.
   */
  function HandleTcpConnection(st: NodeState, m: Message, ip: Bytes, serverPort: Port, now: int, freshId: string)
    : (r: (NodeState, seq<Message>, Option<Message>))
    requires Valid(st)
    ensures Valid(r.0) && r.0.localId == st.localId
    ensures r.2.Some? ==> Rpc.RequestIdOf(r.2.value) == Some(m.messageId) && r.2.value.senderId == st.localId
  {
    var sender := Contact(m.senderId, ip, serverPort, now, 0, if HttpAwarePort(m).Some? then serverPort else 0);
    ProcessTcpMessage(AddSender(st, sender, now), m, sender, now, freshId)
  }

  /**
   * Over TCP a STORE_PIECE is always confirmed: even a null piece, which is not stored and
   * is answered with failure over UDP, gets a success reply on the connection.
   */
  lemma TcpStorePieceAlwaysConfirmed(st: NodeState, m: Message, sender: Contact, now: int, freshId: string)
    requires Valid(st)
    requires m.body.StorePieceBody? && m.body.pieceData.None?
    ensures ProcessTcpMessage(st, m, sender, now, freshId).2.value.body.success
    ensures ProcessTcpMessage(st, m, sender, now, freshId).0.pieces == st.pieces
    ensures !ProcessTcpMessage(st, m, sender, now, freshId).1[0].body.success
  {
  }
}

=== FILE: torrent_file.dfy ===
/**
 * The gateway's `model.TorrentFile`: a file's name, size, piece length, per-piece SHA-1 hex
 * digests and an overall info hash.
 */
module Torrents {
  import opened Common
  import Hex

  /** `infoHash` is null until generated or set. */
  datatype TorrentFile = TorrentFile(
    fileName: string,
    fileSize: int,
    pieceLength: int,
    pieces: seq<string>,
    infoHash: Option<string>)

  /** `HashUtil.sha1(bytes)`: the digest as 40 lower-case hex characters. */
  function Sha1Hex(data: Bytes, sha1: Sha1): (r: string)
    ensures |r| == 40
    ensures forall i | 0 <= i < |r| :: r[i] in Hex.Alphabet
  {
    Hex.Encode(sha1(data))
  }

  /** The constructor: no pieces and no info hash yet. */
  function NewTorrent(fileName: string, fileSize: int, pieceLength: int): (t: TorrentFile)
    ensures t.pieces == [] && t.infoHash == None
    ensures t.fileName == fileName && t.fileSize == fileSize && t.pieceLength == pieceLength
  {
    TorrentFile(fileName, fileSize, pieceLength, [], None)
  }

  /** `addPieceHash(data)`: appends the piece's hex digest and changes nothing else. */
  function AddPieceHash(t: TorrentFile, data: Bytes, sha1: Sha1): (r: TorrentFile)
    ensures |r.pieces| == |t.pieces| + 1
    ensures r.pieces[..|t.pieces|] == t.pieces
    ensures r.pieces[|t.pieces|] == Sha1Hex(data, sha1)
    ensures r.(pieces := t.pieces) == t
  {
    t.(pieces := t.pieces + [Sha1Hex(data, sha1)])
  }

  /** The decimal digits of a natural number, as `StringBuilder.append(long)` prints them. */
  function Digits(n: nat): (r: string)
    ensures |r| >= 1
    ensures forall i | 0 <= i < |r| :: '0' <= r[i] <= '9'
    ensures r[0] == '0' ==> r == "0"
  {
    var d := ['0' + (n % 10) as char];
    if n < 10 then d else Digits(n / 10) + d
  }

  /** The decimal value of a digit string, most significant first; it inverts `Digits`. */
  function ReadDigits(s: string): nat
    requires forall i | 0 <= i < |s| :: '0' <= s[i] <= '9'
  {
    if |s| == 0 then 0
    else ReadDigits(s[..|s| - 1]) * 10 + (s[|s| - 1] - '0') as nat
  }

  /** Reading the printed digits back gives the number: the printing loses nothing. */
  lemma {:induction false} DigitsRoundTrip(n: nat)
    ensures ReadDigits(Digits(n)) == n
    decreases n
  {
    if n >= 10 {
      DigitsRoundTrip(n / 10);
      var p := Digits(n / 10);
      var s := Digits(n);
      assert s[..|s| - 1] == p;
    }
  }

  /** `Long.toString(n)`: a minus sign for negative values. */
  function Decimal(n: int): string {
    if n < 0 then "-" + Digits(-n) else Digits(n)
  }

  /** The printed size reads back as the size, its sign shown by a leading minus. */
  lemma DecimalRoundTrip(n: int)
    ensures |Decimal(n)| >= 1
    ensures Decimal(n)[0] == '-' <==> n < 0
    ensures n >= 0 ==> ReadDigits(Decimal(n)) == n
    ensures n < 0 ==> ReadDigits(Decimal(n)[1..]) == -n
  {
    if n < 0 {
      DigitsRoundTrip(-n);
      assert Decimal(n)[1..] == Digits(-n);
    } else {
      DigitsRoundTrip(n);
    }
  }

  function Concat(parts: seq<string>): string {
    if |parts| == 0 then "" else parts[0] + Concat(parts[1..])
  }

  /** The text `generateInfoHash` digests: name, size and piece digests with no separators. */
  function InfoHashInput(t: TorrentFile): string {
    t.fileName + Decimal(t.fileSize) + Concat(t.pieces)
  }

  /**
   * `generateInfoHash()`: the info hash becomes the hex SHA-1 of the platform-charset bytes
   * of the name, the size and the piece digests; no other field changes.
   */
  function GenerateInfoHash(t: TorrentFile, sha1: Sha1, charset: Charset): (r: TorrentFile)
    ensures r.infoHash.Some? && |r.infoHash.value| == 40
    ensures r.(infoHash := t.infoHash) == t
  {
    t.(infoHash := Some(Sha1Hex(charset(InfoHashInput(t)), sha1)))
  }

  /** `setInfoHash(h)`: overwrites the info hash and nothing else. */
  function SetInfoHash(t: TorrentFile, h: Option<string>): (r: TorrentFile)
    ensures r.infoHash == h
    ensures r.(infoHash := t.infoHash) == t
  {
    t.(infoHash := h)
  }

  /** The info hash depends on the name, the size and the piece list only. */
  lemma InfoHashDependsOnContent(t: TorrentFile, u: TorrentFile, sha1: Sha1, charset: Charset)
    requires t.fileName == u.fileName && t.fileSize == u.fileSize && t.pieces == u.pieces
    ensures GenerateInfoHash(t, sha1, charset).infoHash == GenerateInfoHash(u, sha1, charset).infoHash
  {
  }

  /**
   * With no separators, the torrents ("a1", 23 bytes) and ("a12", 3 bytes) with the same
   * pieces digest the same text, and so get the same info hash.
   */
  lemma NameSizeCollision(pieces: seq<string>, l1: int, l2: int, sha1: Sha1, charset: Charset)
    ensures GenerateInfoHash(TorrentFile("a1", 23, l1, pieces, None), sha1, charset).infoHash
         == GenerateInfoHash(TorrentFile("a12", 3, l2, pieces, None), sha1, charset).infoHash
  {
    assert Decimal(23) == "23";
    assert Decimal(3) == "3";
    assert "a1" + "23" == "a12" + "3";
  }

  /**
   * Piece digests are fixed-width, so for a fixed name and size the digested text determines
   * the whole piece list: two torrents differing in any piece digest never digest the same text.
   */
  lemma {:induction false} InfoHashInputDeterminesPieces(t: TorrentFile, u: TorrentFile)
    requires t.fileName == u.fileName && t.fileSize == u.fileSize
    requires forall i | 0 <= i < |t.pieces| :: |t.pieces[i]| == 40
    requires forall i | 0 <= i < |u.pieces| :: |u.pieces[i]| == 40
    requires InfoHashInput(t) == InfoHashInput(u)
    ensures t.pieces == u.pieces
  {
    var prefix := t.fileName + Decimal(t.fileSize);
    assert InfoHashInput(t) == prefix + Concat(t.pieces);
    assert InfoHashInput(u) == prefix + Concat(u.pieces);
    assert Concat(t.pieces) == (prefix + Concat(t.pieces))[|prefix|..];
    assert Concat(u.pieces) == (prefix + Concat(u.pieces))[|prefix|..];
    ConcatInjective(t.pieces, u.pieces);
  }

  lemma {:induction false} ConcatLength(parts: seq<string>)
    requires forall i | 0 <= i < |parts| :: |parts[i]| == 40
    ensures |Concat(parts)| == 40 * |parts|
  {
    if |parts| > 0 {
      ConcatLength(parts[1..]);
    }
  }

  lemma {:induction false} ConcatInjective(a: seq<string>, b: seq<string>)
    requires forall i | 0 <= i < |a| :: |a[i]| == 40
    requires forall i | 0 <= i < |b| :: |b[i]| == 40
    requires Concat(a) == Concat(b)
    ensures a == b
  {
    ConcatLength(a);
    ConcatLength(b);
    if |a| > 0 {
      var ca := Concat(a);
      assert ca == a[0] + Concat(a[1..]);
      assert Concat(b) == b[0] + Concat(b[1..]);
      assert a[0] == ca[..40];
      assert b[0] == Concat(b)[..40];
      assert Concat(a[1..]) == ca[40..];
      assert Concat(b[1..]) == Concat(b)[40..];
      ConcatInjective(a[1..], b[1..]);
      assert a == [a[0]] + a[1..];
      assert b == [b[0]] + b[1..];
    }
  }
}
